=== FILE: README.md ===
# A Dafny model of the linuxdoom-1.10 Windows port core

This project models the parts of the Windows port of linuxdoom-1.10 that do
pure computation, and proves properties about them:

- the zone memory allocator (`z_zone.c`);
- the texture column machinery of `r_data.c`: the post format of a patch
  column, `R_DrawColumnInCache`, `R_GenerateLookup`, `R_GenerateComposite`,
  `R_GetColumn`, the width mask and the texture name lookup;
- the index arithmetic of the column and span drawers and the translation
  tables in `r_draw.c`;
- the sample conversion and channel bookkeeping of the XAudio2 sound module
  (`i_sound_win.c`);
- the key maps, the palette and 8-bit to BGRA conversion, and the event
  encoding of `I_StartTic` (`i_video_win.c`);
- the IWAD scan, game-mode classification and PWAD list of the start-up
  menu (`menu_wad.c`);
- the command-line splitter, key map and quit flag of `win_main.c`. Its key
  map `VK_to_DoomKey` is never called: `MainWndProc` returns 0 for key and
  mouse messages (win_main.c:99-109), and `I_StartTic` translates them with
  the map of `i_video_win.c`. It is modelled only to compare the two.

Everything is written as immutable datatypes and pure functions, with a few
methods where the source's loop is the point. The zone is an address-ordered
sequence of block records. Block 0 is the `blocklist` sentinel, `next` and
`prev` are the neighbours in the ring, and the owner slots (`void **user`)
form a map from slot address to the pointer stored there. Fatal errors
(`I_Error`) are the `Fatal` case of `Wrappers.Outcome`, and a NULL result is
`Option.None`. Calls into code outside the model become parameters, and
I/O becomes an oracle parameter:

- the WAD lump cache, in the form of patch lumps and lump addresses;
- `GetFullPathNameA`, as a path function;
- `_access`, as a readability predicate;
- the XAudio2 engine's answers, as an `Engine` record;
- the queued window messages, as a sequence.

Files and modules:

| file | module | models |
|---|---|---|
| wrappers.dfy | Wrappers | `Option`, `Outcome` |
| ctypes.dfy | CTypes | C integer conversions: 32-bit wrap, `short`, `unsigned short`, `>> 16` |
| zone.dfy | Zone | the block list, its invariant, `Z_ClearZone`/`Z_Init`, the body of `Z_Free` |
| zone_runs.dfy | ZoneRuns | runs of free or purgeable blocks: when a run holds a size, and how merging and locked blocks change that |
| zone_malloc.dfy | ZoneMalloc | `Z_Malloc`: the rover scan with purging, the split, the owner |
| zone_ops.dfy | ZoneOps | `Z_Free`, `Z_FreeTags`, `Z_ChangeTag2`, `Z_FreeMemory`, `Z_CheckHeap` |
| posts.dfy | Posts | the column post format and `R_DrawColumnInCache` |
| texture_lookup.dfy | TextureLookup | `R_GenerateLookup` and the width mask of `R_InitTextures` |
| texture_composite.dfy | TextureComposite | `R_GenerateComposite` |
| texture_column.dfy | TextureColumn | `R_GetColumn` |
| texture_names.dfy | TextureNames | stored texture names, `R_CheckTextureNumForName`, `R_TextureNumForName` |
| draw.dfy | Draw | `r_draw.c` |
| sound.dfy | Sound | `i_sound_win.c` |
| video.dfy | Video | `i_video_win.c` |
| winmain.dfy | WinMain | `win_main.c` |
| menu.dfy | Menu | `menu_wad.c` |

Constants that come from headers outside the model follow linuxdoom-1.10:

- `SCREENWIDTH` 320, `SCREENHEIGHT` 200 and `FRACBITS` 16;
- `PU_STATIC` 1, `PU_PURGELEVEL` 100 and `PU_CACHE` 101;
- the `KEY_*` codes, with the values the literals of `i_video_win.c` spell out;
- a 64-bit build: `memblock_t` is 40 bytes and `memzone_t` 56.

`doomdef.h`, `d_event.h`, `z_zone.h`, `r_defs.h` and `v_video.c` are not part
of this model.

## Model

| member | source | states |
|---|---|---|
| Zone.Init | linuxdoom-1.10/z_zone.c:94-116 | after Z_Init the list is the sentinel plus one free block starting right after the zone header and filling the rest of the zone; the rover points at it; the zone is valid and only the sentinel is in use |
| Zone.ClearZone | linuxdoom-1.10/z_zone.c:68-87 | clearing a zone leaves one free block after the sentinel, with the rover on it and the owner slots untouched |
| Zone.FreeBlock | linuxdoom-1.10/z_zone.c:144-184 | Z_Free merges a free predecessor and then a free successor (exactly when they are free). The merged free block spans from the first to the last merged block. The rover moves onto it if it pointed at an absorbed block. Only a block with a real owner (user > 0x100) has its slot zeroed. The zone stays valid |
| Zone.FreeBlockLive | linuxdoom-1.10/z_zone.c:155-184 | freeing takes exactly the freed block out of the blocks in use and keeps the others in order |
| Zone.FreeBlockKeeps | linuxdoom-1.10/z_zone.c:159-184 | blocks outside the merged run keep their contents and shift down by the number absorbed |
| Zone.FreeBlockReleases | linuxdoom-1.10/z_zone.c:144-157 | freeing only releases: no block comes into use, the freed block's owner slot becomes NULL and every other owner slot keeps its value; freeing a purgeable block is a purge |
| ZoneMalloc.RoundUp4 | linuxdoom-1.10/z_zone.c:208 | `(size + 3) & ~3` is the least multiple of 4 not below size |
| ZoneMalloc.Need | linuxdoom-1.10/z_zone.c:208-221 | the bytes asked of the scan: the rounded size plus the block header |
| ZoneMalloc.ScanStart | linuxdoom-1.10/z_zone.c:225-231 | the scan starts at the rover, backed up one block when the block behind it is free, and stops at the block before that |
| ZoneMalloc.PurgeStep | linuxdoom-1.10/z_zone.c:250-259 | purging the rover's block frees it, merges it into the base block and only purges |
| ZoneMalloc.ScanStep | linuxdoom-1.10/z_zone.c:233-262 | one pass of the scan keeps the loop invariant, only purges, and brings the rover strictly closer to `start` (so the scan ends) |
| ZoneMalloc.StepAhead | linuxdoom-1.10/z_zone.c:233-262 | one pass of the loop keeps the answer to "is there room ahead": purging merges into the base block without changing it, a free block only moves the rover, and a locked block restarts the run after it |
| ZoneMalloc.PurgeAhead | linuxdoom-1.10/z_zone.c:250-259 | purging the rover's block keeps the loop invariant and the room ahead of the scan |
| ZoneMalloc.FreedAhead | linuxdoom-1.10/z_zone.c:144-184 | Z_Free of a purgeable block that merges into the run starting at the scan's base leaves the same room between the base and `start` |
| ZoneRuns.FitsMerge | linuxdoom-1.10/z_zone.c:159-184 | merging the first blocks of a run, all free or purgeable, into one block of their total size changes no answer to whether the run holds a size |
| ZoneRuns.FitsSkip | linuxdoom-1.10/z_zone.c:244-249 | a block that is neither free nor purgeable splits the room in two: a size fits exactly when it fits before the block or after it |
| ZoneMalloc.Scan | linuxdoom-1.10/z_zone.c:233-263 | the scan ends on a free block of at least the requested size, reached by purging only. From the starting position it fails, with the allocation message, exactly when no run of consecutive free or purgeable blocks between the scan's base and `start`, in ring order, holds the requested bytes |
| ZoneMalloc.Carve | linuxdoom-1.10/z_zone.c:266-284 | the chosen block is split exactly when more than MINFRAGMENT (64) bytes would be left: the granted block then has the requested size and a free block holds the rest; otherwise the whole block is granted |
| ZoneMalloc.RecordOwner | linuxdoom-1.10/z_zone.c:286-291 | with an owner, the slot receives the payload address and no other slot changes |
| ZoneMalloc.Grant | linuxdoom-1.10/z_zone.c:266-305 | the grant is fatal exactly when there is no owner and the tag is purgeable; otherwise the block is owned (or marked 2), tagged, and the rover moves past it |
| ZoneMalloc.Malloc | linuxdoom-1.10/z_zone.c:196-306 | Z_Malloc fails with "Z_Malloc: failed on allocation" exactly when no run of free or purgeable blocks ahead of the scan holds the rounded size plus a header. It succeeds exactly when there is such room and an owner is given or the tag is below PU_PURGELEVEL. A success is a valid allocation: a block of at least the rounded size, tagged and owned as asked, whose payload address is in the owner slot |
| ZoneMalloc.GrantAllocates | linuxdoom-1.10/z_zone.c:266-305 | granting the block the scan found, in a zone the scan reached by purging, meets the allocation promise |
| ZoneMalloc.MallocKeeps | linuxdoom-1.10/z_zone.c:233-303 | after Z_Malloc every block in use is the new one or was in use before, every block that could not be purged is still in use, and every owner slot other than the new block's keeps its value unless the block it owned was purged |
| ZoneMalloc.GrantAvoidsLocked | linuxdoom-1.10/z_zone.c:242-263 | the block granted never lies where a block that cannot be purged lies |
| ZoneMalloc.FreshZoneRoom | linuxdoom-1.10/z_zone.c:94-116 | a zone fresh from Z_Init has room for any request whose block fits after the zone header, so Z_Malloc then succeeds exactly when an owner is given or the tag is below PU_PURGELEVEL |
| ZoneOps.PayloadIndex | linuxdoom-1.10/z_zone.c:144 | the block a payload pointer names: the one whose header ends at the pointer, if any |
| ZoneOps.Free | linuxdoom-1.10/z_zone.c:133-185 | Z_Free(NULL) changes nothing; freeing any pointer keeps the zone valid and only releases: no block comes into use, and only the owner slots of blocks that left use change, to NULL |
| ZoneOps.FreeAfterMalloc | linuxdoom-1.10/z_zone.c:133-306 | freeing the pointer Z_Malloc just returned leaves in use only blocks that were in use before, and keeps every block that could not be purged |
| ZoneOps.FreeTags | linuxdoom-1.10/z_zone.c:313-375 | Z_FreeTags leaves in use the sentinel and exactly the blocks in use whose tag lies outside lowtag..hightag, in order; it only releases: only the owner slots of the freed blocks change, to NULL |
| ZoneOps.FreeTagsSelects | linuxdoom-1.10/z_zone.c:366-373 | a block stays in use across Z_FreeTags if and only if its tag lies outside the range |
| ZoneOps.FreeTagsFrom | linuxdoom-1.10/z_zone.c:350-374 | the loop from block i on frees exactly the in-range blocks in use from i on and keeps the ones before i |
| ZoneOps.ChangeTag | linuxdoom-1.10/z_zone.c:497-524 | Z_ChangeTag2 is fatal on NULL and on a purgeable tag for a block without an owner; otherwise only the block's tag changes (corrected owner test) |
| ZoneOps.ChangeTagAsWritten | linuxdoom-1.10/z_zone.c:497-524 | the owner test as written, on the low 32 bits of the user pointer; when it passes, the block alone is retagged and the zone stays valid |
| ZoneOps.ChangeTagTruncationRefusesOwner | linuxdoom-1.10/z_zone.c:512 | the as-written test refuses an owned block whose slot lies at 0x1_0000_0010; the corrected test accepts it |
| ZoneOps.ChangeTagKeepsOwned | linuxdoom-1.10/z_zone.c:504-523 | after a successful Z_ChangeTag2 every purgeable block in use still has an owner to clear |
| ZoneOps.MallocKeepsOwned | linuxdoom-1.10/z_zone.c:286-300 | Z_Malloc never leaves a purgeable block in use without an owner |
| ZoneOps.FreeMemory | linuxdoom-1.10/z_zone.c:531-546 | Z_FreeMemory counts the bytes of the free and purgeable blocks; that is at most the zone after its header, and all of it exactly when no block is locked |
| ZoneOps.CheckHeap | linuxdoom-1.10/z_zone.c:456-489 | Z_CheckHeap passes if and only if every block touches its successor and no two consecutive blocks are free |
| Posts.DecodeEncode | linuxdoom-1.10/r_data.c:213-231 | a column encoded in the post format that R_DrawColumnInCache walks (topdelta, length, a pad byte, the texels, a pad byte, and 0xff at the end) decodes back to its posts wherever it sits |
| Posts.ClipPost | linuxdoom-1.10/r_data.c:216-226 | a clipped post that is still drawn lies inside the cache and inside the post, and its rows stay where the post puts them |
| Posts.ClipWindow | linuxdoom-1.10/r_data.c:216-228 | clipping keeps exactly the rows of the post that fall inside the cache |
| Posts.DrawPostPaints | linuxdoom-1.10/r_data.c:215-229 | copying one clipped post (corrected source offset) puts each of its texels that falls in the cache on its own row |
| Posts.DrawColumnInCachePaints | linuxdoom-1.10/r_data.c:213-232 | the corrected R_DrawColumnInCache leaves every cache row holding the texel of the last post covering it, or its old byte |
| Posts.DrawColumnInCacheTopClipMisplaces | linuxdoom-1.10/r_data.c:215-229 | as written, a post clipped at the top is copied from its first texel, so the wrong texel lands on row 0 |
| Posts.DrawColumnInCacheAsWrittenPaints | linuxdoom-1.10/r_data.c:213-232 | R_DrawColumnInCache as written leaves each cache row with the byte of the last post reaching it, each post copied from its first texel onward at its clamped position, or the row's old byte |
| Posts.TexelUnclipped | linuxdoom-1.10/r_data.c:216-228 | when no post starts above the cache (originy >= 0) the as-written placement of every row is the intended one |
| Posts.DrawColumnInCacheUnclipped | linuxdoom-1.10/r_data.c:213-232 | for originy >= 0 R_DrawColumnInCache as written and corrected fill the cache identically |
| TextureLookup.LastCover | linuxdoom-1.10/r_data.c:341-362 | the last patch covering a column, absent exactly when no patch covers it |
| TextureLookup.LastCoverIsLast | linuxdoom-1.10/r_data.c:341-362 | no later patch covers the column |
| TextureLookup.FirstPassCount | linuxdoom-1.10/r_data.c:341-362 | after the first pass a column's counter is the number of patches covering it, modulo 256 |
| TextureLookup.FirstPassLast | linuxdoom-1.10/r_data.c:356-361 | after the first pass a column holds the lump and offset of the last patch covering it, or what it held when none does |
| TextureLookup.FirstPassIsColumnwise | linuxdoom-1.10/r_data.c:341-362 | the patch-by-patch first pass equals the column-by-column reference reading |
| TextureLookup.FirstEmpty | linuxdoom-1.10/r_data.c:364-371 | the first column without a patch: every column before it has one |
| TextureLookup.SecondPass | linuxdoom-1.10/r_data.c:364-388 | the second pass is fatal ("texture is >64k") exactly when a column before the first uncovered one would push the composite past 0x10000. Otherwise every column covered more than once gets lump -1 and the next slice of the composite, and the size stays at or below 0x10000 |
| TextureLookup.GenerateLookup | linuxdoom-1.10/r_data.c:311-389 | R_GenerateLookup's result, stated over the column-wise reading of the patches: the 64K failure exactly when it happens, otherwise the classified tables |
| TextureLookup.CompositedColumn | linuxdoom-1.10/r_data.c:364-388 | in a texture whose columns all have a patch, a column is composited exactly when more than one patch covers it, with its slice after those of the composited columns before it; otherwise it keeps the last patch's lump and offset |
| TextureLookup.CoveredLump | linuxdoom-1.10/r_data.c:359 | a covered column gets a real lump number, never -1, while lump numbers fit in a short |
| TextureLookup.OffsetIncreases | linuxdoom-1.10/r_data.c:378-386 | the slice of a composited column ends before the slice of any later column starts |
| TextureLookup.WidthMask | linuxdoom-1.10/r_data.c:594-598 | the width mask is one less than the largest power of two not above the width (0 below width 2) |
| TextureLookup.MaskColumn | linuxdoom-1.10/r_data.c:411 | `col & mask` lies in 0..mask |
| TextureLookup.MaskPeriodic | linuxdoom-1.10/r_data.c:411 | masking forgets whole multiples of the power of two, negative columns included |
| TextureComposite.LookupSlices | linuxdoom-1.10/r_data.c:374-386 | the lookup R_GenerateLookup builds gives every composited column a slice inside the composite block, and no two slices overlap (what R_GenerateComposite relies on) |
| TextureComposite.CompositedFromLookup | linuxdoom-1.10/r_data.c:285-289 | a column a patch draws into is one the second pass classified as covered more than once |
| TextureComposite.SpanCovers | linuxdoom-1.10/r_data.c:274-285 | the clamped loop bounds are exactly the texture columns under the patch |
| TextureComposite.PaintColumnsAt | linuxdoom-1.10/r_data.c:285-297 | after one patch, a row of a composited column's slice holds the byte the as-written R_DrawColumnInCache puts there (the last post reaching the row, shifted posts included) when the patch covers the column, else its old byte |
| TextureComposite.DrawSliceOutside | linuxdoom-1.10/r_data.c:293-296 | drawing into one slice leaves every byte outside it alone |
| TextureComposite.PaintPatchesAt | linuxdoom-1.10/r_data.c:269-299 | after all patches, each row of a composited column holds the as-written texel of the last patch with one there, or the byte the block held |
| TextureComposite.PatchTexelUnclipped | linuxdoom-1.10/r_data.c:290-295 | for a patch placed at or below the texture's top (originy >= 0) the as-written texel on texture row y is row y - originy of the patch column, the intended placement |
| TextureComposite.RetagOwned | linuxdoom-1.10/r_data.c:259-303 | with the corrected owner test, the fresh PU_STATIC block owned by the composite slot can be retagged PU_CACHE, and only its tag changes |
| TextureComposite.RetagOwnedAsWritten | linuxdoom-1.10/r_data.c:303 | with the owner test as written, the retag of the fresh block succeeds exactly when the low 32 bits of the slot's address are at least 0x100, and then only its tag changes |
| TextureComposite.GenerateComposite | linuxdoom-1.10/r_data.c:243-304 | R_GenerateComposite fails exactly when Z_Malloc does, or when the as-written owner test of its Z_ChangeTag refuses the slot (an address whose low 32 bits are below 0x100), with the Z_ChangeTag message. Otherwise the block has the composite size and is owned by the texture's slot, which holds its address, and it is tagged PU_CACHE |
| TextureComposite.GenerateCompositeTexels | linuxdoom-1.10/r_data.c:269-299 | every row of every composited column of the generated block holds the as-written texel of the last patch with one there, or the fresh block's byte |
| TextureColumn.Masked | linuxdoom-1.10/r_data.c:411-413 | the masked column indexes the texture's column tables |
| TextureColumn.GetColumn | linuxdoom-1.10/r_data.c:401-424 | a texture number out of range gives the dummy column. A column with a lump > 0 reads the lump at its offset, or the dummy when the fetch fails. Otherwise the composite is read at the column's offset, and it is built first when the slot is empty; a failed build is fatal |
| TextureColumn.GetColumnTiles | linuxdoom-1.10/r_data.c:411 | R_GetColumn repeats every mask + 1 columns |
| TextureColumn.GetColumnCached | linuxdoom-1.10/r_data.c:419-423 | once a read has built the composite, later composite reads of that texture find it: no second build, same zone, same block |
| TextureNames.SameNameIsKey | linuxdoom-1.10/r_data.c:748 | strncasecmp over 8 characters equals comparing the case-folded names up to the first NUL or the 8th character |
| TextureNames.StoredNameFound | linuxdoom-1.10/r_data.c:564-568 | a name stored as intended is matched, character for character and case-insensitively, by the lump name it was stored from |
| TextureNames.CheckTextureNumForName | linuxdoom-1.10/r_data.c:739-752 | a name starting with '-' gives 0; otherwise -1 exactly when no texture matches, else the first matching texture |
| TextureNames.TextureNumForName | linuxdoom-1.10/r_data.c:761-791 | a name that is not found falls back to texture 0 when there are textures, and to -1 when there are none; a found name gives its texture |
| TextureNames.StoredNamesFound | linuxdoom-1.10/r_data.c:739-752 | with names stored as intended, every texture is found by its own lump name, at its index or at an earlier texture of the same name |
| TextureNames.FullNameMissedAsWritten | linuxdoom-1.10/r_data.c:569 | as written, a texture whose name fills all 8 characters is never found by that name |
| TextureNames.BigDoorMissedAsWritten | linuxdoom-1.10/r_data.c:569 | concrete instance: "BIGDOOR1" is missed as written and found when corrected |
| Draw.InitTranslationTables | linuxdoom-1.10/r_draw.c:251-272 | the three tables move shade i & 0xf of the green ramp 0x70..0x7f to the same shade of ramps 0x60, 0x40 and 0x20, and map every other colour to itself |
| Draw.InitBuffer | linuxdoom-1.10/r_draw.c:361-377 | the view is centred horizontally (left margin rounding down). Its top is 0 at full width, and otherwise centred above the 32-row status bar. Every view pixel lands at the matching screen offset |
| Draw.DrawColumnPixels | linuxdoom-1.10/r_draw.c:75-110 | R_DrawColumn writes nothing when yh < yl, else yh - yl + 1 pixels one screen row apart in the column's screen column, stepping the texture coordinate by iscale from the one row centery would have |
| Draw.DrawColumnLowPixels | linuxdoom-1.10/r_draw.c:113-148 | R_DrawColumnLow writes the same rows in screen columns 2x and 2x + 1, both showing the texel of that row |
| Draw.FuzzOffset | linuxdoom-1.10/r_draw.c:154-166 | every fuzz table entry is one screen row up or down |
| Draw.FuzzRunEnd | linuxdoom-1.10/r_draw.c:198-205 | the fuzz loop writes count + 1 pixels and advances fuzzpos count + 1 entries, modulo 50 |
| Draw.DrawFuzzColumnPixels | linuxdoom-1.10/r_draw.c:170-206 | the fuzz drawer clamps row 0 to 1 and the last view row to the one above. Every pixel it writes reads the row right above or below, so all reads stay in the view, and fuzzpos stays in 0..49 |
| Draw.SpotIsRowColumn | linuxdoom-1.10/r_draw.c:314 | the span texel index is row (yfrac >> 16) & 63, column (xfrac >> 16) & 63 of the 64x64 flat |
| Draw.SpotInFlat | linuxdoom-1.10/r_draw.c:314 | the span texel index always lies in 0..4095 |
| Draw.SpotWraps | linuxdoom-1.10/r_draw.c:314-316 | the texel depends only on the low 32 bits of xfrac and yfrac, so their overflow is harmless |
| Draw.DrawSpanPixels | linuxdoom-1.10/r_draw.c:289-319 | R_DrawSpan writes x2 - x1 + 1 consecutive pixels, screen columns of x1..x2 in row y, stepping the coordinates once per pixel |
| Draw.DrawSpanLowPixels | linuxdoom-1.10/r_draw.c:322-355 | the corrected R_DrawSpanLow writes exactly screen columns 2x1 .. 2x2 + 1 of row y, two pixels per low-detail column sharing one texel |
| Draw.DrawSpanLowOverruns | linuxdoom-1.10/r_draw.c:340-354 | as written, the low-detail span writes 4(x2 - x1) + 2 pixels, running 2(x2 - x1) columns past 2x2 + 1 |
| Draw.CheckedColumn | linuxdoom-1.10/r_draw.c:82-92 | with the range check, R_DrawColumn is fatal exactly for a non-empty column outside the screen (x outside 0..319, yl negative or yh past 199); otherwise it draws, and every table index it reads exists |
| Draw.CheckedColumnLow | linuxdoom-1.10/r_draw.c:121-131 | the same check for R_DrawColumnLow, and a drawn low column reads both screen columns 2x and 2x + 1 from the tables |
| Draw.CheckedFuzzColumn | linuxdoom-1.10/r_draw.c:176-191 | R_DrawFuzzColumn checks the clamped rows: fatal exactly when they are non-empty and off the screen |
| Draw.CheckedSpan | linuxdoom-1.10/r_draw.c:297-305 | R_DrawSpan is fatal exactly when x1 > x2, x1 < 0, x2 >= 320 or y > 200 (unsigned); otherwise the span lies in the tables and is drawn |
| Draw.CheckedSpanLow | linuxdoom-1.10/r_draw.c:330-354 | the same check for R_DrawSpanLow, made before doubling; a span that passes lies in the tables and is drawn as written, 4 (x2 - x1) + 2 pixels counted from the doubled ends |
| Draw.CheckedColumnOnScreen | linuxdoom-1.10/r_draw.c:82-110 | at full screen, every pixel a column that passes the check writes lies on the screen |
| Sound.SampleCount | linuxdoom-1.10/i_sound_win.c:80-82 | the sample count is the header's count when that lies in 1 .. lump size - 8, and lump size - 8 otherwise; so it never reads past the lump |
| Sound.ConvertDoomSound | linuxdoom-1.10/i_sound_win.c:65-106 | a lump shorter than 8 bytes, or with no samples after the header, gives NULL. Otherwise sample i is (byte 8 + i - 128) * 256, which lies in -32768..32512 |
| Sound.WidenRoundTrip | linuxdoom-1.10/i_sound_win.c:101 | the widening loses nothing: each sample gives back its byte |
| Sound.Cleared | linuxdoom-1.10/i_sound_win.c:151-154 | after the resets of I_InitSound no effect is cached and no channel is in use |
| Sound.CacheSfx | linuxdoom-1.10/i_sound_win.c:111-141 | ids outside [1, NUMSFX), effects already cached and missing or unconvertible lumps leave the cache alone. Otherwise the effect gets the conversion of its lump (one widened sample per sample byte after the header) and 2 bytes per sample, and no other entry changes |
| Sound.FreeFrom | linuxdoom-1.10/i_sound_win.c:283-286 | the channel search finds the first channel not in use from i on, or -1 when all are in use |
| Sound.FreeChannel | linuxdoom-1.10/i_sound_win.c:282-287 | I_StartSound's channel is the lowest one not in use, or channel 0 when all are busy |
| Sound.StartSound | linuxdoom-1.10/i_sound_win.c:260-346 | -1 before a successful init, for a bad id, an uncacheable effect or a refusing engine. Otherwise the handle is the chosen channel, which now plays the effect. An effect not yet cached is cached exactly when its lump is convertible, as the lump's conversion; while it stays uncached no channel changes. No other channel and no other cache entry changes |
| Sound.StopSound | linuxdoom-1.10/i_sound_win.c:351-360 | handles outside [0, 8) and channels without a voice are ignored; otherwise that channel alone is released, keeping its sound id |
| Sound.SoundIsPlaying | linuxdoom-1.10/i_sound_win.c:365-383 | 1 exactly for a valid handle with a voice that still has buffers queued; a finished voice is released as I_StopSound would |
| Sound.HandleReachesUntilStopped | linuxdoom-1.10/i_sound_win.c:351-395 | a handle that reaches its channel keeps reaching it when another channel is stopped or found finished, and stops reaching it once its own channel is stopped or found finished |
| Sound.StopThenStartPicks | linuxdoom-1.10/i_sound_win.c:283-287 | a stopped channel is the next one I_StartSound picks, unless a lower one is free |
| Video.MovementKeys | linuxdoom-1.10/i_video_win.c:45-57 | W, S, A and D give the codes of the up, down, left and right arrows, and E gives the code of the space bar |
| Video.FunctionKeys | linuxdoom-1.10/i_video_win.c:66-77 | F1..F10 give 0x80 + 0x3b..0x44, and F11, F12 give 0x80 + 0x57, 0x58 |
| Video.SetPalette | linuxdoom-1.10/i_video_win.c:121-134 | every one of the 768 palette bytes goes through gamma row usegamma |
| Video.ToBgra | linuxdoom-1.10/i_video_win.c:181-196 | each screen byte becomes a pixel showing that palette colour (blue, green, red = pal[3i + 2], pal[3i + 1], pal[3i]) with alpha 255 |
| Video.GammaColour | linuxdoom-1.10/i_video_win.c:189-192 | after I_SetPalette, colour i is shown as the gamma-corrected game palette colour i |
| Video.ButtonMask | linuxdoom-1.10/i_video_win.c:324-326 | the button mask is in 0..7, and its bits 1, 2 and 4 are set exactly when the left, right and middle buttons are down |
| Video.MouseRecentres | linuxdoom-1.10/i_video_win.c:291-315 | a locked mouse that moved posts (dx * 8, -dy * 8) and is then measured from the centre; otherwise nothing is posted and nothing changes |
| Video.WheelActsAsKey | linuxdoom-1.10/i_video_win.c:270-288 | turning the wheel up is a press of the minus key and turning it down a press of the equals key |
| Video.KeyPosts | linuxdoom-1.10/i_video_win.c:256-267 | a key message posts one key-down or key-up event exactly when the key has a game code |
| Video.TranslateWellFormed | linuxdoom-1.10/i_video_win.c:255-330 | every posted event is well formed: key events carry a nonzero code below 0x100, mouse events a button mask or a nonzero movement in steps of 8 |
| Video.DrainSpec | linuxdoom-1.10/i_video_win.c:247-334 | I_StartTic sets the quit flag exactly when a WM_QUIT is queued, a WM_CLOSE is dispatched before the first WM_QUIT, or it was already set; posts events only for the messages before the first WM_QUIT, keeps the mouse lock, and posts only well-formed events |
| Video.Handled | linuxdoom-1.10/i_video_win.c:247-253 | the messages handled are the prefix before the first WM_QUIT |
| WinMain.TicRequestsQuit | linuxdoom-1.10/i_video_win.c:247-334 | a tic leaves Win_QuitRequested as Win_RequestQuit would exactly when a WM_QUIT is queued or a WM_CLOSE is handled before it; otherwise the flag is unchanged, so a request made earlier is never lost |
| WinMain.KeyMapsAgree | linuxdoom-1.10/win_main.c:50-87 | the two key maps agree except on W A S D E, which only i_video_win.c remaps, and on '['..'z', which only win_main.c passes through; the win_main.c map is unused, so the i_video_win.c one is what the game sees |
| WinMain.Tokenize | linuxdoom-1.10/win_main.c:212-229 | the argv array gets blanks + 2 slots. The recorded starts are exactly the words after the first, and each is a non-blank character right after a blank. They fit the slots with argv[0] and the NULL |
| WinMain.ArgCountFits | linuxdoom-1.10/win_main.c:215-228 | there are never more argument words than blanks |
| WinMain.WordStartsAreStarts | linuxdoom-1.10/win_main.c:226-228 | every word start is a non-blank character preceded by a blank, and the starts increase |
| WinMain.ArgvAsWritten | linuxdoom-1.10/win_main.c:223-230 | argv as written: "doom.exe", then for each word the rest of the command line from its start (no terminator is written) |
| WinMain.Argv | linuxdoom-1.10/win_main.c:223-230 | the corrected argv: "doom.exe", then each word alone |
| WinMain.ArgvWords | linuxdoom-1.10/win_main.c:224-229 | every corrected argument is nonempty and blank-free; as written it is followed by the whole rest of the line |
| WinMain.WarpAsWritten | linuxdoom-1.10/win_main.c:224-229 | "doom -warp 1" gives "-warp 1" as written where "-warp" is meant |
| WinMain.CommandLine | linuxdoom-1.10/win_main.c:211-233 | WinMain's argv (corrected): just "doom.exe" for an empty line, else the words after the program name, fitting the allocated slots |
| Menu.ContainsOccurs | linuxdoom-1.10/menu_wad.c:55-61 | the strstr test holds exactly when the name occurs somewhere in the file name |
| Menu.GameMode | linuxdoom-1.10/menu_wad.c:53-63 | the game mode is -1 or one of the four modes |
| Menu.SearchedModes | linuxdoom-1.10/menu_wad.c:48-61 | doom1 is shareware, doom registered, doomu retail, and doom2, plutonia, tnt and doom2f commercial |
| Menu.GameModeKnown | linuxdoom-1.10/menu_wad.c:53-63 | a name has a mode other than -1 exactly when one of the seven searched names occurs in it |
| Menu.Truncate | linuxdoom-1.10/menu_wad.c:84-88 | strncpy with a final NUL keeps exactly the first n characters of a longer string, and a string of at most n characters whole |
| Menu.ScanDirectory | linuxdoom-1.10/menu_wad.c:65-94 | scanning a directory records its readable probes in search order while fewer than 16 are held |
| Menu.FillIsCap | linuxdoom-1.10/menu_wad.c:79-91 | recording probes into a list of at most 16 appends the readable ones and cuts the whole at 16 |
| Menu.ExeDir | linuxdoom-1.10/menu_wad.c:112-114 | the executable's path is cut just after its last '\' or '/': a prefix with no separator after it, ending in one or empty |
| Menu.ScanForIwads | linuxdoom-1.10/menu_wad.c:96-122 | the IWADs are the first 16 readable probes of ".", "C:\DOOM" and the executable's directory. Names are at most 31 characters and paths shorter than 512. The selection is 0 exactly when one was found, else -1 |
| Menu.RemoveAt | linuxdoom-1.10/menu_wad.c:163-172 | Remove with 0 <= sel < count drops entry sel and shifts the later ones down in order; any other selection changes nothing |
| Menu.AddThenRemove | linuxdoom-1.10/menu_wad.c:148-172 | Remove on the entry after the old list undoes Add: the added path is dropped again, and when nothing was added the list is unchanged |
| Menu.RunLoopSane | linuxdoom-1.10/menu_wad.c:128-194 | the menu keeps at most 32 PWADs, a selection from the list or none, and a result of 0 or 1 |
| Menu.SelectionStays | linuxdoom-1.10/menu_wad.c:130-134 | while no message clears the selection, an IWAD stays selected |
| Menu.AccessibleKeeps | linuxdoom-1.10/menu_wad.c:301-310 | a PWAD is passed on exactly when it is in the list and readable |
| Menu.RunWadSelection | linuxdoom-1.10/menu_wad.c:200-314 | no IWAD found gives 0 and no files. Otherwise the answer follows the menu's final state: with result 1 and a readable selected IWAD, the files are that selected IWAD followed by the still-readable PWADs in list order; an unreadable selection gives 0 with an empty list; result 0, or no selection, passes no files |

## Left out

- Win32, GDI, XAudio2 and COM calls, window creation, the window procedures' plumbing, file dialogs, `SetupConsole` and all `printf` logging: they are I/O. Their answers are parameters (the `Engine` record, the message sequence, the `full` and `readable` oracles, the chosen file).
- `I_InitGraphics`, `I_ShutdownGraphics`, `I_ShutdownSound`, the music stubs, and the DIB allocation in `I_FinishUpdate`: resource handling with no computation.
- `I_GetSfxLumpNum` and the pre-cache loop of `I_InitSound`: a WAD lookup and a loop of `CacheSfx` calls, which is modelled.
- Volume and pan in `I_StartSound` and `I_UpdateSoundParams`: floating point; `UpdateSoundParams` only says which channel receives them.
- `malloc` failures in `ConvertDoomSound` and `WinMain` (the fallback of win_main.c:233 is modelled for the empty command line only): allocation is assumed to succeed.
- The WAD directory parsing of `R_InitTextures`, `R_InitSpriteLumps`, `R_PrecacheLevel`, `R_FillBackScreen`, `R_DrawViewBorder`: lump I/O, play-simulation state or screen blits; only the width mask and the stored names of `R_InitTextures` are modelled.
- The host-address sanity checks of `Z_FreeTags` (z_zone.c:329-364) and `Z_DumpHeap`/`Z_FileDumpHeap`: address heuristics and printing.
- `ZoneMalloc.Malloc`: the precondition excludes a negative size, a size whose rounding up to 4 plus the block header overflows `int` (z_zone.c:208, 221), and an owner pointer in 1..0x100, which z_zone.c:290 would dereference. Every caller passes a size in range and an owner that is NULL or a real slot.
- `ZoneOps.Free`: the pointer passed to `Z_Free` is assumed to be the payload of a block of the zone, as every caller passes one; a stray pointer is undefined behaviour in the source.
- `ZoneOps.CheckHeap`: the back-link test of z_zone.c:475-480 always passes in this model, because `prev` is derived from the sequence order.
- `Draw.DrawColumnPixels`: `frac` and `spot` are unbounded integers. The 32-bit overflow of `frac` is not modelled for columns (`Draw.SpotWraps` shows it is harmless for spans), and the texture index is not masked to the texture height, as in the source.
- `Draw.DrawColumnPixels` also models `R_DrawTranslatedColumn`, which differs only in the colour it writes; colours (`dc_colormap`, `dc_translation`) are not modelled, only which source index each pixel reads.
- `Sound.StartSound`: NUMSFX is the length of the cache, since `sounds.h` is not part of this model.
- `TextureNames.TextureNumForName`: the unreachable code after the fallback (r_data.c:792-807) is not modelled.
- `TextureColumn.GetColumn`: addresses of lumps are a parameter (0 when the fetch fails), and building the composite needs the lookup's guarantees (`Buildable`).
- GetColumn: the `W_CacheLumpNum(lump, PU_CACHE)` of r_data.c:415 is taken to leave the zone as it is. In the source it may Z_Malloc and so purge blocks (another texture's composite among them) or fail; `w_wad.c` is not part of this model.
- GenerateComposite: the per-patch `W_CacheLumpNum(patch, PU_CACHE)` of r_data.c:273 is not modelled as an allocation: patch lumps are a parameter, and the purges or failure their caching may cause before and after the composite's Z_Malloc are left out. "Fails exactly when Z_Malloc does" is about the composite block's Z_Malloc alone (and its Z_ChangeTag).
- The `RANGECHECK` checks of the drawers are modelled by the `Draw.Checked*` functions. The other drawers take the check's outcome as a precondition. The check bounds the screen (320 by 200), not the laid-out tables of a smaller view. The message arguments (`%i`) are not formatted, and only the message text is kept.
- `Draw.InitTranslationTables`: the `Z_Malloc(256*3+255, PU_STATIC, 0)` and the rounding of the table pointer up to a 256-byte boundary (r_draw.c:255-256) are not modelled; the three tables are sequences.
- `TextureComposite.PaintColumns`: a slice that does not fit the block is skipped, where the source writes out of bounds; `TextureComposite.LookupSlices` proves this never happens for a lookup built by `R_GenerateLookup`.
- `Menu.RunWadSelection`: the IWAD list box is assumed to report only one of its own entries or -1 (`Listed`). `GetModuleFileNameA` failing is the `None` executable path. The `sprintf` bounds of the path buffers are not modelled beyond the 511-character cut. `D_AddFile` is not part of this model; its calls become the returned file list.
- `Menu.RunWadSelection`: a result of 1 with no files (the selection cleared after Run Game) is allowed, as in the source; `Menu.SelectionStays` shows it needs a clearing message.
- `Video.DrainSpec`: WM_CLOSE counts only as a queued message that I_StartTic dispatches to the main window procedure (win_main.c:93-95); one sent to the window outside the loop is not modelled. The window's centre and `ClientToScreen` are a parameter, and the first-call cursor set-up of i_video_win.c:238-244 is left out; `GetCursorPos` is the position carried by the mouse message.
- `WinMain.Tokenize`: the command line is a sequence without its terminating NUL; `GetCommandLineA` returning NULL is the empty line.

## Findings

| source | as written | input that shows it | evidently intended | confidence | as-written member | corrected member |
|---|---|---|---|---|---|---|
| linuxdoom-1.10/r_data.c:569 | `texture->name[7] = 0` overwrites the 8th character of the name, while `R_CheckTextureNumForName` compares 8 characters | a texture named "BIGDOOR1" is never found by that name and is replaced by texture 0 | keep all 8 characters (the field needs no terminator for an 8-character compare) | high, not executed | TextureNames.StoredNameAsWritten, TextureNames.BigDoorMissedAsWritten | TextureNames.StoredName, TextureNames.StoredNamesFound |
| linuxdoom-1.10/r_draw.c:340-345 | `R_DrawSpanLow` doubles ds_x1 and ds_x2 before taking `count`, then writes 2 pixels per step | x1 = 0, x2 = 1 writes 6 pixels where 4 are meant | count from the undoubled range: 2(x2 - x1 + 1) pixels | high, not executed | Draw.DrawSpanLowAsWritten, Draw.DrawSpanLowOverruns, Draw.CheckedSpanLow | Draw.DrawSpanLow, Draw.DrawSpanLowPixels |
| linuxdoom-1.10/r_data.c:215-229 | when a post's top is clipped (position < 0), `count` shrinks but `source` still starts at the post's first texel | originy = -1, one post at topdelta 0 with texels [a, b] puts a on row 0, where b belongs | advance `source` by the clipped rows. The composite is modelled as written (`TextureComposite.DrawSlice` uses the as-written copy), and `Posts.DrawColumnInCacheUnclipped` shows the two copies agree whenever originy >= 0 | high, not executed | Posts.DrawColumnInCacheAsWritten, Posts.DrawColumnInCacheTopClipMisplaces | Posts.DrawColumnInCache, Posts.DrawColumnInCachePaints, Posts.DrawColumnInCacheUnclipped |
| linuxdoom-1.10/z_zone.c:512 | `(unsigned)block->user < 0x100` tests only the low 32 bits of a 64-bit pointer | an owner slot at 0x1_0000_0010 is taken for "no owner" and Z_ChangeTag2 fails | compare the whole pointer, as `Z_Free` does at line 146 | medium, not executed | ZoneOps.ChangeTagAsWritten, ZoneOps.ChangeTagTruncationRefusesOwner, TextureComposite.GenerateComposite | ZoneOps.ChangeTag, ZoneOps.ChangeTagKeepsOwned |
| linuxdoom-1.10/win_main.c:224-229 | argument pointers point into the command line and no NUL is written after each word | "doom -warp 1" gives argv[1] = "-warp 1" | end each word, so argv[1] = "-warp" | high, not executed | WinMain.ArgvAsWritten, WinMain.WarpAsWritten | WinMain.Argv, WinMain.CommandLine |

=== FILE: ctypes.dfy ===
/**
 * The C integer types the engine leans on, written out over unbounded
 * integers: bytes, 16-bit shorts, 32-bit ints with two's-complement
 * wrap-around, and the shifts and masks applied to them.
 */
module CTypes {
  /** An unsigned 8-bit value. */
  type byte = x: int | 0 <= x < 0x100

  const TWO_32: int := 0x1_0000_0000
  const INT32_MIN: int := -0x8000_0000
  const INT32_MAX: int := 0x7fff_ffff

  predicate IsInt32(x: int) {
    INT32_MIN <= x <= INT32_MAX
  }

  /** The value a 32-bit `int` holds after an arithmetic result x is stored into it. */
  function Wrap32(x: int): (r: int)
    ensures IsInt32(r)
    ensures (x - r) % TWO_32 == 0
    ensures IsInt32(x) ==> r == x
  {
    var m := x % TWO_32;
    if m > INT32_MAX then m - TWO_32 else m
  }

  /** Wrap32 only depends on its argument modulo 2^32. */
  lemma Wrap32Mod(x: int, k: int)
    ensures Wrap32(x + k * TWO_32) == Wrap32(x)
  {
    assert (x + k * TWO_32) % TWO_32 == x % TWO_32;
  }

  /** The value a `short` holds after x is stored into it. */
  function ToShort(x: int): (r: int)
    ensures -0x8000 <= r < 0x8000
    ensures (x - r) % 0x10000 == 0
    ensures -0x8000 <= x < 0x8000 ==> r == x
  {
    var m := x % 0x10000;
    if m >= 0x8000 then m - 0x10000 else m
  }

  /** The value an `unsigned short` holds after x is stored into it. */
  function ToUShort(x: int): (r: int)
    ensures 0 <= r < 0x10000
    ensures (x - r) % 0x10000 == 0
    ensures 0 <= x < 0x10000 ==> r == x
  {
    x % 0x10000
  }

  /** `x >> 16` on a signed int: an arithmetic shift, which rounds toward minus infinity. */
  function Shr16(x: int): (r: int)
    ensures r * 0x10000 <= x < r * 0x10000 + 0x10000
  {
    x / 0x10000
  }

  /** d copies of m are at least one copy, for d >= 1. */
  lemma MulAtLeast(d: int, m: int)
    requires d >= 1 && m > 0
    ensures d * m >= m
  {
    assert d * m == (d - 1) * m + m;
    assert (d - 1) * m >= 0;
  }

  /** Euclidean division: a quotient and a remainder in [0, m) are unique. */
  lemma DivModUnique(a: int, m: int, q: int, r: int)
    requires m > 0 && a == q * m + r && 0 <= r < m
    ensures a / m == q && a % m == r
  {
    var q', r' := a / m, a % m;
    assert q' * m + r' == a;
    assert (q - q') * m == r' - r;
    if q > q' {
      MulAtLeast(q - q', m);
    } else if q < q' {
      MulAtLeast(q' - q, m);
    }
  }
}

=== FILE: draw.dfy ===
/**
 * The low-level drawers of r_draw.c: the player translation tables, the
 * view window offsets R_InitBuffer lays out, and which pixels the column,
 * fuzz column and span drawers write, and which texel or screen byte each
 * one is read from.
 *
 * A drawer is modelled by the sequence of pixels it writes, in order: the
 * screen offset written and the source index read for it. Screen offsets
 * are relative to the start of screens[0].
 */
module Draw {
  import opened Wrappers
  import opened CTypes

  const SCREENWIDTH: int := 320
  const SCREENHEIGHT: int := 200
  /** The sizes of the columnofs and ylookup arrays. */
  const MAXWIDTH: int := 1120
  const MAXHEIGHT: int := 832
  const SBARHEIGHT: int := 32
  const FUZZTABLE: int := 50

  // ---------------------------------------------------------------------
  // Translation tables

  /** The first colour of the green ramp the player sprites use. */
  const GREEN_RAMP: int := 0x70
  /** Where each of the three tables moves the green ramp: gray, brown, red. */
  const RAMPS: seq<int> := [0x60, 0x40, 0x20]

  /** The green ramp: the 16 colours the translation tables remap. */
  predicate InGreenRamp(i: int) {
    GREEN_RAMP <= i <= GREEN_RAMP + 15
  }

  /**
   * R_InitTranslationTables: three tables of 256 entries, stored back to
   * back at translationtables + 256 t. Table t moves shade i & 0xf of the
   * green ramp to the same shade of ramp RAMPS[t] and keeps every other
   * colour.
   */
  method InitTranslationTables() returns (tables: seq<seq<byte>>)
    ensures |tables| == 3 && forall t :: 0 <= t < 3 ==> |tables[t]| == 256
    ensures forall t, i :: 0 <= t < 3 && 0 <= i < 256 && InGreenRamp(i) ==>
      tables[t][i] == RAMPS[t] + i % 16
    ensures forall t, i :: 0 <= t < 3 && 0 <= i < 256 && !InGreenRamp(i) ==>
      tables[t][i] == i
  {
    var gray: seq<byte>, brown: seq<byte>, red: seq<byte> := [], [], [];
    var i: int := 0;
    while i < 256
      invariant 0 <= i <= 256 && |gray| == |brown| == |red| == i
      invariant forall j :: 0 <= j < i && InGreenRamp(j) ==>
        gray[j] == 0x60 + j % 16 && brown[j] == 0x40 + j % 16 && red[j] == 0x20 + j % 16
      invariant forall j :: 0 <= j < i && !InGreenRamp(j) ==> gray[j] == brown[j] == red[j] == j
    {
      if 0x70 <= i <= 0x7f {
        gray, brown, red := gray + [0x60 + i % 16], brown + [0x40 + i % 16], red + [0x20 + i % 16];
      } else {
        gray, brown, red := gray + [i], brown + [i], red + [i];
      }
      i := i + 1;
    }
    tables := [gray, brown, red];
  }

  // ---------------------------------------------------------------------
  // View window

  /**
   * The view window offsets: columnofs[i] is the screen column of view
   * column i, and ylookup[i] the screen offset of the start of view row i.
   */
  datatype Buffer = Buffer(viewwindowx: int, viewwindowy: int, columnofs: seq<int>, ylookup: seq<int>)

  /** The buffer puts view pixel (x, y) at screen column viewwindowx + x of screen row viewwindowy + y. */
  predicate Laid(b: Buffer) {
    && (forall i :: 0 <= i < |b.columnofs| ==> b.columnofs[i] == b.viewwindowx + i)
    && (forall i :: 0 <= i < |b.ylookup| ==> b.ylookup[i] == (i + b.viewwindowy) * SCREENWIDTH)
  }

  /**
   * R_InitBuffer for a view of width x height. `>> 1` on the signed
   * difference rounds down, as Dafny's division by 2 does.
   */
  method InitBuffer(width: int, height: int) returns (b: Buffer)
    requires 0 <= width <= MAXWIDTH && 0 <= height <= MAXHEIGHT
    ensures Laid(b) && |b.columnofs| == width && |b.ylookup| == height
    ensures 2 * b.viewwindowx <= SCREENWIDTH - width <= 2 * b.viewwindowx + 1
    ensures width == SCREENWIDTH ==> b.viewwindowx == 0 && b.viewwindowy == 0
    ensures width != SCREENWIDTH ==>
      2 * b.viewwindowy <= SCREENHEIGHT - SBARHEIGHT - height <= 2 * b.viewwindowy + 1
  {
    var vx := (SCREENWIDTH - width) / 2;
    var cols: seq<int> := [];
    var i := 0;
    while i < width
      invariant 0 <= i <= width && |cols| == i
      invariant forall j :: 0 <= j < i ==> cols[j] == vx + j
    {
      cols := cols + [vx + i];
      i := i + 1;
    }
    var vy := if width == SCREENWIDTH then 0 else (SCREENHEIGHT - SBARHEIGHT - height) / 2;
    var rows: seq<int> := [];
    i := 0;
    while i < height
      invariant 0 <= i <= height && |rows| == i
      invariant forall j :: 0 <= j < i ==> rows[j] == (j + vy) * SCREENWIDTH
    {
      rows := rows + [(i + vy) * SCREENWIDTH];
      i := i + 1;
    }
    b := Buffer(vx, vy, cols, rows);
  }

  /** One pixel a drawer writes: the screen offset written, and the index the byte is read from. */
  datatype Pixel = Pixel(dest: int, src: int)

  /** Stepping k more times from a multiple of m is the multiple for a + k. */
  lemma AddMultiple(c: int, a: int, k: int, m: int)
    ensures c + a * m + k * m == c + (a + k) * m
  {
  }

  // ---------------------------------------------------------------------
  // Columns

  /**
   * The `do { ... } while (count--)` loop of R_DrawColumn: one pixel per
   * step, going down one screen row each time, reading the column at
   * frac >> FRACBITS. The index is not masked to the texture height.
   */
  function ColumnRun(dest: int, frac: int, step: int, count: nat): seq<Pixel>
    decreases count
  {
    [Pixel(dest, Shr16(frac))] + (if count == 0 then [] else ColumnRun(dest + SCREENWIDTH, frac + step, step, count - 1))
  }

  /** The column loop writes count + 1 pixels. */
  lemma {:induction false} ColumnRunLength(dest: int, frac: int, step: int, count: nat)
    ensures |ColumnRun(dest, frac, step, count)| == count + 1
    decreases count
  {
    hide Shr16;
    if count > 0 {
      ColumnRunLength(dest + SCREENWIDTH, frac + step, step, count - 1);
    }
  }

  /** Step k of the column loop writes k rows further down and reads k steps further along. */
  lemma {:induction false} ColumnRunPixels(dest: int, frac: int, step: int, count: nat, k: nat)
    requires k <= count
    ensures k < |ColumnRun(dest, frac, step, count)|
    ensures ColumnRun(dest, frac, step, count)[k] == Pixel(dest + k * SCREENWIDTH, Shr16(frac + k * step))
    decreases count
  {
    hide Shr16;
    ColumnRunLength(dest, frac, step, count);
    if k > 0 {
      ColumnRunPixels(dest + SCREENWIDTH, frac + step, step, count - 1, k - 1);
      AddMultiple(frac, k - 1, 1, step);
      AddMultiple(dest, k - 1, 1, SCREENWIDTH);
    }
  }

  /** R_DrawColumn (and R_DrawTranslatedColumn, which differs only in the colour it writes). */
  function DrawColumn(b: Buffer, x: int, yl: int, yh: int, texturemid: int, iscale: int, centery: int): seq<Pixel>
    requires yh < yl || (0 <= x < |b.columnofs| && 0 <= yl < |b.ylookup|)
  {
    var count := yh - yl;
    if count < 0 then []
    else ColumnRun(b.ylookup[yl] + b.columnofs[x], texturemid + (yl - centery) * iscale, iscale, count)
  }

  /**
   * R_DrawColumn writes nothing when yh < yl, and otherwise one pixel in
   * each screen row of yl..yh, all in the screen column of view column x,
   * stepping the texture coordinate by iscale per row from the one that
   * row centery would have.
   */
  lemma DrawColumnPixels(b: Buffer, x: int, yl: int, yh: int, texturemid: int, iscale: int, centery: int, k: nat)
    requires Laid(b)
    requires yh < yl || (0 <= x < |b.columnofs| && 0 <= yl < |b.ylookup|)
    ensures |DrawColumn(b, x, yl, yh, texturemid, iscale, centery)| == if yh < yl then 0 else yh - yl + 1
    ensures k < |DrawColumn(b, x, yl, yh, texturemid, iscale, centery)| ==>
      DrawColumn(b, x, yl, yh, texturemid, iscale, centery)[k] ==
        Pixel((b.viewwindowy + yl + k) * SCREENWIDTH + b.viewwindowx + x,
              Shr16(texturemid + (yl + k - centery) * iscale))
  {
    hide Shr16, ColumnRun;
    if yl <= yh {
      var k' := if k <= yh - yl then k else 0;
      ColumnRunLength(b.ylookup[yl] + b.columnofs[x], texturemid + (yl - centery) * iscale, iscale, yh - yl);
      ColumnRunPixels(b.ylookup[yl] + b.columnofs[x], texturemid + (yl - centery) * iscale, iscale, yh - yl, k');
      AddMultiple(texturemid, yl - centery, k', iscale);
      AddMultiple(b.viewwindowx + x, yl + b.viewwindowy, k', SCREENWIDTH);
    }
  }

  /** The two screen columns the low-detail column drawer fills, one pixel each per row. */
  datatype LowColumn = LowColumn(left: seq<Pixel>, right: seq<Pixel>)

  /**
   * R_DrawColumnLow: view column x of the half-width view is doubled to
   * screen columns 2 x and 2 x + 1, and the same loop as R_DrawColumn
   * writes both at once.
   */
  function DrawColumnLow(b: Buffer, x: int, yl: int, yh: int, texturemid: int, iscale: int, centery: int): LowColumn
    requires yh < yl || (0 <= 2 * x && 2 * x + 1 < |b.columnofs| && 0 <= yl < |b.ylookup|)
  {
    var count := yh - yl;
    if count < 0 then LowColumn([], [])
    else
      var frac := texturemid + (yl - centery) * iscale;
      LowColumn(ColumnRun(b.ylookup[yl] + b.columnofs[2 * x], frac, iscale, count),
                ColumnRun(b.ylookup[yl] + b.columnofs[2 * x + 1], frac, iscale, count))
  }

  /**
   * The low-detail column writes yh - yl + 1 rows in each of screen
   * columns 2 x and 2 x + 1, both pixels of a row showing the texel the
   * full-detail drawer would show in that row.
   */
  lemma DrawColumnLowPixels(b: Buffer, x: int, yl: int, yh: int, texturemid: int, iscale: int, centery: int, k: nat)
    requires Laid(b)
    requires yh < yl || (0 <= 2 * x && 2 * x + 1 < |b.columnofs| && 0 <= yl < |b.ylookup|)
    ensures |DrawColumnLow(b, x, yl, yh, texturemid, iscale, centery).left| == if yh < yl then 0 else yh - yl + 1
    ensures |DrawColumnLow(b, x, yl, yh, texturemid, iscale, centery).right| == if yh < yl then 0 else yh - yl + 1
    ensures k <= yh - yl ==>
      && DrawColumnLow(b, x, yl, yh, texturemid, iscale, centery).left[k] ==
           Pixel((b.viewwindowy + yl + k) * SCREENWIDTH + b.viewwindowx + 2 * x, Shr16(texturemid + (yl + k - centery) * iscale))
      && DrawColumnLow(b, x, yl, yh, texturemid, iscale, centery).right[k] ==
           Pixel((b.viewwindowy + yl + k) * SCREENWIDTH + b.viewwindowx + 2 * x + 1, Shr16(texturemid + (yl + k - centery) * iscale))
  {
    hide Shr16, ColumnRun;
    if yl <= yh {
      assert DrawColumnLow(b, x, yl, yh, texturemid, iscale, centery).left == DrawColumn(b, 2 * x, yl, yh, texturemid, iscale, centery);
      assert DrawColumnLow(b, x, yl, yh, texturemid, iscale, centery).right == DrawColumn(b, 2 * x + 1, yl, yh, texturemid, iscale, centery);
      DrawColumnPixels(b, 2 * x, yl, yh, texturemid, iscale, centery, k);
      DrawColumnPixels(b, 2 * x + 1, yl, yh, texturemid, iscale, centery, k);
    }
  }

  // ---------------------------------------------------------------------
  // Fuzz (spectre) columns

  /** The fuzz table, true for FUZZOFF (one row down) and false for -FUZZOFF (one row up). */
  const FUZZ_DOWN: seq<bool> := [
    true, false, true, false, true, true, false,
    true, true, false, true, true, true, false,
    true, true, true, false, false, false, false,
    true, false, false, true, true, true, true, false,
    true, false, true, true, false, false, true,
    true, false, false, false, false, true, true,
    true, true, false, true, true, false, true
  ]

  /** fuzzoffset[i]: one screen row down (FUZZOFF) or up (-FUZZOFF). */
  function FuzzOffset(i: int): (d: int)
    requires 0 <= i < FUZZTABLE
    ensures d == SCREENWIDTH || d == -SCREENWIDTH
  {
    if FUZZ_DOWN[i] then SCREENWIDTH else -SCREENWIDTH
  }

  /** The pixels a fuzz column writes, and where fuzzpos is left. */
  datatype Fuzzed = Fuzzed(pixels: seq<Pixel>, fuzzpos: int)

  /** fuzzpos after `if (++fuzzpos == FUZZTABLE) fuzzpos = 0`. */
  function FuzzNext(pos: int): int {
    if pos + 1 == FUZZTABLE then 0 else pos + 1
  }

  /**
   * The loop of R_DrawFuzzColumn: each pixel is read from the screen one
   * row above or below itself, as the fuzz table says at fuzzpos.
   */
  function FuzzRun(dest: int, pos: int, count: nat): Fuzzed
    requires 0 <= pos < FUZZTABLE
    decreases count
  {
    var here := Pixel(dest, dest + FuzzOffset(pos));
    if count == 0 then Fuzzed([here], FuzzNext(pos))
    else
      var rest := FuzzRun(dest + SCREENWIDTH, FuzzNext(pos), count - 1);
      Fuzzed([here] + rest.pixels, rest.fuzzpos)
  }

  /** Advancing fuzzpos once is adding one modulo the table size. */
  lemma FuzzNextMod(pos: int, k: int)
    requires 0 <= pos < FUZZTABLE
    ensures FuzzNext(pos) == (pos + 1) % FUZZTABLE
    ensures (FuzzNext(pos) + k) % FUZZTABLE == (pos + 1 + k) % FUZZTABLE
  {
    if pos + 1 == FUZZTABLE {
      DivModUnique(pos + 1, FUZZTABLE, 1, 0);
      DivModUnique(k + FUZZTABLE, FUZZTABLE, k / FUZZTABLE + 1, k % FUZZTABLE);
    } else {
      DivModUnique(pos + 1, FUZZTABLE, 0, pos + 1);
    }
  }

  /** The fuzz loop writes count + 1 pixels and leaves fuzzpos count + 1 entries further on. */
  lemma {:induction false} FuzzRunEnd(dest: int, pos: int, count: nat)
    requires 0 <= pos < FUZZTABLE
    ensures |FuzzRun(dest, pos, count).pixels| == count + 1
    ensures FuzzRun(dest, pos, count).fuzzpos == (pos + count + 1) % FUZZTABLE
    decreases count
  {
    hide FuzzOffset;
    FuzzNextMod(pos, count);
    if count > 0 {
      FuzzRunEnd(dest + SCREENWIDTH, FuzzNext(pos), count - 1);
    }
  }

  /** Step k of the fuzz loop writes k rows down and reads at table entry (pos + k) mod 50. */
  lemma {:induction false} FuzzRunPixels(dest: int, pos: int, count: nat, k: nat)
    requires 0 <= pos < FUZZTABLE && k <= count
    ensures k < |FuzzRun(dest, pos, count).pixels|
    ensures FuzzRun(dest, pos, count).pixels[k] ==
      Pixel(dest + k * SCREENWIDTH, dest + k * SCREENWIDTH + FuzzOffset((pos + k) % FUZZTABLE))
    decreases count
  {
    hide FuzzOffset;
    FuzzRunEnd(dest, pos, count);
    if k == 0 {
      DivModUnique(pos, FUZZTABLE, 0, pos);
    } else {
      FuzzRunPixels(dest + SCREENWIDTH, FuzzNext(pos), count - 1, k - 1);
      FuzzNextMod(pos, k - 1);
      AddMultiple(dest, k - 1, 1, SCREENWIDTH);
    }
  }

  /** dc_yl after R_DrawFuzzColumn's clamp: row 0 has no row above it to read. */
  function FuzzTop(yl: int): int {
    if yl == 0 then 1 else yl
  }

  /** dc_yh after the clamp: the last view row has no row below it to read. */
  function FuzzBottom(yh: int, viewheight: int): int {
    if yh == viewheight - 1 then viewheight - 2 else yh
  }

  /** R_DrawFuzzColumn: clamp the rows, then run the fuzz loop if anything is left. */
  function DrawFuzzColumn(b: Buffer, x: int, yl: int, yh: int, viewheight: int, fuzzpos: int): Fuzzed
    requires 0 <= fuzzpos < FUZZTABLE
    requires FuzzBottom(yh, viewheight) < FuzzTop(yl) || (0 <= x < |b.columnofs| && 0 <= FuzzTop(yl) < |b.ylookup|)
  {
    var top, bottom := FuzzTop(yl), FuzzBottom(yh, viewheight);
    if bottom - top < 0 then Fuzzed([], fuzzpos)
    else FuzzRun(b.ylookup[top] + b.columnofs[x], fuzzpos, bottom - top)
  }

  /**
   * For a column inside the view, the fuzz drawer writes rows 1 ..
   * viewheight - 2 at most, reads each pixel from the row directly above
   * or below it (so every read stays inside the view), and leaves fuzzpos
   * in [0, 50), advanced by the number of pixels written.
   */
  lemma DrawFuzzColumnPixels(b: Buffer, x: int, yl: int, yh: int, viewheight: int, fuzzpos: int, k: nat)
    requires Laid(b) && 0 <= fuzzpos < FUZZTABLE
    requires 0 <= yl && yh <= viewheight - 1
    requires FuzzBottom(yh, viewheight) < FuzzTop(yl) || (0 <= x < |b.columnofs| && 0 <= FuzzTop(yl) < |b.ylookup|)
    ensures var r := DrawFuzzColumn(b, x, yl, yh, viewheight, fuzzpos);
      && 0 <= r.fuzzpos < FUZZTABLE
      && r.fuzzpos == (fuzzpos + |r.pixels|) % FUZZTABLE
      && |r.pixels| == (if FuzzBottom(yh, viewheight) < FuzzTop(yl) then 0 else FuzzBottom(yh, viewheight) - FuzzTop(yl) + 1)
    ensures var r := DrawFuzzColumn(b, x, yl, yh, viewheight, fuzzpos);
      k < |r.pixels| ==>
        && 1 <= FuzzTop(yl) + k <= viewheight - 2
        && r.pixels[k].dest == (b.viewwindowy + FuzzTop(yl) + k) * SCREENWIDTH + b.viewwindowx + x
        && (r.pixels[k].src == r.pixels[k].dest + SCREENWIDTH || r.pixels[k].src == r.pixels[k].dest - SCREENWIDTH)
  {
    hide FuzzRun, FuzzOffset;
    var top, bottom := FuzzTop(yl), FuzzBottom(yh, viewheight);
    if top <= bottom {
      var k' := if k <= bottom - top then k else 0;
      FuzzRunEnd(b.ylookup[top] + b.columnofs[x], fuzzpos, bottom - top);
      FuzzRunPixels(b.ylookup[top] + b.columnofs[x], fuzzpos, bottom - top, k');
      AddMultiple(b.viewwindowx + x, top + b.viewwindowy, k', SCREENWIDTH);
    } else {
      DivModUnique(fuzzpos, FUZZTABLE, 0, fuzzpos);
    }
  }

  // ---------------------------------------------------------------------
  // Spans

  /**
   * The flat texel R_DrawSpan reads:
   * ((yfrac >> (16 - 6)) & (63 * 64)) + ((xfrac >> 16) & 63).
   * `>>` on a signed value rounds down and `& (2^n - 1)` keeps the low n
   * bits of the two's complement value; Dafny's `/` and `%` by a positive
   * constant do exactly that, so `v & (63 * 64)` is v % 4096 - v % 64.
   */
  function Spot(xfrac: int, yfrac: int): int {
    var v := yfrac / 0x400;
    (v % 0x1000 - v % 0x40) + (xfrac / 0x10000) % 0x40
  }

  /** Shifting right by 10 and then by 6 is shifting by 16. */
  lemma ShiftTwice(y: int)
    ensures (y / 0x400) / 0x40 == y / 0x10000
  {
    var v := y / 0x400;
    DivModUnique(y, 0x10000, v / 0x40, (v % 0x40) * 0x400 + y % 0x400);
  }

  /** Bits 6..11 of v are bits 0..5 of v >> 6, moved up by 6. */
  lemma RowBits(v: int)
    ensures v % 0x1000 - v % 0x40 == 0x40 * ((v / 0x40) % 0x40)
  {
    var q := v / 0x40;
    DivModUnique(v, 0x1000, q / 0x40, (q % 0x40) * 0x40 + v % 0x40);
  }

  /**
   * The texel is the one at row (yfrac >> 16) & 63 and column
   * (xfrac >> 16) & 63 of the 64 x 64 flat, stored row by row.
   */
  lemma SpotIsRowColumn(xfrac: int, yfrac: int)
    ensures Spot(xfrac, yfrac) == 0x40 * ((yfrac / 0x10000) % 0x40) + (xfrac / 0x10000) % 0x40
  {
    ShiftTwice(yfrac);
    RowBits(yfrac / 0x400);
  }

  /** The span texel index always lies in [0, 4095], inside the 4096-byte flat. */
  lemma SpotInFlat(xfrac: int, yfrac: int)
    ensures 0 <= Spot(xfrac, yfrac) <= 4095
  {
    SpotIsRowColumn(xfrac, yfrac);
  }

  /** The texel depends only on the low 32 bits of xfrac and yfrac, so their wrap-around does not matter. */
  lemma SpotWraps(xfrac: int, yfrac: int, i: int, j: int)
    ensures Spot(xfrac + i * TWO_32, yfrac + j * TWO_32) == Spot(xfrac, yfrac)
  {
    SpotIsRowColumn(xfrac, yfrac);
    SpotIsRowColumn(xfrac + i * TWO_32, yfrac + j * TWO_32);
    Shr16Wraps(xfrac, i);
    Shr16Wraps(yfrac, j);
  }

  /** Adding i * 2^32 adds i * 2^16 after the shift, which bits 0..5 do not see. */
  lemma Shr16Wraps(x: int, i: int)
    ensures ((x + i * TWO_32) / 0x10000) % 0x40 == (x / 0x10000) % 0x40
  {
    var q := x / 0x10000;
    DivModUnique(x + i * TWO_32, 0x10000, q + i * 0x10000, x % 0x10000);
    DivModUnique(q + i * 0x10000, 0x40, q / 0x40 + i * 0x400, q % 0x40);
  }

  /** One step of a span loop: w == 1 for R_DrawSpan, w == 2 for the Low variant's `*dest++` twice. */
  function SpanStep(dest: int, spot: int, w: int): (r: seq<Pixel>)
    requires w == 1 || w == 2
  {
    if w == 1 then [Pixel(dest, spot)] else [Pixel(dest, spot), Pixel(dest + 1, spot)]
  }

  /** The `do { ... } while (count--)` loop of the span drawers. */
  function SpanRun(dest: int, xfrac: int, yfrac: int, xstep: int, ystep: int, count: nat, w: int): seq<Pixel>
    requires w == 1 || w == 2
    decreases count
  {
    SpanStep(dest, Spot(xfrac, yfrac), w)
      + (if count == 0 then [] else SpanRun(dest + w, xfrac + xstep, yfrac + ystep, xstep, ystep, count - 1, w))
  }

  /** A span loop writes w (count + 1) pixels. */
  lemma {:induction false} SpanRunLength(dest: int, xfrac: int, yfrac: int, xstep: int, ystep: int, count: nat, w: int)
    requires w == 1 || w == 2
    ensures |SpanRun(dest, xfrac, yfrac, xstep, ystep, count, w)| == w * (count + 1)
    decreases count
  {
    hide Spot;
    if count > 0 {
      SpanRunLength(dest + w, xfrac + xstep, yfrac + ystep, xstep, ystep, count - 1, w);
    }
  }

  /** One more step of a span loop: its own pixels, then those of the steps after it. */
  lemma SpanRunUnfold(dest: int, xfrac: int, yfrac: int, xstep: int, ystep: int, count: nat, w: int)
    requires (w == 1 || w == 2) && count > 0
    ensures SpanRun(dest, xfrac, yfrac, xstep, ystep, count, w) ==
      SpanStep(dest, Spot(xfrac, yfrac), w) + SpanRun(dest + w, xfrac + xstep, yfrac + ystep, xstep, ystep, count - 1, w)
  {
  }

  /** The first step of a span loop writes its w pixels from dest, all reading the starting texel. */
  lemma SpanRunHead(dest: int, xfrac: int, yfrac: int, xstep: int, ystep: int, count: nat, w: int, j: nat)
    requires (w == 1 || w == 2) && j < w
    ensures j < |SpanRun(dest, xfrac, yfrac, xstep, ystep, count, w)|
    ensures SpanRun(dest, xfrac, yfrac, xstep, ystep, count, w)[j] == Pixel(dest + j, Spot(xfrac, yfrac))
  {
    hide Spot;
  }

  /** Pixel j of step q comes before the end of count + 1 steps. */
  lemma StepIndexInRange(q: nat, w: int, j: nat, count: nat)
    requires (w == 1 || w == 2) && q <= count && j < w
    ensures q * w + j < w * (count + 1)
  {
    assert q * w <= count * w;
  }

  /**
   * The pixels of a span loop are consecutive: pixel q w + j, the j-th of
   * step q, is at dest + q w + j and reads the texel of the coordinates
   * after q steps.
   */
  lemma {:induction false} SpanRunPixels(dest: int, xfrac: int, yfrac: int, xstep: int, ystep: int, count: nat, w: int, q: nat, j: nat)
    requires w == 1 || w == 2
    requires q <= count && j < w
    ensures q * w + j < |SpanRun(dest, xfrac, yfrac, xstep, ystep, count, w)|
    ensures SpanRun(dest, xfrac, yfrac, xstep, ystep, count, w)[q * w + j] ==
      Pixel(dest + q * w + j, Spot(xfrac + q * xstep, yfrac + q * ystep))
    decreases count
  {
    hide Spot, SpanRun;
    SpanRunLength(dest, xfrac, yfrac, xstep, ystep, count, w);
    StepIndexInRange(q, w, j, count);
    if q == 0 {
      SpanRunHead(dest, xfrac, yfrac, xstep, ystep, count, w, j);
    } else {
      SpanRunUnfold(dest, xfrac, yfrac, xstep, ystep, count, w);
      SpanRunPixels(dest + w, xfrac + xstep, yfrac + ystep, xstep, ystep, count - 1, w, q - 1, j);
      AddMultiple(j, q - 1, 1, w);
      AddMultiple(xfrac, q - 1, 1, xstep);
      AddMultiple(yfrac, q - 1, 1, ystep);
    }
  }

  /** The rows and columns a span may be drawn at: inside the laid-out tables. */
  predicate SpanIn(b: Buffer, y: int, x1: int, x2: int) {
    x1 <= x2 && 0 <= x1 < |b.columnofs| && 0 <= y < |b.ylookup|
  }

  /** R_DrawSpan: one pixel per step from column x1 to column x2 of row y. */
  function DrawSpan(b: Buffer, y: int, x1: int, x2: int, xfrac: int, yfrac: int, xstep: int, ystep: int): seq<Pixel>
    requires SpanIn(b, y, x1, x2)
  {
    SpanRun(b.ylookup[y] + b.columnofs[x1], xfrac, yfrac, xstep, ystep, x2 - x1, 1)
  }

  /**
   * R_DrawSpan writes ds_x2 - ds_x1 + 1 pixels: exactly the screen columns
   * of view columns x1..x2 in row y, stepping the texture coordinates once
   * per pixel.
   */
  lemma DrawSpanPixels(b: Buffer, y: int, x1: int, x2: int, xfrac: int, yfrac: int, xstep: int, ystep: int, i: nat)
    requires Laid(b) && SpanIn(b, y, x1, x2)
    ensures |DrawSpan(b, y, x1, x2, xfrac, yfrac, xstep, ystep)| == x2 - x1 + 1
    ensures i <= x2 - x1 ==>
      DrawSpan(b, y, x1, x2, xfrac, yfrac, xstep, ystep)[i] ==
        Pixel((b.viewwindowy + y) * SCREENWIDTH + b.viewwindowx + x1 + i, Spot(xfrac + i * xstep, yfrac + i * ystep))
  {
    hide Spot, SpanRun;
    var i' := if i <= x2 - x1 then i else 0;
    SpanRunLength(b.ylookup[y] + b.columnofs[x1], xfrac, yfrac, xstep, ystep, x2 - x1, 1);
    SpanRunPixels(b.ylookup[y] + b.columnofs[x1], xfrac, yfrac, xstep, ystep, x2 - x1, 1, i', 0);
  }

  /** The doubled span of the low-detail mode fits the columns laid out. */
  predicate SpanLowIn(b: Buffer, y: int, x1: int, x2: int) {
    x1 <= x2 && 0 <= 2 * x1 < |b.columnofs| && 0 <= y < |b.ylookup|
  }

  /**
   * R_DrawSpanLow as written: x1 and x2 are doubled first, and count is
   * taken from the doubled values, so the loop runs 2 (x2 - x1) + 1 steps
   * of two pixels each.
   */
  function DrawSpanLowAsWritten(b: Buffer, y: int, x1: int, x2: int, xfrac: int, yfrac: int, xstep: int, ystep: int): seq<Pixel>
    requires SpanLowIn(b, y, x1, x2)
  {
    SpanRun(b.ylookup[y] + b.columnofs[2 * x1], xfrac, yfrac, xstep, ystep, 2 * x2 - 2 * x1, 2)
  }

  /**
   * R_DrawSpanLow as intended: count is taken before doubling, so each of
   * the x2 - x1 + 1 low-detail columns gets two pixels.
   */
  function DrawSpanLow(b: Buffer, y: int, x1: int, x2: int, xfrac: int, yfrac: int, xstep: int, ystep: int): seq<Pixel>
    requires SpanLowIn(b, y, x1, x2)
  {
    SpanRun(b.ylookup[y] + b.columnofs[2 * x1], xfrac, yfrac, xstep, ystep, x2 - x1, 2)
  }

  /**
   * The corrected low-detail span fills exactly screen columns 2 x1 ..
   * 2 x2 + 1 of row y, the two pixels of each low-detail column sharing
   * one texel.
   */
  lemma DrawSpanLowPixels(b: Buffer, y: int, x1: int, x2: int, xfrac: int, yfrac: int, xstep: int, ystep: int, i: nat)
    requires Laid(b) && SpanLowIn(b, y, x1, x2)
    ensures |DrawSpanLow(b, y, x1, x2, xfrac, yfrac, xstep, ystep)| == 2 * (x2 - x1 + 1)
    ensures i < 2 * (x2 - x1 + 1) ==>
      DrawSpanLow(b, y, x1, x2, xfrac, yfrac, xstep, ystep)[i] ==
        Pixel((b.viewwindowy + y) * SCREENWIDTH + b.viewwindowx + 2 * x1 + i,
              Spot(xfrac + (i / 2) * xstep, yfrac + (i / 2) * ystep))
  {
    hide Spot, SpanRun;
    var i' := if i < 2 * (x2 - x1 + 1) then i else 0;
    SpanRunLength(b.ylookup[y] + b.columnofs[2 * x1], xfrac, yfrac, xstep, ystep, x2 - x1, 2);
    DivModUnique(i', 2, i' / 2, i' % 2);
    SpanRunPixels(b.ylookup[y] + b.columnofs[2 * x1], xfrac, yfrac, xstep, ystep, x2 - x1, 2, i' / 2, i' % 2);
  }

  /**
   * As written, the low-detail span writes 4 (x2 - x1) + 2 pixels, and
   * its last pixel lies 2 (x2 - x1) columns past the doubled span's last
   * column 2 x2 + 1 whenever x2 > x1.
   */
  lemma DrawSpanLowOverruns(b: Buffer, y: int, x1: int, x2: int, xfrac: int, yfrac: int, xstep: int, ystep: int)
    requires Laid(b) && SpanLowIn(b, y, x1, x2)
    ensures var r := DrawSpanLowAsWritten(b, y, x1, x2, xfrac, yfrac, xstep, ystep);
      && |r| == 4 * (x2 - x1) + 2
      && r[|r| - 1].dest == (b.viewwindowy + y) * SCREENWIDTH + b.viewwindowx + (2 * x2 + 1) + 2 * (x2 - x1)
  {
    hide Spot, SpanRun;
    SpanRunLength(b.ylookup[y] + b.columnofs[2 * x1], xfrac, yfrac, xstep, ystep, 2 * x2 - 2 * x1, 2);
    SpanRunPixels(b.ylookup[y] + b.columnofs[2 * x1], xfrac, yfrac, xstep, ystep, 2 * x2 - 2 * x1, 2, 2 * x2 - 2 * x1, 1);
  }

  // ---------------------------------------------------------------------
  // Range checks

  /** The I_Error format strings of the range checks (the values they print are not modelled). */
  const COLUMN_RANGE: string := "R_DrawColumn: %i to %i at %i"
  const FUZZ_RANGE: string := "R_DrawFuzzColumn: %i to %i at %i"
  const SPAN_RANGE: string := "R_DrawSpan: %i to %i at %i"

  /**
   * columnofs and ylookup as the arrays they are, MAXWIDTH and MAXHEIGHT
   * entries long; R_InitBuffer lays out the first width and height of them.
   */
  predicate FullTables(b: Buffer) {
    |b.columnofs| == MAXWIDTH && |b.ylookup| == MAXHEIGHT
  }

  /** The column drawers' range check passes: dc_x, compared unsigned, below SCREENWIDTH, dc_yl not negative, dc_yh below SCREENHEIGHT. */
  predicate ColumnInRange(x: int, yl: int, yh: int) {
    0 <= x < SCREENWIDTH && 0 <= yl && yh < SCREENHEIGHT
  }

  /** The span drawers' range check passes: x1 <= x2, x1 not negative, x2 below SCREENWIDTH, ds_y, compared unsigned, at most SCREENHEIGHT. */
  predicate SpanInRange(y: int, x1: int, x2: int) {
    x1 <= x2 && 0 <= x1 && x2 < SCREENWIDTH && 0 <= y <= SCREENHEIGHT
  }

  /**
   * R_DrawColumn and R_DrawTranslatedColumn with RANGECHECK: an empty
   * column returns before the check; a column outside the screen is
   * fatal; any other is drawn, and every table index it reads exists.
   */
  function CheckedColumn(b: Buffer, x: int, yl: int, yh: int, texturemid: int, iscale: int, centery: int): (r: Outcome<seq<Pixel>>)
    requires FullTables(b)
    ensures r.Fatal? <==> yl <= yh && !ColumnInRange(x, yl, yh)
    ensures r.Fatal? ==> r.message == COLUMN_RANGE
    ensures r.Ok? ==> yh < yl || (0 <= x < |b.columnofs| && 0 <= yl < |b.ylookup|)
    ensures r.Ok? ==> r.value == DrawColumn(b, x, yl, yh, texturemid, iscale, centery)
  {
    if yh < yl then Ok([])
    else if !ColumnInRange(x, yl, yh) then Fatal(COLUMN_RANGE)
    else Ok(DrawColumn(b, x, yl, yh, texturemid, iscale, centery))
  }

  /**
   * R_DrawColumnLow with RANGECHECK: the check is made on the undoubled
   * column, and the doubled columns 2 x, 2 x + 1 still lie in the table.
   */
  function CheckedColumnLow(b: Buffer, x: int, yl: int, yh: int, texturemid: int, iscale: int, centery: int): (r: Outcome<LowColumn>)
    requires FullTables(b)
    ensures r.Fatal? <==> yl <= yh && !ColumnInRange(x, yl, yh)
    ensures r.Fatal? ==> r.message == COLUMN_RANGE
    ensures r.Ok? ==> yh < yl || (0 <= 2 * x && 2 * x + 1 < |b.columnofs| && 0 <= yl < |b.ylookup|)
    ensures r.Ok? ==> r.value == DrawColumnLow(b, x, yl, yh, texturemid, iscale, centery)
  {
    if yh < yl then Ok(LowColumn([], []))
    else if !ColumnInRange(x, yl, yh) then Fatal(COLUMN_RANGE)
    else Ok(DrawColumnLow(b, x, yl, yh, texturemid, iscale, centery))
  }

  /**
   * R_DrawFuzzColumn with RANGECHECK: the rows are clamped first, and the
   * check is made on the clamped rows of a column that is not empty.
   */
  function CheckedFuzzColumn(b: Buffer, x: int, yl: int, yh: int, viewheight: int, fuzzpos: int): (r: Outcome<Fuzzed>)
    requires FullTables(b) && 0 <= fuzzpos < FUZZTABLE
    ensures r.Fatal? <==>
      FuzzTop(yl) <= FuzzBottom(yh, viewheight) && !ColumnInRange(x, FuzzTop(yl), FuzzBottom(yh, viewheight))
    ensures r.Fatal? ==> r.message == FUZZ_RANGE
    ensures r.Ok? ==>
      FuzzBottom(yh, viewheight) < FuzzTop(yl) || (0 <= x < |b.columnofs| && 0 <= FuzzTop(yl) < |b.ylookup|)
    ensures r.Ok? ==> r.value == DrawFuzzColumn(b, x, yl, yh, viewheight, fuzzpos)
  {
    var top, bottom := FuzzTop(yl), FuzzBottom(yh, viewheight);
    if bottom < top then Ok(Fuzzed([], fuzzpos))
    else if !ColumnInRange(x, top, bottom) then Fatal(FUZZ_RANGE)
    else Ok(DrawFuzzColumn(b, x, yl, yh, viewheight, fuzzpos))
  }

  /**
   * R_DrawSpan with RANGECHECK: a reversed span or one off the screen is
   * fatal (row SCREENHEIGHT itself passes); any other is drawn.
   */
  function CheckedSpan(b: Buffer, y: int, x1: int, x2: int, xfrac: int, yfrac: int, xstep: int, ystep: int): (r: Outcome<seq<Pixel>>)
    requires FullTables(b)
    ensures r.Fatal? <==> !SpanInRange(y, x1, x2)
    ensures r.Fatal? ==> r.message == SPAN_RANGE
    ensures r.Ok? ==> SpanIn(b, y, x1, x2) && r.value == DrawSpan(b, y, x1, x2, xfrac, yfrac, xstep, ystep)
  {
    if !SpanInRange(y, x1, x2) then Fatal(SPAN_RANGE)
    else Ok(DrawSpan(b, y, x1, x2, xfrac, yfrac, xstep, ystep))
  }

  /**
   * R_DrawSpanLow with RANGECHECK: the check is made before doubling, and
   * with the message of R_DrawSpan; a span that passes is drawn as
   * written, with the count taken after doubling, so it gets 4 (x2 - x1)
   * + 2 pixels rather than the 2 (x2 - x1 + 1) of its columns.
   */
  function CheckedSpanLow(b: Buffer, y: int, x1: int, x2: int, xfrac: int, yfrac: int, xstep: int, ystep: int): (r: Outcome<seq<Pixel>>)
    requires FullTables(b)
    ensures r.Fatal? <==> !SpanInRange(y, x1, x2)
    ensures r.Fatal? ==> r.message == SPAN_RANGE
    ensures r.Ok? ==> SpanLowIn(b, y, x1, x2) && r.value == DrawSpanLowAsWritten(b, y, x1, x2, xfrac, yfrac, xstep, ystep)
    ensures r.Ok? ==> |r.value| == 4 * (x2 - x1) + 2
  {
    if !SpanInRange(y, x1, x2) then Fatal(SPAN_RANGE)
    else
      SpanRunLength(b.ylookup[y] + b.columnofs[2 * x1], xfrac, yfrac, xstep, ystep, 2 * x2 - 2 * x1, 2);
      Ok(DrawSpanLowAsWritten(b, y, x1, x2, xfrac, yfrac, xstep, ystep))
  }

  /**
   * A column the range check lets through in a full-screen view writes
   * only inside the screen: every pixel's offset lies in 0 ..
   * SCREENWIDTH * SCREENHEIGHT - 1.
   */
  lemma CheckedColumnOnScreen(b: Buffer, x: int, yl: int, yh: int, texturemid: int, iscale: int, centery: int, k: nat)
    requires FullTables(b) && Laid(b) && b.viewwindowx == 0 && b.viewwindowy == 0
    requires CheckedColumn(b, x, yl, yh, texturemid, iscale, centery).Ok?
    requires k < |CheckedColumn(b, x, yl, yh, texturemid, iscale, centery).value|
    ensures 0 <= CheckedColumn(b, x, yl, yh, texturemid, iscale, centery).value[k].dest < SCREENWIDTH * SCREENHEIGHT
  {
    DrawColumnPixels(b, x, yl, yh, texturemid, iscale, centery, k);
  }
}

=== FILE: menu.dfy ===
/**
 * The WAD selection menu of menu_wad.c: which IWADs are offered, how the
 * PWAD list is edited, and which files the game is started with. The
 * file system, the full-path lookup of Windows and the window messages
 * are parameters: readable says whether a path can be opened for
 * reading, full gives the absolute form of a path.
 */
module Menu {
  import opened Wrappers

  const MAX_IWADS: int := 16
  const MAX_PWADS: int := 32
  const MAX_PATH: int := 512
  /** The characters an iwad_t name holds before its NUL. */
  const NAME_CHARS: int := 31

  /** The IWAD file names searched for, in search order. */
  const IWAD_NAMES: seq<seq<char>> :=
    ["doom1.wad", "doom.wad", "doomu.wad", "doom2.wad", "plutonia.wad", "tnt.wad", "doom2f.wad"]

  /** The game modes of the game: shareware, registered, commercial, retail. */
  const SHAREWARE: int := 0
  const REGISTERED: int := 1
  const COMMERCIAL: int := 2
  const RETAIL: int := 3

  // ---------------------------------------------------------------------
  // Names and game modes

  /** The needle matches the haystack at position i from its character j on. */
  predicate MatchAt(hay: seq<char>, needle: seq<char>, i: nat, j: nat)
    requires i + |needle| <= |hay| && j <= |needle|
    decreases |needle| - j
  {
    j == |needle| || (hay[i + j] == needle[j] && MatchAt(hay, needle, i, j + 1))
  }

  /** The search strstr makes: is there a match at position i or later? */
  predicate ContainsFrom(hay: seq<char>, needle: seq<char>, i: nat)
    decreases |hay| - i
  {
    i + |needle| <= |hay| && (MatchAt(hay, needle, i, 0) || ContainsFrom(hay, needle, i + 1))
  }

  /** strstr(hay, needle) != NULL. */
  predicate Contains(hay: seq<char>, needle: seq<char>) {
    ContainsFrom(hay, needle, 0)
  }

  /** The needle occurs at position i. */
  predicate OccursAt(hay: seq<char>, needle: seq<char>, i: int) {
    0 <= i && i + |needle| <= |hay| && hay[i..i + |needle|] == needle
  }

  /** A match from character j on is equality of the remaining slices. */
  lemma {:induction false} MatchAtSlice(hay: seq<char>, needle: seq<char>, i: nat, j: nat)
    requires i + |needle| <= |hay| && j <= |needle|
    ensures MatchAt(hay, needle, i, j) <==> hay[i + j..i + |needle|] == needle[j..]
    decreases |needle| - j
  {
    if j < |needle| {
      MatchAtSlice(hay, needle, i, j + 1);
      assert hay[i + j..i + |needle|] == [hay[i + j]] + hay[i + j + 1..i + |needle|];
      assert needle[j..] == [needle[j]] + needle[j + 1..];
    }
  }

  /** The search from i finds a match exactly when the needle occurs at i or later. */
  lemma {:induction false} ContainsFromOccurs(hay: seq<char>, needle: seq<char>, i: nat)
    ensures ContainsFrom(hay, needle, i) <==> exists k :: i <= k && OccursAt(hay, needle, k)
    decreases |hay| - i
  {
    if i + |needle| <= |hay| {
      MatchAtSlice(hay, needle, i, 0);
      assert needle[0..] == needle;
      ContainsFromOccurs(hay, needle, i + 1);
      if exists k :: i <= k && OccursAt(hay, needle, k) {
        var k :| i <= k && OccursAt(hay, needle, k);
        if k > i {
          assert i + 1 <= k && OccursAt(hay, needle, k);
        }
      }
      if MatchAt(hay, needle, i, 0) {
        assert OccursAt(hay, needle, i);
      }
    } else {
      forall k | i <= k
        ensures !OccursAt(hay, needle, k)
      {
      }
    }
  }

  /** Contains means what strstr means: an occurrence at some position. */
  lemma ContainsOccurs(hay: seq<char>, needle: seq<char>)
    ensures Contains(hay, needle) <==> exists k :: OccursAt(hay, needle, k)
  {
    ContainsFromOccurs(hay, needle, 0);
  }

  /**
   * GetGamemodeFromIWAD: the mode of the first IWAD name, in the order
   * doom1, doom, doomu, doom2, plutonia, tnt, doom2f, that occurs in the
   * file name; -1 when none does.
   */
  function GameMode(name: seq<char>): (mode: int)
    ensures -1 <= mode <= RETAIL
  {
    if Contains(name, "doom1.wad") then SHAREWARE
    else if Contains(name, "doom.wad") then REGISTERED
    else if Contains(name, "doomu.wad") then RETAIL
    else if Contains(name, "doom2.wad") then COMMERCIAL
    else if Contains(name, "plutonia.wad") then COMMERCIAL
    else if Contains(name, "tnt.wad") then COMMERCIAL
    else if Contains(name, "doom2f.wad") then COMMERCIAL
    else -1
  }

  /**
   * The modes of the searched names: doom1 is shareware, doom registered,
   * doomu retail, and doom2, plutonia, tnt and doom2f commercial.
   */
  lemma SearchedModes()
    ensures GameMode("doom1.wad") == SHAREWARE
    ensures GameMode("doom.wad") == REGISTERED
    ensures GameMode("doomu.wad") == RETAIL
    ensures GameMode("doom2.wad") == COMMERCIAL
    ensures GameMode("plutonia.wad") == COMMERCIAL
    ensures GameMode("tnt.wad") == COMMERCIAL
    ensures GameMode("doom2f.wad") == COMMERCIAL
  {
    assert Contains("doom1.wad", "doom1.wad");
    assert !Contains("doom.wad", "doom1.wad");
    assert Contains("doom.wad", "doom.wad");
    assert !Contains("doomu.wad", "doom1.wad");
    assert !Contains("doomu.wad", "doom.wad");
    assert Contains("doomu.wad", "doomu.wad");
    assert !Contains("doom2.wad", "doom1.wad");
    assert !Contains("doom2.wad", "doom.wad");
    assert !Contains("doom2.wad", "doomu.wad");
    assert Contains("doom2.wad", "doom2.wad");
    assert !Contains("plutonia.wad", "doom1.wad");
    assert !Contains("plutonia.wad", "doom.wad");
    assert !Contains("plutonia.wad", "doomu.wad");
    assert !Contains("plutonia.wad", "doom2.wad");
    assert Contains("plutonia.wad", "plutonia.wad");
    assert !Contains("tnt.wad", "doom1.wad");
    assert !Contains("tnt.wad", "doom.wad");
    assert !Contains("tnt.wad", "doomu.wad");
    assert !Contains("tnt.wad", "doom2.wad");
    assert !Contains("tnt.wad", "plutonia.wad");
    assert Contains("tnt.wad", "tnt.wad");
    assert !Contains("doom2f.wad", "doom1.wad");
    assert !Contains("doom2f.wad", "doom.wad");
    assert !Contains("doom2f.wad", "doomu.wad");
    assert !Contains("doom2f.wad", "doom2.wad");
    assert !Contains("doom2f.wad", "plutonia.wad");
    assert !Contains("doom2f.wad", "tnt.wad");
    assert Contains("doom2f.wad", "doom2f.wad");
  }

  /** A name has a game mode exactly when one of the searched names occurs in it. */
  lemma GameModeKnown(name: seq<char>)
    ensures GameMode(name) != -1 <==> exists k :: 0 <= k < |IWAD_NAMES| && Contains(name, IWAD_NAMES[k])
  {
    if GameMode(name) != -1 {
      var k := if Contains(name, IWAD_NAMES[0]) then 0
        else if Contains(name, IWAD_NAMES[1]) then 1
        else if Contains(name, IWAD_NAMES[2]) then 2
        else if Contains(name, IWAD_NAMES[3]) then 3
        else if Contains(name, IWAD_NAMES[4]) then 4
        else if Contains(name, IWAD_NAMES[5]) then 5
        else 6;
      assert Contains(name, IWAD_NAMES[k]);
    }
  }

  /** strncpy into a field of n characters and a NUL: at most the first n characters survive. */
  function Truncate(s: seq<char>, n: nat): (r: seq<char>)
    ensures |r| == (if |s| <= n then |s| else n)
    ensures r == s[..|r|]
  {
    if |s| <= n then s else s[..n]
  }

  // ---------------------------------------------------------------------
  // Scanning for IWADs

  /** One entry of s_iwads. */
  datatype Iwad = Iwad(path: seq<char>, name: seq<char>, gamemode: int)

  /** One file ScanDirectoryForIWADs tries: the path it tests, and the entry it records when that path is readable. */
  datatype Probe = Probe(probe: seq<char>, entry: Iwad)

  /** The path "dir\name" sprintf builds. */
  function Join(dir: seq<char>, name: seq<char>): seq<char> {
    dir + "\\" + name
  }

  /** The probe for one searched name in a directory whose absolute form is fullDir. */
  function ProbeFor(full: seq<char> -> seq<char>, fullDir: seq<char>, name: seq<char>): Probe {
    var path := Join(fullDir, name);
    Probe(path, Iwad(Truncate(full(path), MAX_PATH - 1), Truncate(name, NAME_CHARS), GameMode(name)))
  }

  /** The probes of one directory, one per searched name, in search order. */
  function DirProbes(full: seq<char> -> seq<char>, dir: seq<char>): (ps: seq<Probe>)
    ensures |ps| == |IWAD_NAMES|
  {
    var fullDir := Truncate(full(dir), MAX_PATH - 1);
    seq(|IWAD_NAMES|, k requires 0 <= k < |IWAD_NAMES| => ProbeFor(full, fullDir, IWAD_NAMES[k]))
  }

  /** What the scan loop does with a list of probes: record each readable one while fewer than 16 are held. */
  function Fill(acc: seq<Iwad>, ps: seq<Probe>, readable: seq<char> -> bool): seq<Iwad>
    decreases |ps|
  {
    if |ps| == 0 then acc
    else
      var acc' := if readable(ps[0].probe) && |acc| < MAX_IWADS then acc + [ps[0].entry] else acc;
      Fill(acc', ps[1..], readable)
  }

  /** The entries of the readable probes, in order. */
  function Readable(ps: seq<Probe>, readable: seq<char> -> bool): seq<Iwad>
    decreases |ps|
  {
    if |ps| == 0 then [] else (if readable(ps[0].probe) then [ps[0].entry] else []) + Readable(ps[1..], readable)
  }

  /** At most the first 16 entries. */
  function Cap(s: seq<Iwad>): seq<Iwad> {
    if |s| <= MAX_IWADS then s else s[..MAX_IWADS]
  }

  /**
   * The scan keeps the first 16 readable probes: filling a list of at
   * most 16 entries appends the readable ones and cuts the whole at 16.
   */
  lemma {:induction false} FillIsCap(acc: seq<Iwad>, ps: seq<Probe>, readable: seq<char> -> bool)
    requires |acc| <= MAX_IWADS
    ensures Fill(acc, ps, readable) == Cap(acc + Readable(ps, readable))
    decreases |ps|
  {
    if |ps| > 0 {
      var e := ps[0].entry;
      var rest := Readable(ps[1..], readable);
      if readable(ps[0].probe) && |acc| < MAX_IWADS {
        FillIsCap(acc + [e], ps[1..], readable);
        assert Readable(ps, readable) == [e] + rest;
        assert acc + Readable(ps, readable) == acc + [e] + rest;
      } else if readable(ps[0].probe) {
        FillIsCap(acc, ps[1..], readable);
        CapFull(acc, rest);
        CapFull(acc, Readable(ps, readable));
      } else {
        FillIsCap(acc, ps[1..], readable);
        assert Readable(ps, readable) == rest;
      }
    } else {
      assert acc + Readable(ps, readable) == acc;
    }
  }

  /** A full list stays as it is whatever is appended. */
  lemma CapFull(acc: seq<Iwad>, more: seq<Iwad>)
    requires |acc| == MAX_IWADS
    ensures Cap(acc + more) == acc
  {
    assert (acc + more)[..MAX_IWADS] == acc;
  }

  /** Filling with two lists of probes in turn is filling with both. */
  lemma {:induction false} FillAppend(acc: seq<Iwad>, a: seq<Probe>, b: seq<Probe>, readable: seq<char> -> bool)
    ensures Fill(Fill(acc, a, readable), b, readable) == Fill(acc, a + b, readable)
    decreases |a|
  {
    if |a| > 0 {
      var acc' := if readable(a[0].probe) && |acc| < MAX_IWADS then acc + [a[0].entry] else acc;
      FillAppend(acc', a[1..], b, readable);
      assert (a + b)[0] == a[0];
      assert (a + b)[1..] == a[1..] + b;
    } else {
      assert a + b == b;
    }
  }

  /** ScanDirectoryForIWADs: try every searched name in one directory, keeping the list at 16 entries at most. */
  method ScanDirectory(iwads: seq<Iwad>, full: seq<char> -> seq<char>, readable: seq<char> -> bool, dir: seq<char>)
    returns (iwads': seq<Iwad>)
    ensures iwads' == Fill(iwads, DirProbes(full, dir), readable)
  {
    var ps := DirProbes(full, dir);
    iwads' := iwads;
    var i := 0;
    while i < |IWAD_NAMES|
      invariant 0 <= i <= |IWAD_NAMES|
      invariant Fill(iwads', ps[i..], readable) == Fill(iwads, ps, readable)
    {
      var path := ps[i].probe;
      assert ps[i..][1..] == ps[i + 1..];
      if readable(path) {
        if |iwads'| < MAX_IWADS {
          iwads' := iwads' + [ps[i].entry];
        }
      }
      i := i + 1;
    }
  }

  /** Where the scan for the cut stops: the length of the directory part of an executable path. */
  function DirEnd(path: seq<char>, k: nat): (e: nat)
    requires k <= |path|
    ensures e <= k
    ensures e == 0 || path[e - 1] == '\\' || path[e - 1] == '/'
    ensures forall j :: e <= j < k ==> path[j] != '\\' && path[j] != '/'
    decreases k
  {
    if k > 0 && path[k - 1] != '\\' && path[k - 1] != '/' then DirEnd(path, k - 1) else k
  }

  /** The directory of the executable: its path cut just after the last '\' or '/', or empty when it has none. */
  function ExeDir(path: seq<char>): (dir: seq<char>)
    ensures |dir| <= |path| && dir == path[..|dir|]
    ensures |dir| == 0 || dir[|dir| - 1] == '\\' || dir[|dir| - 1] == '/'
    ensures forall j :: |dir| <= j < |path| ==> path[j] != '\\' && path[j] != '/'
  {
    path[..DirEnd(path, |path|)]
  }

  /** The directories searched: the current one, C:\DOOM, then the executable's when its path has one. */
  function SearchDirs(exe: Option<seq<char>>): seq<seq<char>> {
    [".", "C:\\DOOM"] + (if exe.Some? && |ExeDir(exe.value)| > 0 then [ExeDir(exe.value)] else [])
  }

  /** Every probe of the search, directory by directory. */
  function AllProbes(full: seq<char> -> seq<char>, dirs: seq<seq<char>>): seq<Probe>
    decreases |dirs|
  {
    if |dirs| == 0 then [] else DirProbes(full, dirs[0]) + AllProbes(full, dirs[1..])
  }

  /** Searching one more directory adds its probes at the end. */
  lemma {:induction false} AllProbesSnoc(full: seq<char> -> seq<char>, dirs: seq<seq<char>>, d: seq<char>)
    ensures AllProbes(full, dirs + [d]) == AllProbes(full, dirs) + DirProbes(full, d)
    decreases |dirs|
  {
    if |dirs| == 0 {
      assert dirs + [d] == [d];
      assert [d][1..] == [];
    } else {
      assert (dirs + [d])[1..] == dirs[1..] + [d];
      assert (dirs + [d])[0] == dirs[0];
      AllProbesSnoc(full, dirs[1..], d);
    }
  }

  /**
   * ScanForIWADs with the selection default of Menu_RunWADSelection: the
   * IWADs are the first 16 readable probes of the searched directories,
   * each named by at most 31 characters of its file name; IWAD 0 is
   * selected when there is one, and none (-1) otherwise.
   */
  method ScanForIwads(full: seq<char> -> seq<char>, readable: seq<char> -> bool, exe: Option<seq<char>>)
    returns (iwads: seq<Iwad>, selected: int)
    ensures iwads == Cap(Readable(AllProbes(full, SearchDirs(exe)), readable))
    ensures |iwads| <= MAX_IWADS
    ensures forall k :: 0 <= k < |iwads| ==> |iwads[k].name| <= NAME_CHARS && |iwads[k].path| < MAX_PATH
    ensures selected == 0 <==> |iwads| > 0
    ensures selected == -1 <==> |iwads| == 0
  {
    var dirs := SearchDirs(exe);
    iwads := [];
    var d := 0;
    while d < |dirs|
      invariant 0 <= d <= |dirs|
      invariant iwads == Fill([], AllProbes(full, dirs[..d]), readable)
    {
      iwads := ScanDirectory(iwads, full, readable, dirs[d]);
      assert dirs[..d + 1] == dirs[..d] + [dirs[d]];
      AllProbesSnoc(full, dirs[..d], dirs[d]);
      FillAppend([], AllProbes(full, dirs[..d]), DirProbes(full, dirs[d]), readable);
      d := d + 1;
    }
    assert dirs[..|dirs|] == dirs;
    FillIsCap([], AllProbes(full, dirs), readable);
    CapEntries(Readable(AllProbes(full, dirs), readable), AllProbes(full, dirs), readable);
    selected := if |iwads| > 0 then 0 else -1;
  }

  /** Every entry a probe records has a short name and a path that fits MAX_PATH. */
  predicate Fits(e: Iwad) {
    |e.name| <= NAME_CHARS && |e.path| < MAX_PATH
  }

  /** The probes of a search all record entries that fit. */
  lemma {:induction false} ProbesFit(full: seq<char> -> seq<char>, dirs: seq<seq<char>>)
    ensures forall k :: 0 <= k < |AllProbes(full, dirs)| ==> Fits(AllProbes(full, dirs)[k].entry)
    decreases |dirs|
  {
    if |dirs| > 0 {
      ProbesFit(full, dirs[1..]);
    }
  }

  /** The readable entries of fitting probes fit. */
  lemma {:induction false} ReadableFit(ps: seq<Probe>, readable: seq<char> -> bool)
    requires forall k :: 0 <= k < |ps| ==> Fits(ps[k].entry)
    ensures forall k :: 0 <= k < |Readable(ps, readable)| ==> Fits(Readable(ps, readable)[k])
    decreases |ps|
  {
    if |ps| > 0 {
      ReadableFit(ps[1..], readable);
    }
  }

  /** The capped list of a search holds only fitting entries. */
  lemma CapEntries(s: seq<Iwad>, ps: seq<Probe>, readable: seq<char> -> bool)
    requires s == Readable(ps, readable)
    requires exists dirs, full :: ps == AllProbes(full, dirs)
    ensures forall k :: 0 <= k < |Cap(s)| ==> |Cap(s)[k].name| <= NAME_CHARS && |Cap(s)[k].path| < MAX_PATH
  {
    var dirs, full :| ps == AllProbes(full, dirs);
    ProbesFit(full, dirs);
    ReadableFit(ps, readable);
    assert forall k :: 0 <= k < |Cap(s)| ==> Cap(s)[k] == s[k];
  }

  // ---------------------------------------------------------------------
  // The menu

  /**
   * The window messages the menu procedure acts on: a new selection in the
   * IWAD list (the list's current selection, -1 for none); Add PWAD with
   * the file the open dialog returned, if any; Remove with the PWAD list's
   * current selection; Run Game; Quit; and the WM_CLOSE that Run Game and
   * Quit post, which destroys the window and ends the message loop.
   */
  datatype Command =
    | SelectIwad(cursel: int)
    | AddPwad(chosen: Option<seq<char>>)
    | RemovePwad(sel: int)
    | RunGame
    | QuitMenu
    | Close

  /** The menu's state: the selected IWAD, the PWAD paths, the result so far, and whether the window is gone. */
  datatype MenuState = MenuState(selected: int, pwads: seq<seq<char>>, result: int, done: bool)

  /** A list box reports an index of its own entries or -1. */
  predicate Listed(cmds: seq<Command>, count: int) {
    forall k :: 0 <= k < |cmds| ==> (cmds[k].SelectIwad? ==> -1 <= cmds[k].cursel < count)
  }

  /** The PWAD list after Remove with selection sel: entry sel is dropped when it exists, and the rest keep their order. */
  function RemoveAt(pwads: seq<seq<char>>, sel: int): (r: seq<seq<char>>)
    ensures 0 <= sel < |pwads| ==> |r| == |pwads| - 1
    ensures 0 <= sel < |pwads| ==> forall k :: 0 <= k < |r| ==> r[k] == (if k < sel then pwads[k] else pwads[k + 1])
    ensures !(0 <= sel < |pwads|) ==> r == pwads
  {
    if 0 <= sel < |pwads| then pwads[..sel] + pwads[sel + 1..] else pwads
  }

  /** The PWAD list after Add PWAD: the chosen file's absolute path is appended while fewer than 32 are held. */
  function AddTo(pwads: seq<seq<char>>, chosen: Option<seq<char>>, full: seq<char> -> seq<char>): (r: seq<seq<char>>)
    ensures chosen.Some? && |pwads| < MAX_PWADS ==> r == pwads + [Truncate(full(chosen.value), MAX_PATH - 1)]
    ensures chosen.None? || |pwads| >= MAX_PWADS ==> r == pwads
    ensures |pwads| <= MAX_PWADS ==> |r| <= MAX_PWADS
  {
    if chosen.Some? && |pwads| < MAX_PWADS then pwads + [Truncate(full(chosen.value), MAX_PATH - 1)] else pwads
  }

  /**
   * Remove with the selection on the last entry undoes Add PWAD: what was
   * appended is dropped again, and when nothing was appended (no file was
   * chosen, or 32 were held) the selection lies past the list and Remove
   * leaves it alone.
   */
  lemma AddThenRemove(pwads: seq<seq<char>>, chosen: Option<seq<char>>, full: seq<char> -> seq<char>)
    ensures RemoveAt(AddTo(pwads, chosen, full), |pwads|) == pwads
  {
    var r := AddTo(pwads, chosen, full);
    if |r| > |pwads| {
      assert r[..|pwads|] == pwads;
    }
  }

  /** One message of the menu window procedure. */
  function Dispatch(st: MenuState, c: Command, full: seq<char> -> seq<char>): MenuState {
    match c
    case SelectIwad(cursel) => st.(selected := cursel)
    case AddPwad(chosen) => st.(pwads := AddTo(st.pwads, chosen, full))
    case RemovePwad(sel) => st.(pwads := RemoveAt(st.pwads, sel))
    case RunGame => if st.selected >= 0 then st.(result := 1) else st
    case QuitMenu => st.(result := 0)
    case Close => st.(done := true)
  }

  /** The message loop: dispatch messages until the window is destroyed or no message is left. */
  function RunLoop(st: MenuState, cmds: seq<Command>, full: seq<char> -> seq<char>): MenuState
    decreases |cmds|
  {
    if st.done || |cmds| == 0 then st else RunLoop(Dispatch(st, cmds[0], full), cmds[1..], full)
  }

  /** What the menu keeps true: at most 32 PWADs, a selection from the list or none, and a result of 0 or 1. */
  predicate Sane(st: MenuState, count: int) {
    |st.pwads| <= MAX_PWADS && -1 <= st.selected < count && (st.result == 0 || st.result == 1)
  }

  /** Every message keeps the menu sane; in particular Add PWAD is ignored once 32 PWADs are held. */
  lemma {:induction false} RunLoopSane(st: MenuState, cmds: seq<Command>, full: seq<char> -> seq<char>, count: int)
    requires Sane(st, count) && Listed(cmds, count)
    ensures Sane(RunLoop(st, cmds, full), count)
    decreases |cmds|
  {
    if !st.done && |cmds| > 0 {
      assert Listed(cmds[1..], count) by {
        forall k | 0 <= k < |cmds[1..]|
          ensures cmds[1..][k].SelectIwad? ==> -1 <= cmds[1..][k].cursel < count
        {
          assert cmds[1..][k] == cmds[k + 1];
        }
      }
      RunLoopSane(Dispatch(st, cmds[0], full), cmds[1..], full, count);
    }
  }

  /** No selection message clears the selection. */
  predicate NeverCleared(cmds: seq<Command>) {
    forall k :: 0 <= k < |cmds| ==> cmds[k].SelectIwad? ==> cmds[k].cursel >= 0
  }

  /** While no message clears it, an IWAD stays selected, so a result of 1 always comes with one. */
  lemma {:induction false} SelectionStays(st: MenuState, cmds: seq<Command>, full: seq<char> -> seq<char>)
    requires st.selected >= 0 && NeverCleared(cmds)
    ensures RunLoop(st, cmds, full).selected >= 0
    decreases |cmds|
  {
    if !st.done && |cmds| > 0 {
      assert NeverCleared(cmds[1..]) by {
        forall k | 0 <= k < |cmds[1..]|
          ensures cmds[1..][k].SelectIwad? ==> cmds[1..][k].cursel >= 0
        {
          assert cmds[1..][k] == cmds[k + 1];
        }
      }
      SelectionStays(Dispatch(st, cmds[0], full), cmds[1..], full);
    }
  }

  /** The PWADs that can still be read, in list order. */
  function Accessible(pwads: seq<seq<char>>, readable: seq<char> -> bool): (r: seq<seq<char>>)
    ensures |r| <= |pwads|
    decreases |pwads|
  {
    if |pwads| == 0 then [] else (if readable(pwads[0]) then [pwads[0]] else []) + Accessible(pwads[1..], readable)
  }

  /** A path is kept exactly when it is in the list and readable. */
  lemma {:induction false} AccessibleKeeps(pwads: seq<seq<char>>, readable: seq<char> -> bool, p: seq<char>)
    ensures p in Accessible(pwads, readable) <==> p in pwads && readable(p)
    decreases |pwads|
  {
    if |pwads| > 0 {
      AccessibleKeeps(pwads[1..], readable, p);
      assert pwads == [pwads[0]] + pwads[1..];
    }
  }

  /** The menu's answer: 1 to run the game, 0 to quit, and the new file list when it was rebuilt. */
  datatype Choice = Choice(result: int, files: Option<seq<seq<char>>>)

  /**
   * The end of Menu_RunWADSelection. With a result of 1 and an IWAD
   * selected, the file list is cleared; if the IWAD cannot be read the
   * menu answers 0, and otherwise the files are the IWAD and then every
   * PWAD that can still be read. In every other case the list is left as
   * it was and the result is returned as it stands.
   */
  function Finish(iwads: seq<Iwad>, st: MenuState, readable: seq<char> -> bool): (c: Choice)
    requires -1 <= st.selected < |iwads|
  {
    if st.result != 0 && st.selected >= 0 then
      var iwad := iwads[st.selected].path;
      if !readable(iwad) then Choice(0, Some([]))
      else Choice(st.result, Some([iwad] + Accessible(st.pwads, readable)))
    else Choice(st.result, None)
  }

  /**
   * The answer to a menu that ended in state fin: Run Game with a readable
   * IWAD selected gives 1 and the files are that IWAD and then the
   * readable PWADs, in list order; Run Game with an unreadable IWAD gives
   * 0 and an empty file list; otherwise (Quit, or the selection cleared
   * after Run Game) the result stands and the files are not touched.
   */
  predicate MenuAnswer(iwads: seq<Iwad>, fin: MenuState, readable: seq<char> -> bool, c: Choice) {
    && -1 <= fin.selected < |iwads|
    && (fin.result == 0 || fin.result == 1)
    && (fin.result == 1 && fin.selected >= 0 && readable(iwads[fin.selected].path) ==>
          c == Choice(1, Some([iwads[fin.selected].path] + Accessible(fin.pwads, readable))))
    && (fin.result == 1 && fin.selected >= 0 && !readable(iwads[fin.selected].path) ==> c == Choice(0, Some([])))
    && (fin.result == 0 || fin.selected < 0 ==> c == Choice(fin.result, None))
    && (c.result == 1 <==> fin.result == 1 && (fin.selected < 0 || readable(iwads[fin.selected].path)))
  }

  /** Finishing a sane menu gives its answer. */
  lemma FinishAnswers(iwads: seq<Iwad>, st: MenuState, readable: seq<char> -> bool)
    requires Sane(st, |iwads|)
    ensures MenuAnswer(iwads, st, readable, Finish(iwads, st, readable))
  {
  }

  /** The IWADs the scan finds. */
  function Scanned(full: seq<char> -> seq<char>, readable: seq<char> -> bool, exe: Option<seq<char>>): seq<Iwad> {
    Cap(Readable(AllProbes(full, SearchDirs(exe)), readable))
  }

  /**
   * Menu_RunWADSelection: scan for IWADs, answer 0 at once when there is
   * none, otherwise run the menu over the messages and finish. The IWAD
   * list box only ever reports one of its own entries, or -1.
   */
  method RunWadSelection(full: seq<char> -> seq<char>, readable: seq<char> -> bool, exe: Option<seq<char>>, cmds: seq<Command>)
    returns (iwads: seq<Iwad>, c: Choice)
    requires Listed(cmds, |Scanned(full, readable, exe)|)
    ensures iwads == Scanned(full, readable, exe) && |iwads| <= MAX_IWADS
    ensures |iwads| == 0 ==> c == Choice(0, None)
    ensures c.result == 0 || c.result == 1
    ensures |iwads| > 0 ==> MenuAnswer(iwads, RunLoop(MenuState(0, [], 0, false), cmds, full), readable, c)
    ensures NeverCleared(cmds) && c.result == 1 ==> c.files.Some? && |c.files.value| >= 1
  {
    var selected;
    iwads, selected := ScanForIwads(full, readable, exe);
    if |iwads| == 0 {
      c := Choice(0, None);
      return;
    }
    var st0 := MenuState(selected, [], 0, false);
    RunLoopSane(st0, cmds, full, |iwads|);
    if NeverCleared(cmds) {
      SelectionStays(st0, cmds, full);
    }
    var st := RunLoop(st0, cmds, full);
    c := Finish(iwads, st, readable);
    FinishAnswers(iwads, st, readable);
  }
}

=== FILE: posts.dfy ===
/**
 * The column format of patches (r_defs.h's post_t/column_t) and
 * R_DrawColumnInCache of r_data.c, which clips the posts of one patch
 * column and copies them into a column of a composite texture.
 *
 * A column is a run of posts ended by a 0xff byte. A post is laid out as
 * topdelta, length, one unused byte, `length` bytes of texels and one more
 * unused byte; the next post starts length + 4 bytes further on.
 */
module Posts {
  import opened Wrappers
  import opened CTypes

  /** The byte that ends a column where a topdelta would be. */
  const END_OF_COLUMN: int := 0xff

  /** One run of opaque texels, starting `topdelta` rows below the patch top. */
  datatype Post = Post(topdelta: byte, data: seq<byte>)

  predicate ValidPost(p: Post) {
    p.topdelta != END_OF_COLUMN && |p.data| < 0x100
  }

  /** The bytes from offset o on hold a complete column. */
  predicate WellFormedColumn(b: seq<byte>, o: nat)
    decreases |b| - o
  {
    && o < |b|
    && (b[o] == END_OF_COLUMN
        || (o + 1 < |b| && o + 4 + b[o + 1] <= |b| && WellFormedColumn(b, o + 4 + b[o + 1])))
  }

  /** The post that starts at offset o. */
  function PostAt(b: seq<byte>, o: nat): (p: Post)
    requires WellFormedColumn(b, o) && b[o] != END_OF_COLUMN
    ensures ValidPost(p) && p.topdelta == b[o] && |p.data| == b[o + 1]
  {
    Post(b[o], b[o + 3..o + 3 + b[o + 1]])
  }

  /** The posts of the column at offset o. */
  function Decode(b: seq<byte>, o: nat): (ps: seq<Post>)
    requires WellFormedColumn(b, o)
    ensures forall i :: 0 <= i < |ps| ==> ValidPost(ps[i])
    decreases |b| - o
  {
    if b[o] == END_OF_COLUMN then []
    else [PostAt(b, o)] + Decode(b, o + 4 + b[o + 1])
  }

  /** The bytes of one post, with zero in both unused bytes. */
  function EncodePost(p: Post): (r: seq<byte>)
    requires ValidPost(p)
    ensures |r| == |p.data| + 4
  {
    [p.topdelta, |p.data|, 0] + p.data + [0]
  }

  /** The bytes of a column holding the posts ps. */
  function Encode(ps: seq<Post>): (r: seq<byte>)
    requires forall i :: 0 <= i < |ps| ==> ValidPost(ps[i])
    ensures |r| >= 1 && r[|r| - 1] == END_OF_COLUMN
  {
    if ps == [] then [END_OF_COLUMN] else EncodePost(ps[0]) + Encode(ps[1..])
  }

  /** The bytes of b from offset o on start with s. */
  predicate HoldsAt(b: seq<byte>, o: nat, s: seq<byte>) {
    o + |s| <= |b| && b[o..o + |s|] == s
  }

  /**
   * Decoding an encoded column, wherever it sits in a lump and whatever
   * follows it, gives back its posts.
   */
  lemma {:induction false} DecodeEncode(b: seq<byte>, o: nat, ps: seq<Post>)
    requires forall i :: 0 <= i < |ps| ==> ValidPost(ps[i])
    requires HoldsAt(b, o, Encode(ps))
    ensures WellFormedColumn(b, o)
    ensures Decode(b, o) == ps
    decreases |ps|
  {
    if ps == [] {
      DecodeEnd(b, o);
    } else {
      var p := ps[0];
      var e := EncodePost(p);
      assert Encode(ps) == e + Encode(ps[1..]);
      HoldsSplit(b, o, e, Encode(ps[1..]));
      var next := o + |e|;
      assert next == o + 4 + |p.data|;
      DecodeEncode(b, next, ps[1..]);
      PostBytes(b, o, p);
      DecodeCons(b, o, p, ps[1..]);
      assert [p] + ps[1..] == ps;
    }
  }

  /** A column that starts with its end byte holds no posts. */
  lemma DecodeEnd(b: seq<byte>, o: nat)
    requires HoldsAt(b, o, [END_OF_COLUMN])
    ensures WellFormedColumn(b, o) && Decode(b, o) == []
  {
    assert b[o] == b[o..o + 1][0];
  }

  /** Bytes that start with s + t start with s, and with t right after it. */
  lemma HoldsSplit(b: seq<byte>, o: nat, s: seq<byte>, t: seq<byte>)
    requires HoldsAt(b, o, s + t)
    ensures HoldsAt(b, o, s) && HoldsAt(b, o + |s|, t)
  {
    assert b[o..o + |s|] == (s + t)[..|s|];
    assert b[o + |s|..o + |s| + |t|] == (s + t)[|s|..];
  }

  /** The bytes of an encoded post, read back. */
  lemma PostBytes(b: seq<byte>, o: nat, p: Post)
    requires ValidPost(p) && HoldsAt(b, o, EncodePost(p))
    ensures b[o] == p.topdelta && b[o + 1] == |p.data|
    ensures b[o + 3..o + 3 + |p.data|] == p.data
  {
    var e := EncodePost(p);
    var n := |p.data|;
    assert b[o] == e[0] && b[o + 1] == e[1];
    forall k | 0 <= k < n
      ensures b[o + 3 + k] == p.data[k]
    {
      assert b[o + 3 + k] == b[o..o + |e|][3 + k];
    }
    assert b[o + 3..o + 3 + n] == p.data;
  }

  /** The bytes of post p at offset o, followed by a column holding tail, hold p and then tail. */
  lemma DecodeCons(b: seq<byte>, o: nat, p: Post, tail: seq<Post>)
    requires ValidPost(p) && o + 4 + |p.data| <= |b|
    requires b[o] == p.topdelta && b[o + 1] == |p.data| && b[o + 3..o + 3 + |p.data|] == p.data
    requires WellFormedColumn(b, o + 4 + |p.data|) && Decode(b, o + 4 + |p.data|) == tail
    ensures WellFormedColumn(b, o)
    ensures Decode(b, o) == [p] + tail
  {
    assert PostAt(b, o) == p;
  }

  /**
   * Where one post lands in a cache column of `height` rows placed
   * `originy` rows below the texture top: the first row written, the
   * number of rows (not positive when nothing is copied), and how many
   * texels at the top of the post fall above the cache.
   */
  datatype Clip = Clip(position: int, count: int, skip: int)

  /** The clipping of R_DrawColumnInCache: cut what lies above row 0, then what lies past `height`. */
  function ClipPost(topdelta: int, length: int, originy: int, height: int): (c: Clip)
    requires 0 <= length
    ensures c.count > 0 ==> 0 <= c.position && c.position + c.count <= height
    ensures c.count > 0 ==> 0 <= c.skip && c.skip + c.count <= length
    ensures c.count > 0 ==> c.position - c.skip == originy + topdelta
    ensures
      var lo := if originy + topdelta < 0 then 0 else originy + topdelta;
      var hi := if originy + topdelta + length > height then height else originy + topdelta + length;
      && (c.count > 0 <==> lo < hi)
      && (c.count > 0 ==> c.position == lo && c.position + c.count == hi)
  {
    var position := originy + topdelta;
    var count := if position < 0 then length + position else length;
    var skip := if position < 0 then -position else 0;
    var position' := if position < 0 then 0 else position;
    var count' := if position' + count > height then height - position' else count;
    Clip(position', count', skip)
  }

  /** `memcpy(cache + position, source, count)`: cache with rows position.. replaced by src. */
  function Copy(cache: seq<byte>, position: nat, src: seq<byte>): (r: seq<byte>)
    requires position + |src| <= |cache|
    ensures |r| == |cache|
    ensures forall y :: 0 <= y < |r| ==> r[y] == if position <= y < position + |src| then src[y - position] else cache[y]
  {
    seq(|cache|, y requires 0 <= y < |cache| => if position <= y < position + |src| then src[y - position] else cache[y])
  }

  /**
   * One pass of the loop as written: the clipped post at offset o copied
   * to `cache + position` from the first byte of its texels, even when its
   * top was clipped.
   */
  function DrawPostAsWritten(b: seq<byte>, o: nat, cache: seq<byte>, originy: int): (r: seq<byte>)
    requires WellFormedColumn(b, o) && b[o] != END_OF_COLUMN
    ensures |r| == |cache|
  {
    var c := ClipPost(b[o], b[o + 1], originy, |cache|);
    if c.count > 0 then Copy(cache, c.position, b[o + 3..o + 3 + c.count]) else cache
  }

  /** R_DrawColumnInCache as written: the walk over the posts of the column at offset o. */
  function DrawColumnInCacheAsWritten(b: seq<byte>, o: nat, cache: seq<byte>, originy: int): (r: seq<byte>)
    requires WellFormedColumn(b, o)
    ensures |r| == |cache|
    decreases |b| - o
  {
    if b[o] == END_OF_COLUMN then cache
    else DrawColumnInCacheAsWritten(b, o + 4 + b[o + 1], DrawPostAsWritten(b, o, cache, originy), originy)
  }

  /** One pass of the corrected loop: the clipped post at offset o copied into the cache. */
  function DrawPost(b: seq<byte>, o: nat, cache: seq<byte>, originy: int): (r: seq<byte>)
    requires WellFormedColumn(b, o) && b[o] != END_OF_COLUMN
    ensures |r| == |cache|
  {
    var c := ClipPost(b[o], b[o + 1], originy, |cache|);
    if c.count > 0 then Copy(cache, c.position, PostAt(b, o).data[c.skip..c.skip + c.count]) else cache
  }

  /**
   * R_DrawColumnInCache with the clipped top skipped in the source as well:
   * the texels copied to row `position` are the ones that belong there.
   */
  function DrawColumnInCache(b: seq<byte>, o: nat, cache: seq<byte>, originy: int): (r: seq<byte>)
    requires WellFormedColumn(b, o)
    ensures |r| == |cache|
    decreases |b| - o
  {
    if b[o] == END_OF_COLUMN then cache
    else DrawColumnInCache(b, o + 4 + b[o + 1], DrawPost(b, o, cache, originy), originy)
  }

  /** The texel of patch row `row` in the posts ps: the last post covering the row wins. */
  function Texel(ps: seq<Post>, row: int): (t: Option<byte>)
  {
    if ps == [] then None
    else
      match Texel(ps[1..], row)
      case Some(v) => Some(v)
      case None =>
        if ps[0].topdelta <= row < ps[0].topdelta + |ps[0].data| then Some(ps[0].data[row - ps[0].topdelta]) else None
  }

  /** The byte a row ends up with: the texel when there is one, else the byte that was there. */
  function Resolve(t: Option<byte>, under: byte): byte {
    match t
    case Some(v) => v
    case None => under
  }

  /** Row y of the cache after drawing: the patch texel at row y - originy when there is one, else the old byte. */
  function Painted(ps: seq<Post>, cache: seq<byte>, originy: int, y: nat): byte
    requires y < |cache|
  {
    Resolve(Texel(ps, y - originy), cache[y])
  }

  /** Of a post and the posts after it, the later ones win. */
  lemma TexelCons(ps: seq<Post>, row: int)
    requires ps != []
    ensures Texel(ps, row) == match Texel(ps[1..], row) case Some(v) => Some(v) case None => Texel([ps[0]], row)
  {
    assert [ps[0]][1..] == [];
  }

  /** Copying one clipped post puts each of its texels that falls in the cache on its own row. */
  lemma DrawPostPaints(b: seq<byte>, o: nat, cache: seq<byte>, originy: int)
    requires WellFormedColumn(b, o) && b[o] != END_OF_COLUMN
    ensures forall y :: 0 <= y < |cache| ==> DrawPost(b, o, cache, originy)[y] == Painted([PostAt(b, o)], cache, originy, y)
  {
    forall y | 0 <= y < |cache|
      ensures DrawPost(b, o, cache, originy)[y] == Painted([PostAt(b, o)], cache, originy, y)
    {
      DrawPostRow(b, o, cache, originy, y);
    }
  }

  /** One row of DrawPostPaints. */
  lemma DrawPostRow(b: seq<byte>, o: nat, cache: seq<byte>, originy: int, y: nat)
    requires WellFormedColumn(b, o) && b[o] != END_OF_COLUMN && y < |cache|
    ensures DrawPost(b, o, cache, originy)[y] == Painted([PostAt(b, o)], cache, originy, y)
  {
    DrawPostAt(b, o, cache, originy, y);
    PaintedClipped(PostAt(b, o), b[o], b[o + 1], cache, originy, y);
  }

  /** Painting one post whose header holds topdelta and length, read through the clipping of R_DrawColumnInCache. */
  lemma PaintedClipped(p: Post, topdelta: int, length: int, cache: seq<byte>, originy: int, y: nat)
    requires p.topdelta == topdelta && |p.data| == length && y < |cache|
    ensures Painted([p], cache, originy, y) == ClippedRow(ClipPost(topdelta, length, originy, |cache|), p.data, y, cache[y])
  {
    PaintedSingle(p, cache, originy, y);
    ClipWindow(topdelta, length, originy, |cache|, y);
  }

  /** Row y of a cache a clipped post was copied into: a texel of the post inside the clip, else the byte that was there. */
  function ClippedRow(c: Clip, data: seq<byte>, y: int, under: byte): byte
    requires c.count > 0 ==> 0 <= c.skip && c.skip + c.count <= |data|
  {
    if c.count > 0 && c.position <= y < c.position + c.count then data[c.skip + (y - c.position)] else under
  }

  /** Clipping keeps exactly the rows of the post that fall inside the cache, each with its own texel. */
  lemma ClipWindow(topdelta: int, length: int, originy: int, height: int, y: int)
    requires 0 <= length && 0 <= y < height
    ensures
      var c := ClipPost(topdelta, length, originy, height);
      && (c.count > 0 && c.position <= y < c.position + c.count <==> topdelta <= y - originy < topdelta + length)
      && (c.count > 0 && c.position <= y < c.position + c.count ==> c.skip + (y - c.position) == y - originy - topdelta)
  {
  }

  /** Row y after drawing one post: a texel of the clipped post, or the old byte. */
  lemma DrawPostAt(b: seq<byte>, o: nat, cache: seq<byte>, originy: int, y: nat)
    requires WellFormedColumn(b, o) && b[o] != END_OF_COLUMN && y < |cache|
    ensures DrawPost(b, o, cache, originy)[y] == ClippedRow(ClipPost(b[o], b[o + 1], originy, |cache|), PostAt(b, o).data, y, cache[y])
  {
    var c := ClipPost(b[o], b[o + 1], originy, |cache|);
    if c.count > 0 {
      var src := PostAt(b, o).data[c.skip..c.skip + c.count];
      assert DrawPost(b, o, cache, originy) == Copy(cache, c.position, src);
      CopyAt(cache, c.position, src, y);
    }
  }

  lemma CopyAt(cache: seq<byte>, position: nat, src: seq<byte>, y: nat)
    requires position + |src| <= |cache| && y < |cache|
    ensures Copy(cache, position, src)[y] == if position <= y < position + |src| then src[y - position] else cache[y]
  {
  }

  /** Painting a single post. */
  lemma PaintedSingle(p: Post, cache: seq<byte>, originy: int, y: nat)
    requires y < |cache|
    ensures Painted([p], cache, originy, y) ==
      if p.topdelta <= y - originy < p.topdelta + |p.data| then p.data[y - originy - p.topdelta] else cache[y]
  {
    var row := y - originy;
    assert [p][1..] == [];
    assert Texel([p][1..], row) == None;
    assert Texel([p], row) == if p.topdelta <= row < p.topdelta + |p.data| then Some(p.data[row - p.topdelta]) else None;
  }

  /** The corrected R_DrawColumnInCache puts every patch texel that falls in the cache on its own row, and nothing else. */
  lemma {:induction false} DrawColumnInCachePaints(b: seq<byte>, o: nat, cache: seq<byte>, originy: int)
    requires WellFormedColumn(b, o)
    ensures forall y :: 0 <= y < |cache| ==> DrawColumnInCache(b, o, cache, originy)[y] == Painted(Decode(b, o), cache, originy, y)
    decreases |b| - o
  {
    if b[o] != END_OF_COLUMN {
      var cache' := DrawPost(b, o, cache, originy);
      var ps := Decode(b, o);
      assert ps[0] == PostAt(b, o) && ps[1..] == Decode(b, o + 4 + b[o + 1]);
      DrawColumnInCachePaints(b, o + 4 + b[o + 1], cache', originy);
      DrawPostPaints(b, o, cache, originy);
      PaintedCons(ps, cache, cache', originy);
    }
  }

  /** Painting the first post and then the rest paints them all. */
  lemma PaintedCons(ps: seq<Post>, cache: seq<byte>, cache': seq<byte>, originy: int)
    requires ps != [] && |cache'| == |cache|
    requires forall y :: 0 <= y < |cache| ==> cache'[y] == Painted([ps[0]], cache, originy, y)
    ensures forall y :: 0 <= y < |cache| ==> Painted(ps[1..], cache', originy, y) == Painted(ps, cache, originy, y)
  {
    forall y | 0 <= y < |cache|
      ensures Painted(ps[1..], cache', originy, y) == Painted(ps, cache, originy, y)
    {
      TexelCons(ps, y - originy);
    }
  }

  /**
   * Where R_DrawColumnInCache as written puts the texels of post p: from
   * row max(0, originy + topdelta) down to the row the post ends on,
   * starting with its first texel, so a post clipped at the top is shifted
   * up by the clipped rows.
   */
  function PostRowAsWritten(p: Post, originy: int, y: int): Option<byte> {
    var position := originy + p.topdelta;
    var top := if position < 0 then 0 else position;
    if top <= y < position + |p.data| then Some(p.data[y - top]) else None
  }

  /** The byte the as-written copy leaves on cache row y from the posts ps: the last post reaching the row wins. */
  function TexelAsWritten(ps: seq<Post>, originy: int, y: int): (t: Option<byte>)
  {
    if ps == [] then None
    else
      match TexelAsWritten(ps[1..], originy, y)
      case Some(v) => Some(v)
      case None => PostRowAsWritten(ps[0], originy, y)
  }

  /** Row y of one post copied as written: a texel of the post, or the old byte. */
  lemma DrawPostAsWrittenRow(b: seq<byte>, o: nat, cache: seq<byte>, originy: int, y: nat)
    requires WellFormedColumn(b, o) && b[o] != END_OF_COLUMN && y < |cache|
    ensures DrawPostAsWritten(b, o, cache, originy)[y] == Resolve(PostRowAsWritten(PostAt(b, o), originy, y), cache[y])
  {
    var c := ClipPost(b[o], b[o + 1], originy, |cache|);
    var p := PostAt(b, o);
    if c.count > 0 {
      var src := b[o + 3..o + 3 + c.count];
      CopyAt(cache, c.position, src, y);
      if c.position <= y < c.position + c.count {
        assert src[y - c.position] == p.data[y - c.position];
      }
    }
  }

  /**
   * R_DrawColumnInCache as written leaves every cache row with the byte
   * the last post reaching it puts there, shifted posts included, and
   * every other row alone.
   */
  lemma {:induction false} DrawColumnInCacheAsWrittenPaints(b: seq<byte>, o: nat, cache: seq<byte>, originy: int)
    requires WellFormedColumn(b, o)
    ensures forall y :: 0 <= y < |cache| ==>
      DrawColumnInCacheAsWritten(b, o, cache, originy)[y] == Resolve(TexelAsWritten(Decode(b, o), originy, y), cache[y])
    decreases |b| - o
  {
    if b[o] != END_OF_COLUMN {
      var cache' := DrawPostAsWritten(b, o, cache, originy);
      var ps := Decode(b, o);
      assert ps[0] == PostAt(b, o) && ps[1..] == Decode(b, o + 4 + b[o + 1]);
      DrawColumnInCacheAsWrittenPaints(b, o + 4 + b[o + 1], cache', originy);
      forall y | 0 <= y < |cache|
        ensures DrawColumnInCacheAsWritten(b, o, cache, originy)[y] == Resolve(TexelAsWritten(ps, originy, y), cache[y])
      {
        DrawPostAsWrittenRow(b, o, cache, originy, y);
      }
    }
  }

  /** Where no post reaches above the cache the as-written placement is the intended one. */
  lemma {:induction false} TexelUnclipped(ps: seq<Post>, originy: int, y: int)
    requires originy >= 0
    ensures TexelAsWritten(ps, originy, y) == Texel(ps, y - originy)
  {
    if ps != [] {
      TexelUnclipped(ps[1..], originy, y);
    }
  }

  /**
   * A patch placed at or below the top of the texture (originy >= 0) is
   * copied the same by R_DrawColumnInCache as written and corrected: the
   * top clip that goes wrong never happens.
   */
  lemma DrawColumnInCacheUnclipped(b: seq<byte>, o: nat, cache: seq<byte>, originy: int)
    requires WellFormedColumn(b, o) && originy >= 0
    ensures DrawColumnInCacheAsWritten(b, o, cache, originy) == DrawColumnInCache(b, o, cache, originy)
  {
    DrawColumnInCacheAsWrittenPaints(b, o, cache, originy);
    DrawColumnInCachePaints(b, o, cache, originy);
    forall y | 0 <= y < |cache|
      ensures DrawColumnInCacheAsWritten(b, o, cache, originy)[y] == DrawColumnInCache(b, o, cache, originy)[y]
    {
      TexelUnclipped(Decode(b, o), originy, y);
    }
  }

  /**
   * R_DrawColumnInCache as written misplaces a post whose top is clipped:
   * a two-texel post one row above the cache puts its first texel on row 0,
   * where its second texel belongs.
   */
  lemma DrawColumnInCacheTopClipMisplaces()
    ensures
      var b: seq<byte> := [0, 2, 0, 1, 2, 0, END_OF_COLUMN];
      && WellFormedColumn(b, 0)
      && DrawColumnInCacheAsWritten(b, 0, [0, 0], -1) == [1, 0]
      && Painted(Decode(b, 0), [0, 0], -1, 0) == 2
      && DrawColumnInCache(b, 0, [0, 0], -1) == [2, 0]
  {
    var b: seq<byte> := [0, 2, 0, 1, 2, 0, END_OF_COLUMN];
    assert WellFormedColumn(b, 6);
    assert Decode(b, 0) == [Post(0, [1, 2])] by {
      assert b[3..5] == [1, 2];
    }
    var ps := [Post(0, [1, 2])];
    assert ps[1..] == [];
    assert Texel(ps, 1) == Some(2);
    assert [1 as byte] + [0] == [1, 0];
    assert Copy([0, 0], 0, b[3..4]) == [1, 0];
    assert PostAt(b, 0).data[1..2] == [2];
    assert Copy([0, 0], 0, [2]) == [2, 0];
  }
}

=== FILE: sound.dfy ===
/**
 * The sound side of i_sound_win.c: converting a DOOM sound lump to 16-bit
 * PCM, the per-effect cache, and the eight playback channels handed out
 * by I_StartSound and released by I_StopSound and I_SoundIsPlaying.
 *
 * The audio engine is not modelled: a channel only records whether it
 * holds a voice, which effect it plays and whether it is in use. Whether
 * the engine accepts a voice or a buffer, and whether a voice still has
 * buffers queued, are parameters.
 */
module Sound {
  import opened Wrappers
  import opened CTypes

  const NUM_CHANNELS: int := 8
  /** The lump header: format, sample rate and the 32-bit sample count. */
  const HEADER: int := 8

  /** The unsigned 32-bit little-endian value of four bytes. */
  function LE32(b0: byte, b1: byte, b2: byte, b3: byte): (v: int)
    ensures 0 <= v < TWO_32
  {
    b0 + 0x100 * b1 + 0x1_0000 * b2 + 0x100_0000 * b3
  }

  /** `(int)hdr->num_samples`: the header's unsigned count read as a signed int. */
  function HeaderCount(lump: seq<byte>): (n: int)
    requires |lump| >= HEADER
    ensures IsInt32(n)
  {
    Wrap32(LE32(lump[4], lump[5], lump[6], lump[7]))
  }

  /**
   * The number of samples ConvertDoomSound takes: the header's count if
   * it is positive and the lump holds that many, and otherwise all the
   * bytes after the header.
   */
  function SampleCount(lump: seq<byte>): (n: int)
    requires |lump| >= HEADER
    ensures 0 <= n <= |lump| - HEADER
    ensures 0 < HeaderCount(lump) <= |lump| - HEADER ==> n == HeaderCount(lump)
    ensures !(0 < HeaderCount(lump) <= |lump| - HEADER) ==> n == |lump| - HEADER
  {
    var n := HeaderCount(lump);
    if n <= 0 || n > |lump| - HEADER then |lump| - HEADER else n
  }

  /** One unsigned 8-bit sample widened to signed 16 bits. */
  function Widen(b: byte): int {
    (b - 128) * 256
  }

  /** pcm is the conversion of the lump: one widened sample per sample byte after the header. */
  predicate Conversion(lump: seq<byte>, pcm: seq<int>)
    requires |lump| >= HEADER
  {
    && |pcm| == SampleCount(lump) > 0
    && forall i :: 0 <= i < |pcm| ==> pcm[i] == Widen(lump[HEADER + i])
  }

  /**
   * ConvertDoomSound: None (a NULL result with 0 samples) for a lump
   * shorter than the header or with no samples after it, otherwise each
   * sample byte b becomes (b - 128) * 256.
   */
  method ConvertDoomSound(lump: seq<byte>) returns (pcm: Option<seq<int>>)
    ensures |lump| < HEADER ==> pcm == None
    ensures pcm.Some? <==> |lump| > HEADER
    ensures pcm.Some? ==> |pcm.value| == SampleCount(lump) > 0
    ensures pcm.Some? ==> forall i :: 0 <= i < |pcm.value| ==>
      pcm.value[i] == Widen(lump[HEADER + i]) && -0x8000 <= pcm.value[i] <= 0x7f00
  {
    if |lump| < HEADER {
      return None;
    }
    var n := SampleCount(lump);
    if n <= 0 {
      return None;
    }
    var dst: seq<int> := [];
    var i := 0;
    while i < n
      invariant 0 <= i <= n && |dst| == i
      invariant forall j :: 0 <= j < i ==> dst[j] == Widen(lump[HEADER + j]) && -0x8000 <= dst[j] <= 0x7f00
    {
      dst := dst + [(lump[HEADER + i] as int - 128) * 256];
      i := i + 1;
    }
    return Some(dst);
  }

  /** The widening loses nothing: every sample gives back the byte it came from. */
  lemma WidenRoundTrip(b: byte)
    ensures Widen(b) % 256 == 0 && Widen(b) / 256 + 128 == b
  {
    DivModUnique(Widen(b), 256, b - 128, 0);
  }

  /** A playback channel: whether it holds a voice, the effect it plays, and whether it is in use. */
  datatype Channel = Channel(voice: bool, sfx: int, inUse: bool)

  const IDLE: Channel := Channel(false, 0, false)

  /** A channel after its voice is destroyed: no voice, not in use, and the effect id it last played kept. */
  function Released(c: Channel): (c': Channel)
    ensures !c'.voice && !c'.inUse && c'.sfx == c.sfx
  {
    c.(voice := false, inUse := false)
  }

  /**
   * The sound module's state: whether initialisation succeeded, the
   * converted samples of each effect id (None while not cached) with its
   * size in bytes, and the channels.
   */
  datatype Mixer = Mixer(ok: bool, cache: seq<Option<seq<int>>>, size: seq<int>, channels: seq<Channel>)

  /** The shape every operation keeps: one size per cache entry, eight channels, and a voice exactly on the channels in use. */
  predicate Valid(m: Mixer) {
    && |m.cache| == |m.size|
    && |m.channels| == NUM_CHANNELS
    && (forall h :: 0 <= h < NUM_CHANNELS ==> (m.channels[h].voice <==> m.channels[h].inUse))
    && CacheValid(m)
  }

  /** Every cached effect has samples, and its size is two bytes per sample. */
  predicate CacheValid(m: Mixer)
    requires |m.cache| == |m.size|
  {
    forall id :: 0 <= id < |m.cache| && m.cache[id].Some? ==>
      |m.cache[id].value| > 0 && m.size[id] == 2 * |m.cache[id].value|
  }

  /**
   * The state I_InitSound starts from (its memsets): nothing cached, all
   * sizes 0, every channel idle; ok says whether the engine came up.
   */
  function Cleared(numsfx: nat, ok: bool): (m: Mixer)
    ensures Valid(m) && |m.cache| == numsfx && m.ok == ok
    ensures forall id :: 0 <= id < numsfx ==> m.cache[id].None?
    ensures forall h :: 0 <= h < NUM_CHANNELS ==> !m.channels[h].inUse
  {
    Mixer(ok, seq(numsfx, _ => None), seq(numsfx, _ => 0), seq(NUM_CHANNELS, _ => IDLE))
  }

  /** An effect id the cache has a slot for: 1 <= id < NUMSFX. */
  predicate SfxId(m: Mixer, id: int) {
    1 <= id < |m.cache|
  }

  /**
   * CacheSfx: ids outside [1, NUMSFX) and effects already cached are left
   * alone, as is an effect whose "ds" lump is missing (lump is None) or
   * converts to nothing. Otherwise the samples are cached and the size
   * recorded as two bytes per sample.
   */
  method CacheSfx(m: Mixer, id: int, lump: Option<seq<byte>>) returns (m': Mixer)
    requires |m.cache| == |m.size| && CacheValid(m)
    ensures |m'.cache| == |m'.size| == |m.cache| && m'.ok == m.ok && m'.channels == m.channels
    ensures CacheValid(m')
    ensures !SfxId(m, id) || m.cache[id].Some? || lump.None? ==> m' == m
    ensures forall j :: 0 <= j < |m.cache| && j != id ==> m'.cache[j] == m.cache[j] && m'.size[j] == m.size[j]
    ensures SfxId(m, id) && m.cache[id].None? && lump.Some? ==>
      (m'.cache[id].Some? <==> |lump.value| > HEADER)
    ensures SfxId(m, id) && m.cache[id].None? && m'.cache[id].None? ==> m' == m
    ensures SfxId(m, id) && m.cache[id].None? && m'.cache[id].Some? ==>
      && lump.Some? && |lump.value| > HEADER && Conversion(lump.value, m'.cache[id].value)
      && m'.size[id] == 2 * |m'.cache[id].value|
  {
    if id < 1 || id >= |m.cache| {
      return m;
    }
    if m.cache[id].Some? {
      return m;
    }
    if lump.None? {
      return m;
    }
    var pcm := ConvertDoomSound(lump.value);
    if pcm.None? {
      return m;
    }
    m' := m.(cache := m.cache[id := pcm], size := m.size[id := |pcm.value| * 2]);
  }

  /** The lowest channel not in use, or channel 0 when all are busy. */
  function FreeChannel(chs: seq<Channel>): (h: int)
    requires |chs| == NUM_CHANNELS
    ensures 0 <= h < NUM_CHANNELS
    ensures forall j :: 0 <= j < h ==> chs[j].inUse
    ensures !chs[h].inUse || (h == 0 && forall j :: 0 <= j < NUM_CHANNELS ==> chs[j].inUse)
  {
    var best := FreeFrom(chs, 0);
    if best < 0 then 0 else best
  }

  /** The search loop of I_StartSound from channel i on: the first channel not in use, or -1. */
  function FreeFrom(chs: seq<Channel>, i: nat): (h: int)
    requires |chs| == NUM_CHANNELS && i <= NUM_CHANNELS
    ensures h == -1 <==> forall j :: i <= j < NUM_CHANNELS ==> chs[j].inUse
    ensures h != -1 ==> i <= h < NUM_CHANNELS && !chs[h].inUse && forall j :: i <= j < h ==> chs[j].inUse
    decreases NUM_CHANNELS - i
  {
    if i == NUM_CHANNELS then -1
    else if !chs[i].inUse then i
    else FreeFrom(chs, i + 1)
  }

  /** What the engine does when I_StartSound asks it for a voice and hands it the buffer. */
  datatype Engine = Engine(voiceCreated: bool, bufferAccepted: bool)

  /** The result of I_StartSound: the new state and the channel handle, or -1. */
  datatype Started = Started(mixer: Mixer, handle: int)

  /**
   * I_StartSound: -1 before a successful I_InitSound, for an id outside
   * [1, NUMSFX), or when the effect cannot be cached. Otherwise the
   * lowest free channel (channel 0 when all are busy) is stopped and
   * released, and the effect is started on it; if the engine refuses the
   * voice or the buffer the call returns -1 with that channel left
   * released. A handle it returns reaches its channel.
   */
  method StartSound(m: Mixer, id: int, lump: Option<seq<byte>>, e: Engine) returns (r: Started)
    requires Valid(m)
    ensures Valid(r.mixer)
    ensures r.handle == -1 || 0 <= r.handle < NUM_CHANNELS
    ensures !m.ok || !SfxId(m, id) ==> r == Started(m, -1)
    ensures r.mixer.ok == m.ok && |r.mixer.cache| == |m.cache|
    ensures forall j :: 0 <= j < |m.cache| && (j != id || m.cache[j].Some?) ==> r.mixer.cache[j] == m.cache[j]
    ensures r.handle != -1 ==>
      && m.ok && SfxId(m, id) && r.mixer.cache[id].Some? && e.voiceCreated && e.bufferAccepted
      && r.handle == FreeChannel(m.channels)
      && r.mixer.channels == m.channels[r.handle := Channel(true, id, true)]
    ensures m.ok && SfxId(m, id) && r.mixer.cache[id].Some? && e.voiceCreated && e.bufferAccepted ==> r.handle != -1
    ensures m.ok && SfxId(m, id) && r.mixer.cache[id].Some? && !(e.voiceCreated && e.bufferAccepted) ==>
      r.handle == -1 && r.mixer.channels == m.channels[FreeChannel(m.channels) := Released(m.channels[FreeChannel(m.channels)])]
    ensures r.handle != -1 ==> UpdateSoundParams(r.mixer, r.handle) == Some(r.handle)
    ensures forall j :: 0 <= j < |m.size| && (j != id || m.cache[j].Some?) ==> r.mixer.size[j] == m.size[j]
    ensures m.ok && SfxId(m, id) && m.cache[id].None? ==>
      (r.mixer.cache[id].Some? <==> lump.Some? && |lump.value| > HEADER)
    ensures m.ok && SfxId(m, id) && m.cache[id].None? && r.mixer.cache[id].Some? ==>
      && Conversion(lump.value, r.mixer.cache[id].value)
      && r.mixer.size[id] == 2 * |r.mixer.cache[id].value|
    ensures SfxId(m, id) && r.mixer.cache[id].None? ==> r.mixer.channels == m.channels
  {
    if !m.ok {
      return Started(m, -1);
    }
    if id < 1 || id >= |m.cache| {
      return Started(m, -1);
    }
    var cached := CacheSfx(m, id, lump);
    if cached.cache[id].None? {
      return Started(cached, -1);
    }
    var best := FreeChannel(m.channels);
    var stopped := cached.(channels := cached.channels[best := Released(cached.channels[best])]);
    if !e.voiceCreated || !e.bufferAccepted {
      return Started(stopped, -1);
    }
    return Started(stopped.(channels := stopped.channels[best := Channel(true, id, true)]), best);
  }

  /** A channel handle the channel calls accept: 0 <= handle < NUM_CHANNELS. */
  predicate Handle(h: int) {
    0 <= h < NUM_CHANNELS
  }

  /**
   * I_StopSound: handles outside [0, 8) and channels without a voice are
   * ignored; otherwise the voice is destroyed and the channel released.
   */
  function StopSound(m: Mixer, h: int): (m': Mixer)
    requires Valid(m)
    ensures Valid(m') && m'.ok == m.ok && m'.cache == m.cache && m'.size == m.size
    ensures !Handle(h) || !m.channels[h].voice ==> m' == m
    ensures Handle(h) ==> !m'.channels[h].inUse && !m'.channels[h].voice
    ensures forall j :: 0 <= j < NUM_CHANNELS && j != h ==> m'.channels[j] == m.channels[j]
  {
    if h < 0 || h >= NUM_CHANNELS then m
    else if !m.channels[h].voice then m
    else m.(channels := m.channels[h := Released(m.channels[h])])
  }

  /** The result of I_SoundIsPlaying: the new state and 1 or 0. */
  datatype Playing = Playing(mixer: Mixer, playing: int)

  /**
   * I_SoundIsPlaying: 0 for handles outside [0, 8) and channels without a
   * voice. A voice with no buffers queued (queued == 0) has finished: it
   * is destroyed, the channel released, and the answer is 0. Otherwise 1.
   */
  function SoundIsPlaying(m: Mixer, h: int, queued: nat): (r: Playing)
    requires Valid(m)
    ensures Valid(r.mixer)
    ensures r.playing == 1 <==> Handle(h) && m.channels[h].voice && queued > 0
    ensures r.playing == 0 || r.playing == 1
    ensures r.playing == 1 || !Handle(h) || !m.channels[h].voice ==> r.mixer == m
    ensures r.playing == 0 && Handle(h) && m.channels[h].voice ==> r.mixer == StopSound(m, h)
  {
    if h < 0 || h >= NUM_CHANNELS then Playing(m, 0)
    else if !m.channels[h].voice then Playing(m, 0)
    else if queued == 0 then
      Playing(m.(channels := m.channels[h := Released(m.channels[h])]), 0)
    else Playing(m, 1)
  }

  /**
   * I_UpdateSoundParams: the channel whose volume and pan are set, or
   * None when the handle is outside [0, 8) or the channel has no voice.
   */
  function UpdateSoundParams(m: Mixer, h: int): (target: Option<int>)
    requires Valid(m)
    ensures target.Some? <==> Handle(h) && m.channels[h].voice
    ensures target.Some? ==> target.value == h
  {
    if h < 0 || h >= NUM_CHANNELS then None
    else if !m.channels[h].voice then None
    else Some(h)
  }

  /**
   * A handle that reaches its channel keeps reaching it while other
   * channels are stopped, and stops reaching it once its own channel is
   * stopped or found finished by I_SoundIsPlaying.
   */
  lemma HandleReachesUntilStopped(m: Mixer, h: int, other: int, queued: nat)
    requires Valid(m) && UpdateSoundParams(m, h).Some?
    ensures UpdateSoundParams(StopSound(m, other), h) == (if other == h then None else Some(h))
    ensures UpdateSoundParams(SoundIsPlaying(m, other, queued).mixer, h) == (if other == h && queued == 0 then None else Some(h))
  {
  }

  /** Stopping a channel that is playing makes it the first choice of the next I_StartSound, unless a lower one is free. */
  lemma StopThenStartPicks(m: Mixer, h: int)
    requires Valid(m) && Handle(h) && m.channels[h].voice
    ensures FreeChannel(StopSound(m, h).channels) <= h
    ensures (forall j :: 0 <= j < h ==> m.channels[j].inUse) ==> FreeChannel(StopSound(m, h).channels) == h
  {
    var chs := StopSound(m, h).channels;
    assert !chs[h].inUse;
  }
}

=== FILE: texture_column.dfy ===
/**
 * R_GetColumn of r_data.c: where the renderer reads column `col` of
 * texture `tex`. Column numbers wrap with the texture's width mask; a
 * column with a lump number above zero is read out of that patch lump,
 * any other one out of the texture's composite block, which is built on
 * first use and may since have been purged.
 *
 * Pointers are integers: the composite pointer of texture tex is the
 * owner slot CompositeSlot(tex) of the zone (0 when the block is absent),
 * and the address W_CacheLumpNum hands back for the column's lump is a
 * parameter (0 when the fetch fails).
 */
module TextureColumn {
  import opened Wrappers
  import opened CTypes
  import opened TextureLookup
  import opened TextureComposite
  import opened Zone
  import opened ZoneMalloc

  /** The static eight-byte column handed out when nothing better exists: an empty column. */
  const DUMMY_COLUMN: seq<byte> := [0xff, 0, 0, 0, 0, 0, 0, 0]

  /** What R_GetColumn returns: the dummy column, or the address base + ofs. */
  datatype ColumnRef = Dummy | Column(base: int, ofs: int)

  /** The zone after the call (a composite may have been built) and the column. */
  datatype Got = Got(zone: Memzone, column: ColumnRef)

  /**
   * The per-texture tables R_InitTextures and R_GenerateLookup leave:
   * texturewidthmask, texturecolumnlump and texturecolumnofs.
   */
  datatype TexTables = TexTables(mask: seq<int>, lump: seq<seq<int>>, ofs: seq<seq<int>>)

  /** Every texture has a power-of-two mask below its width and one lump and offset per column. */
  predicate ValidTables(tt: TexTables) {
    && |tt.lump| == |tt.mask| && |tt.ofs| == |tt.mask|
    && forall tex :: 0 <= tex < |tt.mask| ==>
         IsPow2(tt.mask[tex] + 1) && |tt.lump[tex]| == |tt.ofs[tex]| && tt.mask[tex] < |tt.lump[tex]|
  }

  /** The slot addresses &texturecomposite[tex], all above the owner threshold. */
  const COMPOSITE_SLOTS: nat := 0x1000

  function CompositeSlot(tex: nat): (s: nat)
    ensures s > OWNER_THRESHOLD
  {
    COMPOSITE_SLOTS + tex
  }

  /** texturecomposite[tex]: what the zone last wrote into the texture's slot, or 0. */
  function CompositePtr(z: Memzone, tex: nat): int {
    if CompositeSlot(tex) in z.slots then z.slots[CompositeSlot(tex)] else 0
  }

  /** What R_GenerateComposite needs for texture tex: its definition, patch lumps, lookup and the fresh block's bytes. */
  datatype Build = Build(t: Texture, lumps: seq<PatchLump>, lk: Lookup, junk: seq<byte>)

  /** The build inputs fit the texture's tables and meet R_GenerateComposite's needs. */
  ghost predicate Buildable(z: Memzone, tt: TexTables, tex: nat, b: Build)
    requires ValidTables(tt) && tex < |tt.mask|
  {
    && Valid(z)
    && ValidTexture(b.t) && ValidLumps(b.t, b.lumps) && AllColumnsWellFormed(b.lumps)
    && 0 <= b.lk.size <= COMPOSITE_LIMIT && |b.junk| == b.lk.size
    && Slices(b.t, b.lumps, b.lk, b.lk.size)
    && b.lk.lump == tt.lump[tex] && b.lk.ofs == tt.ofs[tex]
  }

  /** The column `col & texturewidthmask[tex]` R_GetColumn reads. */
  function Masked(tt: TexTables, tex: nat, col: int): (c: nat)
    requires ValidTables(tt) && tex < |tt.mask|
    ensures c < |tt.lump[tex]| && c < |tt.ofs[tex]|
  {
    MaskColumn(col, tt.mask[tex])
  }

  /** Column col of texture tex is read from the composite block. */
  predicate FromComposite(tt: TexTables, tex: nat, col: int)
    requires ValidTables(tt) && tex < |tt.mask|
  {
    tt.lump[tex][Masked(tt, tex, col)] <= 0
  }

  /**
   * R_GetColumn(tex, col). The composite is built only when the column is
   * read from it and the slot is empty; a failed build ends in I_Error
   * inside Z_Malloc.
   */
  function GetColumn(z: Memzone, tt: TexTables, tex: int, col: int, lumpAddr: int, b: Build): (r: Outcome<Got>)
    requires ValidTables(tt)
    requires 0 <= tex < |tt.mask| && FromComposite(tt, tex, col) && CompositePtr(z, tex) == 0 ==> Buildable(z, tt, tex, b)
    ensures !(0 <= tex < |tt.mask|) ==> r == Ok(Got(z, Dummy))
    ensures 0 <= tex < |tt.mask| && !FromComposite(tt, tex, col) ==>
      && r.Ok? && r.value.zone == z
      && (r.value.column == Dummy <==> lumpAddr == 0)
      && (lumpAddr != 0 ==> r.value.column == Column(lumpAddr, tt.ofs[tex][Masked(tt, tex, col)]))
    ensures 0 <= tex < |tt.mask| && FromComposite(tt, tex, col) && CompositePtr(z, tex) != 0 ==>
      r == Ok(Got(z, Column(CompositePtr(z, tex), tt.ofs[tex][Masked(tt, tex, col)])))
    ensures 0 <= tex < |tt.mask| && FromComposite(tt, tex, col) && CompositePtr(z, tex) == 0 ==>
      && (r.Fatal? <==> GenerateComposite(z, b.t, b.lumps, b.lk, CompositeSlot(tex), b.junk).Fatal?)
      && (r.Ok? ==>
            && r.value.zone == GenerateComposite(z, b.t, b.lumps, b.lk, CompositeSlot(tex), b.junk).value.zone
            && r.value.column == Column(CompositePtr(r.value.zone, tex), tt.ofs[tex][Masked(tt, tex, col)])
            && CompositePtr(r.value.zone, tex) != 0)
  {
    if tex < 0 || tex >= |tt.mask| then Ok(Got(z, Dummy))
    else
      var c := Masked(tt, tex, col);
      if tt.lump[tex][c] > 0 then
        Ok(Got(z, if lumpAddr == 0 then Dummy else Column(lumpAddr, tt.ofs[tex][c])))
      else if CompositePtr(z, tex) != 0 then
        Ok(Got(z, Column(CompositePtr(z, tex), tt.ofs[tex][c])))
      else
        match GenerateComposite(z, b.t, b.lumps, b.lk, CompositeSlot(tex), b.junk)
        case Fatal(msg) => Fatal(msg)
        case Ok(built) =>
          if CompositePtr(built.zone, tex) == 0 then Ok(Got(built.zone, Dummy))
          else Ok(Got(built.zone, Column(CompositePtr(built.zone, tex), tt.ofs[tex][c])))
  }

  /** Texture columns repeat every mask + 1 columns: R_GetColumn tiles the texture horizontally. */
  lemma GetColumnTiles(z: Memzone, tt: TexTables, tex: int, col: int, k: int, lumpAddr: int, b: Build)
    requires ValidTables(tt) && 0 <= tex < |tt.mask|
    requires FromComposite(tt, tex, col) && CompositePtr(z, tex) == 0 ==> Buildable(z, tt, tex, b)
    ensures Masked(tt, tex, col + k * (tt.mask[tex] + 1)) == Masked(tt, tex, col)
    ensures GetColumn(z, tt, tex, col + k * (tt.mask[tex] + 1), lumpAddr, b) == GetColumn(z, tt, tex, col, lumpAddr, b)
  {
    MaskPeriodic(col, tt.mask[tex], k);
  }

  /**
   * Once a read has built the composite, every later read of a column of
   * the same texture that goes to the composite finds it in the slot: no
   * second build, the zone unchanged, the same block.
   */
  lemma GetColumnCached(z: Memzone, tt: TexTables, tex: int, col: int, col': int, lumpAddr: int, b: Build, b': Build)
    requires ValidTables(tt) && 0 <= tex < |tt.mask|
    requires FromComposite(tt, tex, col) && CompositePtr(z, tex) == 0 && Buildable(z, tt, tex, b)
    requires GetColumn(z, tt, tex, col, lumpAddr, b).Ok?
    requires FromComposite(tt, tex, col')
    ensures
      GetColumn(GetColumn(z, tt, tex, col, lumpAddr, b).value.zone, tt, tex, col', lumpAddr, b')
      == Ok(Got(GetColumn(z, tt, tex, col, lumpAddr, b).value.zone,
                Column(GetColumn(z, tt, tex, col, lumpAddr, b).value.column.base, tt.ofs[tex][Masked(tt, tex, col')])))
  {
  }
}


=== FILE: texture_composite.dfy ===
/**
 * R_GenerateComposite of r_data.c: the cached block of a texture whose
 * columns the lookup marked as composited (lump -1). The block comes from
 * the zone as PU_STATIC, owned by the texture's composite slot; every
 * patch draws its posts into the slices of the composited columns under
 * it, and the block is then retagged PU_CACHE so the zone may purge it.
 *
 * The block is never cleared, so what Z_Malloc left in it is a parameter
 * (`junk`); a row no patch paints keeps that byte.
 */
module TextureComposite {
  import opened Wrappers
  import opened CTypes
  import opened Posts
  import opened TextureLookup
  import opened Zone
  import opened ZoneMalloc
  import opened ZoneOps

  /** Every column of the patch lump starts at an offset holding a complete column. */
  predicate ColumnsWellFormed(pl: PatchLump) {
    && ValidLump(pl)
    && forall c :: 0 <= c < pl.width ==> 0 <= pl.columnofs[c] && WellFormedColumn(pl.data, pl.columnofs[c])
  }

  predicate AllColumnsWellFormed(lumps: seq<PatchLump>) {
    forall i :: 0 <= i < |lumps| ==> ColumnsWellFormed(lumps[i])
  }

  /**
   * The byte patch column c, placed originy rows down, puts on texture row
   * y as R_DrawColumnInCache copies it, if one of its posts reaches the row.
   */
  function PatchTexel(pl: PatchLump, c: int, originy: int, y: int): Option<byte>
    requires ColumnsWellFormed(pl) && 0 <= c < pl.width
  {
    TexelAsWritten(Decode(pl.data, pl.columnofs[c]), originy, y)
  }

  /** A patch placed at or below the top of the texture shows row y - originy of its column on texture row y. */
  lemma PatchTexelUnclipped(pl: PatchLump, c: int, originy: int, y: int)
    requires ColumnsWellFormed(pl) && 0 <= c < pl.width && originy >= 0
    ensures PatchTexel(pl, c, originy, y) == Texel(Decode(pl.data, pl.columnofs[c]), y - originy)
  {
    TexelUnclipped(Decode(pl.data, pl.columnofs[c]), originy, y);
  }

  /** The slice of column x, `height` bytes from its offset, lies in a block of `size` bytes. */
  predicate SliceFits(lk: Lookup, height: int, size: int, x: int)
    requires 0 <= x < |lk.ofs|
  {
    0 <= lk.ofs[x] && lk.ofs[x] + height <= size
  }

  /** The slices of columns a and b do not overlap (or a and b are the same column). */
  predicate Apart(lk: Lookup, height: int, a: int, b: int)
    requires 0 <= a < |lk.ofs| && 0 <= b < |lk.ofs|
  {
    a == b || lk.ofs[a] + height <= lk.ofs[b] || lk.ofs[b] + height <= lk.ofs[a]
  }

  /** Patch i lies over column x and the lookup sends x to the composite block. */
  predicate CompositedAt(t: Texture, lumps: seq<PatchLump>, lk: Lookup, i: int, x: int)
    requires ValidLumps(t, lumps)
  {
    && 0 <= i < |lumps| && Covers(t.patches[i], lumps[i], t.width, x)
    && x < |lk.lump| && lk.lump[x] < 0
  }

  /**
   * What R_GenerateComposite relies on without checking: every column a
   * patch draws into has its slice inside the block, and the slices of two
   * different such columns do not overlap.
   */
  ghost predicate Slices(t: Texture, lumps: seq<PatchLump>, lk: Lookup, size: int)
    requires ValidLumps(t, lumps)
  {
    && |lk.lump| == t.width && |lk.ofs| == t.width
    && (forall i, x :: CompositedAt(t, lumps, lk, i, x) ==> SliceFits(lk, t.height, size, x))
    && (forall i, j, a, b :: CompositedAt(t, lumps, lk, i, a) && CompositedAt(t, lumps, lk, j, b) ==> Apart(lk, t.height, a, b))
  }

  /**
   * A column a patch lies over and the lookup composites is one the second
   * pass got to and that more than one patch covers, with its slice at the
   * offset the slices before it leave. `init` holds the cleared counters
   * the first pass starts from, and lump numbers fit in a short.
   */
  lemma CompositedFromLookup(t: Texture, lumps: seq<PatchLump>, init: seq<Col>, lk: Lookup, i: int, x: int)
    requires ValidTexture(t) && ValidLumps(t, lumps) && |init| == t.width
    requires forall j :: 0 <= j < |t.patches| ==> 0 <= t.patches[j].patch < 0x8000
    requires Classified(Columnwise(t, lumps, init), t.height, lk)
    requires CompositedAt(t, lumps, lk, i, x)
    ensures x < lk.stop && Columnwise(t, lumps, init)[x].count > 1
    ensures lk.ofs[x] == Offset(Columnwise(t, lumps, init), t.height, x)
  {
    var cols := Columnwise(t, lumps, init);
    assert ClassifiedUpTo(cols, t.height, lk.lump, lk.ofs, lk.stop);
    assert cols[x] == ColumnOf(t, lumps, init, x);
    CoveredLump(t, lumps, init, i, x);
    if x >= lk.stop || cols[x].count <= 1 {
      assert false;
    }
  }

  /**
   * The lookup R_GenerateLookup builds gives every composited column a
   * slice inside the composite block, and no two of those slices overlap:
   * what R_GenerateComposite takes on trust.
   */
  lemma LookupSlices(t: Texture, lumps: seq<PatchLump>, init: seq<Col>, lk: Lookup)
    requires ValidTexture(t) && ValidLumps(t, lumps) && |init| == t.width
    requires forall k :: 0 <= k < |init| ==> init[k].count == 0
    requires forall j :: 0 <= j < |t.patches| ==> 0 <= t.patches[j].patch < 0x8000
    requires Classified(Columnwise(t, lumps, init), t.height, lk)
    ensures Slices(t, lumps, lk, lk.size)
  {
    var cols := Columnwise(t, lumps, init);
    forall i, x | CompositedAt(t, lumps, lk, i, x)
      ensures SliceFits(lk, t.height, lk.size, x)
    {
      CompositedFromLookup(t, lumps, init, lk, i, x);
      OffsetIncreases(cols, t.height, x, lk.stop);
    }
    forall i, j, a, b | CompositedAt(t, lumps, lk, i, a) && CompositedAt(t, lumps, lk, j, b)
      ensures Apart(lk, t.height, a, b)
    {
      CompositedFromLookup(t, lumps, init, lk, i, a);
      CompositedFromLookup(t, lumps, init, lk, j, b);
      if a < b {
        OffsetIncreases(cols, t.height, a, b);
      } else if b < a {
        OffsetIncreases(cols, t.height, b, a);
      }
    }
  }

  /**
   * The inner loop of R_GenerateComposite for one patch, over columns
   * x .. hi-1: a column with a lump of its own is skipped, any other one
   * has the patch column drawn into its slice. The source draws without
   * checking that the slice lies in the block; a slice that does not is
   * skipped here, and Slices rules that case out.
   */
  function PaintColumns(block: seq<byte>, tp: TexPatch, pl: PatchLump, lk: Lookup, height: nat, x: int, hi: int): (r: seq<byte>)
    requires ColumnsWellFormed(pl) && |lk.lump| == |lk.ofs|
    requires 0 <= x && tp.originx <= x && hi <= |lk.lump| && hi <= tp.originx + pl.width
    ensures |r| == |block|
    decreases hi - x
  {
    if x >= hi then block
    else if lk.lump[x] >= 0 || !SliceFits(lk, height, |block|, x) then PaintColumns(block, tp, pl, lk, height, x + 1, hi)
    else PaintColumns(DrawSlice(block, pl, x - tp.originx, lk.ofs[x], height, tp.originy), tp, pl, lk, height, x + 1, hi)
  }

  /** R_DrawColumnInCache of patch column c into the `height` bytes of the block from offset o. */
  function DrawSlice(block: seq<byte>, pl: PatchLump, c: int, o: int, height: nat, originy: int): (r: seq<byte>)
    requires ColumnsWellFormed(pl) && 0 <= c < pl.width
    requires 0 <= o && o + height <= |block|
    ensures |r| == |block|
  {
    Copy(block, o, DrawColumnInCacheAsWritten(pl.data, pl.columnofs[c], block[o..o + height], originy))
  }

  /** A composited column whose slice fits is drawn, and painting goes on from the next column. */
  lemma PaintColumnsDraw(block: seq<byte>, tp: TexPatch, pl: PatchLump, lk: Lookup, height: nat, x: int, hi: int)
    requires ColumnsWellFormed(pl) && |lk.lump| == |lk.ofs|
    requires 0 <= x < hi && tp.originx <= x && hi <= |lk.lump| && hi <= tp.originx + pl.width
    requires lk.lump[x] < 0 && SliceFits(lk, height, |block|, x)
    ensures PaintColumns(block, tp, pl, lk, height, x, hi) == PaintColumns(DrawSlice(block, pl, x - tp.originx, lk.ofs[x], height, tp.originy), tp, pl, lk, height, x + 1, hi)
  {
  }

  /** Painting columns x .. hi-1 is painting x .. m-1, then m .. hi-1. */
  lemma {:induction false} PaintColumnsSplit(block: seq<byte>, tp: TexPatch, pl: PatchLump, lk: Lookup, height: nat, x: int, m: int, hi: int)
    requires ColumnsWellFormed(pl) && |lk.lump| == |lk.ofs|
    requires 0 <= x <= m <= hi && tp.originx <= x && hi <= |lk.lump| && hi <= tp.originx + pl.width
    ensures PaintColumns(block, tp, pl, lk, height, x, hi) == PaintColumns(PaintColumns(block, tp, pl, lk, height, x, m), tp, pl, lk, height, m, hi)
    decreases m - x
  {
    hide DrawSlice;
    if x < m {
      if lk.lump[x] >= 0 || !SliceFits(lk, height, |block|, x) {
        PaintColumnsSplit(block, tp, pl, lk, height, x + 1, m, hi);
      } else {
        PaintColumnsSplit(DrawSlice(block, pl, x - tp.originx, lk.ofs[x], height, tp.originy), tp, pl, lk, height, x + 1, m, hi);
      }
    }
  }

  /**
   * A row of the slice of column x' keeps its byte while columns x .. hi-1,
   * none of them x' and none with a slice overlapping that of x', are painted.
   */
  lemma {:induction false} PaintColumnsAway(block: seq<byte>, tp: TexPatch, pl: PatchLump, lk: Lookup, height: nat, x: int, hi: int, x': int, y: int)
    requires ColumnsWellFormed(pl) && |lk.lump| == |lk.ofs|
    requires 0 <= x && tp.originx <= x && hi <= |lk.lump| && hi <= tp.originx + pl.width
    requires 0 <= x' < |lk.lump| && !(x <= x' < hi) && SliceFits(lk, height, |block|, x') && 0 <= y < height
    requires forall k :: x <= k < hi && lk.lump[k] < 0 ==> Apart(lk, height, k, x')
    ensures PaintColumns(block, tp, pl, lk, height, x, hi)[lk.ofs[x'] + y] == block[lk.ofs[x'] + y]
    decreases hi - x
  {
    hide DrawSlice;
    if x < hi {
      if lk.lump[x] >= 0 || !SliceFits(lk, height, |block|, x) {
        PaintColumnsAway(block, tp, pl, lk, height, x + 1, hi, x', y);
      } else {
        assert Apart(lk, height, x, x');
        DrawSliceOutside(block, pl, x - tp.originx, lk.ofs[x], height, tp.originy, lk.ofs[x'] + y);
        PaintColumnsAway(DrawSlice(block, pl, x - tp.originx, lk.ofs[x], height, tp.originy), tp, pl, lk, height, x + 1, hi, x', y);
      }
    }
  }

  /** Row y of the slice of composited column x after painting columns x .. hi-1 is what drawing x put there. */
  lemma PaintColumnsHere(block: seq<byte>, tp: TexPatch, pl: PatchLump, lk: Lookup, height: nat, x: int, hi: int, y: int)
    requires ColumnsWellFormed(pl) && |lk.lump| == |lk.ofs|
    requires 0 <= x < hi && tp.originx <= x && hi <= |lk.lump| && hi <= tp.originx + pl.width
    requires lk.lump[x] < 0 && SliceFits(lk, height, |block|, x) && 0 <= y < height
    requires forall k :: x < k < hi && lk.lump[k] < 0 ==> Apart(lk, height, k, x)
    ensures PaintColumns(block, tp, pl, lk, height, x, hi)[lk.ofs[x] + y] == DrawSlice(block, pl, x - tp.originx, lk.ofs[x], height, tp.originy)[lk.ofs[x] + y]
  {
    hide DrawSlice;
    PaintColumnsDraw(block, tp, pl, lk, height, x, hi);
    PaintColumnsAway(DrawSlice(block, pl, x - tp.originx, lk.ofs[x], height, tp.originy), tp, pl, lk, height, x + 1, hi, x, y);
  }

  /**
   * Row y of the slice of a composited column x' after one patch: the
   * patch texel at that row when x' is among the columns painted and the
   * patch has one there, else the byte that was there.
   */
  lemma PaintColumnsAt(block: seq<byte>, tp: TexPatch, pl: PatchLump, lk: Lookup, height: nat, x: int, hi: int, x': int, y: int)
    requires ColumnsWellFormed(pl) && |lk.lump| == |lk.ofs|
    requires 0 <= x && tp.originx <= x && hi <= |lk.lump| && hi <= tp.originx + pl.width
    requires 0 <= x' < |lk.lump| && lk.lump[x'] < 0 && SliceFits(lk, height, |block|, x') && 0 <= y < height
    requires forall k :: x <= k < hi && lk.lump[k] < 0 ==> Apart(lk, height, k, x')
    ensures x <= x' < hi ==>
      PaintColumns(block, tp, pl, lk, height, x, hi)[lk.ofs[x'] + y] == Resolve(PatchTexel(pl, x' - tp.originx, tp.originy, y), block[lk.ofs[x'] + y])
    ensures !(x <= x' < hi) ==> PaintColumns(block, tp, pl, lk, height, x, hi)[lk.ofs[x'] + y] == block[lk.ofs[x'] + y]
  {
    hide DrawSlice;
    if x <= x' < hi {
      PaintColumnsSplit(block, tp, pl, lk, height, x, x', hi);
      PaintColumnsAway(block, tp, pl, lk, height, x, x', x', y);
      var before := PaintColumns(block, tp, pl, lk, height, x, x');
      PaintColumnsHere(before, tp, pl, lk, height, x', hi, y);
      DrawnRow(before, pl, x' - tp.originx, lk.ofs[x'], height, tp.originy, y);
    } else {
      PaintColumnsAway(block, tp, pl, lk, height, x, hi, x', y);
    }
  }

  /** Row y of a slice after one patch column was drawn into it. */
  lemma DrawnRow(block: seq<byte>, pl: PatchLump, c: int, o: int, height: nat, originy: int, y: int)
    requires ColumnsWellFormed(pl) && 0 <= c < pl.width
    requires 0 <= o && o + height <= |block| && 0 <= y < height
    ensures DrawSlice(block, pl, c, o, height, originy)[o + y] == Resolve(PatchTexel(pl, c, originy, y), block[o + y])
  {
    var window := block[o..o + height];
    DrawColumnInCacheAsWrittenPaints(pl.data, pl.columnofs[c], window, originy);
    assert window[y] == block[o + y];
  }

  /** Drawing into one slice leaves every byte outside it alone. */
  lemma DrawSliceOutside(block: seq<byte>, pl: PatchLump, c: int, o: int, height: nat, originy: int, k: int)
    requires ColumnsWellFormed(pl) && 0 <= c < pl.width
    requires 0 <= o && o + height <= |block| && 0 <= k < |block| && !(o <= k < o + height)
    ensures DrawSlice(block, pl, c, o, height, originy)[k] == block[k]
  {
  }

  /** The first and one-past-last columns patch tp is drawn into: its span clamped to the texture. */
  function SpanStart(tp: TexPatch): int {
    if tp.originx < 0 then 0 else tp.originx
  }

  function SpanEnd(tp: TexPatch, pl: PatchLump, width: int): int {
    if tp.originx + pl.width > width then width else tp.originx + pl.width
  }

  /** The clamped span is exactly the columns the patch covers. */
  lemma SpanCovers(tp: TexPatch, pl: PatchLump, width: int, x: int)
    ensures SpanStart(tp) <= x < SpanEnd(tp, pl, width) <==> Covers(tp, pl, width, x)
  {
  }

  /** The patch loop of R_GenerateComposite over patches 0 .. n-1, drawing into `block`. */
  function PaintPatches(block: seq<byte>, t: Texture, lumps: seq<PatchLump>, lk: Lookup, n: nat): (r: seq<byte>)
    requires ValidTexture(t) && ValidLumps(t, lumps) && AllColumnsWellFormed(lumps) && n <= |lumps|
    requires Slices(t, lumps, lk, |block|)
    ensures |r| == |block|
  {
    if n == 0 then block
    else
      var tp, pl := t.patches[n - 1], lumps[n - 1];
      var before := PaintPatches(block, t, lumps, lk, n - 1);
      PaintColumns(before, tp, pl, lk, t.height, SpanStart(tp), SpanEnd(tp, pl, t.width))
  }

  /**
   * The reference reading of a composited column x at texture row y: the
   * byte the last of patches 0 .. n-1 that lies over x and has a post
   * reaching row y puts there, if any. A patch placed below the top of the
   * texture shows its own row y - originy there (PatchTexelUnclipped); one
   * placed above it has its top-clipped posts shifted up, as the source
   * copies them.
   */
  function CompositeTexel(t: Texture, lumps: seq<PatchLump>, n: nat, x: int, y: int): Option<byte>
    requires ValidLumps(t, lumps) && AllColumnsWellFormed(lumps) && n <= |lumps|
  {
    if n == 0 then None
    else
      var prev := CompositeTexel(t, lumps, n - 1, x, y);
      var tp, pl := t.patches[n - 1], lumps[n - 1];
      if Covers(tp, pl, t.width, x) then
        match PatchTexel(pl, x - tp.originx, tp.originy, y)
        case Some(v) => Some(v)
        case None => prev
      else prev
  }

  /** Drawing over what earlier patches drew: the later texel wins. */
  lemma ResolveOver(top: Option<byte>, prev: Option<byte>, under: byte)
    ensures Resolve(top, Resolve(prev, under)) == Resolve(match top case Some(v) => Some(v) case None => prev, under)
  {
  }

  /**
   * Row y of a composited column after patches 0 .. n-1: the texel the
   * reference reading gives, or the byte the block held.
   */
  lemma {:induction false} PaintPatchesAt(block: seq<byte>, t: Texture, lumps: seq<PatchLump>, lk: Lookup, n: nat, i: int, x: int, y: int)
    requires ValidTexture(t) && ValidLumps(t, lumps) && AllColumnsWellFormed(lumps) && n <= |lumps|
    requires Slices(t, lumps, lk, |block|)
    requires CompositedAt(t, lumps, lk, i, x) && 0 <= y < t.height
    ensures SliceFits(lk, t.height, |block|, x)
    ensures PaintPatches(block, t, lumps, lk, n)[lk.ofs[x] + y] == Resolve(CompositeTexel(t, lumps, n, x, y), block[lk.ofs[x] + y])
  {
    hide DrawSlice, PaintColumns;
    if n > 0 {
      var tp, pl := t.patches[n - 1], lumps[n - 1];
      var before := PaintPatches(block, t, lumps, lk, n - 1);
      PaintPatchesAt(block, t, lumps, lk, n - 1, i, x, y);
      assert forall k :: SpanStart(tp) <= k < SpanEnd(tp, pl, t.width) && lk.lump[k] < 0 ==> CompositedAt(t, lumps, lk, n - 1, k);
      PaintColumnsAt(before, tp, pl, lk, t.height, SpanStart(tp), SpanEnd(tp, pl, t.width), x, y);
      SpanCovers(tp, pl, t.width, x);
      if Covers(tp, pl, t.width, x) {
        ResolveOver(PatchTexel(pl, x - tp.originx, tp.originy, y), CompositeTexel(t, lumps, n - 1, x, y), block[lk.ofs[x] + y]);
      }
    }
  }

  /** The composite of a texture: the zone after the allocation and retag, the payload address and the block's bytes. */
  datatype Composite = Composite(zone: Memzone, ptr: int, bytes: seq<byte>)

  /**
   * z' is the zone of allocation a with the new block retagged PU_CACHE
   * and nothing else changed: the block still belongs to the slot, which
   * still holds the block's payload address.
   */
  predicate CachedBlock(a: Allocation, z': Memzone, slot: nat)
    requires 1 <= a.index < |a.zone.blocks|
  {
    && Valid(z') && |z'.blocks| == |a.zone.blocks|
    && z'.blocks[a.index] == a.zone.blocks[a.index].(tag := PU_CACHE)
    && (forall j :: 0 <= j < |z'.blocks| && j != a.index ==> z'.blocks[j] == a.zone.blocks[j])
    && z'.blocks[a.index].user == Owner(slot)
    && slot in z'.slots && z'.slots[slot] == a.ptr
  }

  /** The facts about a fresh PU_STATIC block owned by `slot` that the retag needs. */
  lemma AllocationOwned(z: Memzone, a: Allocation, size: int, slot: nat)
    requires 0 <= size && slot > OWNER_THRESHOLD && Allocated(z, a, size, PU_STATIC, slot)
    ensures Valid(a.zone) && 1 <= a.index < |a.zone.blocks|
    ensures PayloadIndex(a.zone.blocks, a.ptr) == Some(a.index)
    ensures a.zone.blocks[a.index].user == Owner(slot)
    ensures slot in a.zone.slots && a.zone.slots[slot] == a.ptr
  {
    PayloadIndexOfBlock(a.zone, a.index);
  }

  /** Retagging the fresh block PU_CACHE succeeds, since the block has an owner, and changes only its tag. */
  lemma RetagOwned(a: Allocation, slot: nat)
    requires Valid(a.zone) && 1 <= a.index < |a.zone.blocks|
    requires PayloadIndex(a.zone.blocks, a.ptr) == Some(a.index)
    requires a.zone.blocks[a.index].user == Owner(slot)
    requires slot in a.zone.slots && a.zone.slots[slot] == a.ptr
    ensures a.ptr != 0
    ensures ChangeTag(a.zone, a.ptr, PU_CACHE).Ok?
    ensures CachedBlock(a, ChangeTag(a.zone, a.ptr, PU_CACHE).value, slot)
  {
    if a.index > 1 {
      OffsetsIncrease(a.zone, 1, a.index);
    }
  }

  /**
   * Z_ChangeTag2 as written retags the fresh block PU_CACHE unless the low
   * 32 bits of the owner slot's address fall below 0x100, and then changes
   * only its tag.
   */
  lemma RetagOwnedAsWritten(a: Allocation, slot: nat)
    requires Valid(a.zone) && 1 <= a.index < |a.zone.blocks|
    requires PayloadIndex(a.zone.blocks, a.ptr) == Some(a.index)
    requires a.zone.blocks[a.index].user == Owner(slot) && slot > OWNER_THRESHOLD
    requires slot in a.zone.slots && a.zone.slots[slot] == a.ptr
    ensures a.ptr != 0
    ensures ChangeTagAsWritten(a.zone, a.ptr, PU_CACHE).Ok? <==> !LacksOwnerAsWritten(Owner(slot))
    ensures ChangeTagAsWritten(a.zone, a.ptr, PU_CACHE).Ok? ==>
      CachedBlock(a, ChangeTagAsWritten(a.zone, a.ptr, PU_CACHE).value, slot)
  {
    if a.index > 1 {
      OffsetsIncrease(a.zone, 1, a.index);
    }
  }

  /**
   * R_GenerateComposite(texnum): Z_Malloc of the composite size as
   * PU_STATIC with the texture's composite slot as owner, the patch loop,
   * then Z_ChangeTag to PU_CACHE with the owner test as written, which
   * refuses a slot whose address has its low 32 bits below 0x100. `junk`
   * is what the fresh block holds.
   */
  function GenerateComposite(z: Memzone, t: Texture, lumps: seq<PatchLump>, lk: Lookup, slot: nat, junk: seq<byte>): (r: Outcome<Composite>)
    requires Valid(z) && slot > OWNER_THRESHOLD
    requires ValidTexture(t) && ValidLumps(t, lumps) && AllColumnsWellFormed(lumps)
    requires 0 <= lk.size <= COMPOSITE_LIMIT && |junk| == lk.size
    requires Slices(t, lumps, lk, lk.size)
    ensures r.Fatal? <==> Malloc(z, lk.size, PU_STATIC, slot).Fatal? || LacksOwnerAsWritten(Owner(slot))
    ensures r.Fatal? && Malloc(z, lk.size, PU_STATIC, slot).Ok? ==> r.message == CHANGE_TAG_OWNER
    ensures r.Ok? ==> |r.value.bytes| == lk.size && r.value.ptr != 0
    ensures r.Ok? ==>
      && Malloc(z, lk.size, PU_STATIC, slot).Ok?
      && r.value.ptr == Malloc(z, lk.size, PU_STATIC, slot).value.ptr
      && CachedBlock(Malloc(z, lk.size, PU_STATIC, slot).value, r.value.zone, slot)
  {
    match Malloc(z, lk.size, PU_STATIC, slot)
    case Fatal(msg) => Fatal(msg)
    case Ok(a) =>
      AllocationOwned(z, a, lk.size, slot);
      RetagOwnedAsWritten(a, slot);
      match ChangeTagAsWritten(a.zone, a.ptr, PU_CACHE)
      case Fatal(msg) => Fatal(msg)
      case Ok(z') => Ok(Composite(z', a.ptr, PaintPatches(junk, t, lumps, lk, |lumps|)))
  }

  /**
   * The bytes of a generated composite: every row of every composited
   * column holds the texel of the last patch with one there, or the byte
   * the fresh block held when no patch paints it.
   */
  lemma GenerateCompositeTexels(z: Memzone, t: Texture, lumps: seq<PatchLump>, lk: Lookup, slot: nat, junk: seq<byte>, i: int, x: int, y: int)
    requires Valid(z) && slot > OWNER_THRESHOLD
    requires ValidTexture(t) && ValidLumps(t, lumps) && AllColumnsWellFormed(lumps)
    requires 0 <= lk.size <= COMPOSITE_LIMIT && |junk| == lk.size
    requires Slices(t, lumps, lk, lk.size)
    requires GenerateComposite(z, t, lumps, lk, slot, junk).Ok?
    requires CompositedAt(t, lumps, lk, i, x) && 0 <= y < t.height
    ensures SliceFits(lk, t.height, lk.size, x)
    ensures GenerateComposite(z, t, lumps, lk, slot, junk).value.bytes[lk.ofs[x] + y]
      == Resolve(CompositeTexel(t, lumps, |lumps|, x, y), junk[lk.ofs[x] + y])
  {
    PaintPatchesAt(junk, t, lumps, lk, |lumps|, i, x, y);
  }
}

=== FILE: texture_lookup.dfy ===
/**
 * R_GenerateLookup of r_data.c, and the width mask R_InitTextures stores
 * for each texture. The lookup decides, column by column, whether a
 * texture column can be read straight out of the one patch that covers it
 * or must be composited from several patches into a cached block.
 */
module TextureLookup {
  import opened Wrappers
  import opened CTypes
  import opened Posts

  const TOO_BIG: string := "R_GenerateLookup: texture %i is >64k"
  /** The largest composite block R_GenerateLookup lets a texture have. */
  const COMPOSITE_LIMIT: int := 0x10000

  /** One patch of a texture definition: where it is placed and which lump holds it. */
  datatype TexPatch = TexPatch(originx: int, originy: int, patch: int)

  /** A texture definition as R_InitTextures builds it (texture_t). */
  datatype Texture = Texture(name: seq<char>, width: int, height: int, patches: seq<TexPatch>)

  /**
   * A patch lump as W_CacheLumpNum hands it over: its width, the byte
   * offset of each of its columns in the lump, and the lump's bytes.
   */
  datatype PatchLump = PatchLump(width: int, columnofs: seq<int>, data: seq<byte>)

  /** Every column offset the patch's width allows is present. */
  predicate ValidLump(pl: PatchLump) {
    pl.width <= |pl.columnofs|
  }

  /** The texture's sizes are not negative. */
  predicate ValidTexture(t: Texture) {
    0 <= t.width && 0 <= t.height
  }

  /**
   * Texture column x lies under the patch: x is in the texture and in
   * originx .. originx + width of the patch (the clamped loop bounds of
   * R_GenerateLookup and R_GenerateComposite).
   */
  predicate Covers(tp: TexPatch, pl: PatchLump, width: int, x: int) {
    0 <= x < width && tp.originx <= x < tp.originx + pl.width
  }

  /** What the first pass leaves for one column: the byte counter of patches, the lump and the offset. */
  datatype Col = Col(count: byte, lump: int, ofs: int)

  /** The columns before the first pass: counters cleared, lump and offset whatever the fresh block held. */
  function InitCols(lump0: seq<int>, ofs0: seq<int>): (cols: seq<Col>)
    requires |lump0| == |ofs0|
    ensures |cols| == |lump0|
    ensures forall x :: 0 <= x < |cols| ==> cols[x] == Col(0, lump0[x], ofs0[x])
  {
    seq(|lump0|, x requires 0 <= x < |lump0| => Col(0, lump0[x], ofs0[x]))
  }

  /**
   * One patch of the first pass: every column under the patch has its byte
   * counter bumped (wrapping at 256), its lump set to the patch lump (stored
   * in a short) and its offset set past the post header of the patch column
   * (stored in an unsigned short).
   */
  function ApplyPatch(cols: seq<Col>, tp: TexPatch, pl: PatchLump): (r: seq<Col>)
    requires ValidLump(pl)
    ensures |r| == |cols|
    ensures forall x {:trigger r[x]} :: 0 <= x < |cols| ==> r[x] == PatchColumn(cols[x], tp, pl, |cols|, x)
  {
    seq(|cols|, x requires 0 <= x < |cols| => PatchColumn(cols[x], tp, pl, |cols|, x))
  }

  /** Column x of the first pass after the patch tp, from what it held before. */
  function PatchColumn(c: Col, tp: TexPatch, pl: PatchLump, width: int, x: int): Col
    requires ValidLump(pl)
  {
    if Covers(tp, pl, width, x) then
      Col(Wrap8(c.count + 1), ToShort(tp.patch), ToUShort(pl.columnofs[x - tp.originx] + 3))
    else c
  }

  predicate ValidLumps(t: Texture, lumps: seq<PatchLump>) {
    |lumps| == |t.patches| && forall i :: 0 <= i < |lumps| ==> ValidLump(lumps[i])
  }

  /** The first pass of R_GenerateLookup over patches 0 .. n-1. */
  function FirstPass(t: Texture, lumps: seq<PatchLump>, n: nat, cols: seq<Col>): (r: seq<Col>)
    requires ValidLumps(t, lumps) && n <= |lumps|
    ensures |r| == |cols|
  {
    if n == 0 then cols else ApplyPatch(FirstPass(t, lumps, n - 1, cols), t.patches[n - 1], lumps[n - 1])
  }

  /** How many of patches 0 .. n-1 cover column x. */
  function CoverCount(t: Texture, lumps: seq<PatchLump>, n: nat, x: int): (c: nat)
    requires ValidLumps(t, lumps) && n <= |lumps|
    ensures c <= n
  {
    if n == 0 then 0
    else CoverCount(t, lumps, n - 1, x) + if Covers(t.patches[n - 1], lumps[n - 1], t.width, x) then 1 else 0
  }

  /** The last of patches 0 .. n-1 that covers column x. */
  function LastCover(t: Texture, lumps: seq<PatchLump>, n: nat, x: int): (r: Option<nat>)
    requires ValidLumps(t, lumps) && n <= |lumps|
    ensures r.Some? ==> r.value < n && Covers(t.patches[r.value], lumps[r.value], t.width, x)
    ensures r.None? <==> CoverCount(t, lumps, n, x) == 0
  {
    if n == 0 then None
    else if Covers(t.patches[n - 1], lumps[n - 1], t.width, x) then Some(n - 1)
    else LastCover(t, lumps, n - 1, x)
  }

  /** No patch after the last cover of column x covers it. */
  lemma {:induction false} LastCoverIsLast(t: Texture, lumps: seq<PatchLump>, n: nat, x: int, j: nat)
    requires ValidLumps(t, lumps) && n <= |lumps|
    requires LastCover(t, lumps, n, x).Some? && LastCover(t, lumps, n, x).value < j < n
    ensures !Covers(t.patches[j], lumps[j], t.width, x)
  {
    if j < n - 1 {
      LastCoverIsLast(t, lumps, n - 1, x, j);
    }
  }

  /** A column some patch covers has a last cover, no earlier than that patch. */
  lemma {:induction false} CoverHasLast(t: Texture, lumps: seq<PatchLump>, n: nat, i: nat, x: int)
    requires ValidLumps(t, lumps) && n <= |lumps|
    requires i < n && Covers(t.patches[i], lumps[i], t.width, x)
    ensures LastCover(t, lumps, n, x).Some? && i <= LastCover(t, lumps, n, x).value
  {
    if i < n - 1 && !Covers(t.patches[n - 1], lumps[n - 1], t.width, x) {
      CoverHasLast(t, lumps, n - 1, i, x);
    }
  }

  /** Column by column, the first pass counts the patches over the column modulo 256. */
  lemma {:induction false} FirstPassCount(t: Texture, lumps: seq<PatchLump>, n: nat, cols: seq<Col>, x: nat)
    requires ValidLumps(t, lumps) && n <= |lumps| && |cols| == t.width && x < |cols|
    ensures FirstPass(t, lumps, n, cols)[x].count == Wrap8(cols[x].count + CoverCount(t, lumps, n, x))
  {
    if n > 0 {
      var before := FirstPass(t, lumps, n - 1, cols);
      var tp, pl := t.patches[n - 1], lumps[n - 1];
      var c := CoverCount(t, lumps, n - 1, x);
      FirstPassCount(t, lumps, n - 1, cols, x);
      assert FirstPass(t, lumps, n, cols)[x] == PatchColumn(before[x], tp, pl, t.width, x);
      if Covers(tp, pl, t.width, x) {
        ByteSucc(cols[x].count + c);
      }
    }
  }

  /**
   * Column by column, the last patch over the column sets its lump and
   * offset; a column no patch covers keeps what it had.
   */
  lemma {:induction false} FirstPassLast(t: Texture, lumps: seq<PatchLump>, n: nat, cols: seq<Col>, x: nat)
    requires ValidLumps(t, lumps) && n <= |lumps| && |cols| == t.width && x < |cols|
    ensures LastFields(t, lumps, n, x, cols[x], FirstPass(t, lumps, n, cols)[x])
  {
    if n > 0 {
      var before := FirstPass(t, lumps, n - 1, cols);
      var tp, pl := t.patches[n - 1], lumps[n - 1];
      FirstPassLast(t, lumps, n - 1, cols, x);
      assert FirstPass(t, lumps, n, cols)[x] == PatchColumn(before[x], tp, pl, t.width, x);
      if Covers(tp, pl, t.width, x) {
        assert LastCover(t, lumps, n, x) == Some(n - 1);
      } else {
        assert LastCover(t, lumps, n, x) == LastCover(t, lumps, n - 1, x);
      }
    }
  }

  /**
   * Column x holds the lump and offset of the last of patches 0 .. n-1
   * over it, or those of c0 when none is.
   */
  predicate LastFields(t: Texture, lumps: seq<PatchLump>, n: nat, x: int, c0: Col, c: Col)
    requires ValidLumps(t, lumps) && n <= |lumps|
  {
    match LastCover(t, lumps, n, x)
    case None => c.lump == c0.lump && c.ofs == c0.ofs
    case Some(i) =>
      && c.lump == ToShort(t.patches[i].patch)
      && c.ofs == ToUShort(lumps[i].columnofs[x - t.patches[i].originx] + 3)
  }

  /** The value an `unsigned char` holds after x is stored into it. */
  function Wrap8(x: int): byte {
    x % 0x100
  }

  /** Bumping a byte counter that has already wrapped is bumping the count and wrapping once. */
  lemma ByteSucc(a: int)
    ensures Wrap8(Wrap8(a) + 1) == Wrap8(a + 1)
  {
  }

  /**
   * Where the slice of column x starts in the composite block: `height`
   * bytes for every column before x that more than one patch covers.
   */
  function Offset(cols: seq<Col>, height: nat, x: nat): (o: nat)
    requires x <= |cols|
  {
    if x == 0 then 0 else Offset(cols, height, x - 1) + if cols[x - 1].count > 1 then height else 0
  }

  /** The first column without a patch, or the width when every column has one. */
  function FirstEmpty(cols: seq<Col>, x: nat): (e: nat)
    requires x <= |cols|
    ensures x <= e <= |cols|
    ensures forall k :: x <= k < e ==> cols[k].count != 0
    ensures e < |cols| ==> cols[e].count == 0
    decreases |cols| - x
  {
    if x == |cols| || cols[x].count == 0 then x else FirstEmpty(cols, x + 1)
  }

  /**
   * The lookup tables of a texture: the lump (-1 for a composited column)
   * and the offset of each column, the size of the composite block, and
   * the number of columns the second pass got through.
   */
  datatype Lookup = Lookup(lump: seq<int>, ofs: seq<int>, size: int, stop: nat)

  /**
   * The tables after the second pass has looked at columns 0 .. x-1: each
   * of those that more than one patch covers has the lump -1 and the
   * `height` bytes of the composite block after the slices of the ones
   * before it; every other column keeps what the first pass left.
   */
  predicate ClassifiedUpTo(cols: seq<Col>, height: nat, lump: seq<int>, ofs: seq<int>, x: nat) {
    && x <= |cols| && |lump| == |cols| && |ofs| == |cols|
    && (forall k {:trigger lump[k]} :: 0 <= k < x && cols[k].count > 1 ==> lump[k] == -1 && ofs[k] == Offset(cols, height, k))
    && (forall k {:trigger lump[k]} :: 0 <= k < |cols| && (k >= x || cols[k].count <= 1) ==> lump[k] == cols[k].lump && ofs[k] == cols[k].ofs)
  }

  /**
   * What the second pass makes of the first pass's columns: the columns up
   * to the first one without a patch are classified, and the composite
   * block is as long as the slices handed out.
   */
  predicate Classified(cols: seq<Col>, height: nat, lk: Lookup) {
    && lk.stop == FirstEmpty(cols, 0)
    && lk.size == Offset(cols, height, lk.stop)
    && ClassifiedUpTo(cols, height, lk.lump, lk.ofs, lk.stop)
  }

  /** Classifying column x as composited extends the classified prefix. */
  lemma ClassifyMulti(cols: seq<Col>, height: nat, lump: seq<int>, ofs: seq<int>, x: nat)
    requires ClassifiedUpTo(cols, height, lump, ofs, x) && x < |cols| && cols[x].count > 1
    ensures ClassifiedUpTo(cols, height, lump[x := -1], ofs[x := Offset(cols, height, x)], x + 1)
  {
    var lump', ofs' := lump[x := -1], ofs[x := Offset(cols, height, x)];
    forall k | 0 <= k < x + 1 && cols[k].count > 1
      ensures lump'[k] == -1 && ofs'[k] == Offset(cols, height, k)
    {
      if k < x {
        assert lump[k] == -1;
      }
    }
    forall k | 0 <= k < |cols| && (k >= x + 1 || cols[k].count <= 1)
      ensures lump'[k] == cols[k].lump && ofs'[k] == cols[k].ofs
    {
      assert lump[k] == cols[k].lump;
    }
  }

  /** A column with one patch needs no change to extend the classified prefix. */
  lemma ClassifySingle(cols: seq<Col>, height: nat, lump: seq<int>, ofs: seq<int>, x: nat)
    requires ClassifiedUpTo(cols, height, lump, ofs, x) && x < |cols| && cols[x].count <= 1
    ensures ClassifiedUpTo(cols, height, lump, ofs, x + 1)
  {
    forall k | 0 <= k < |cols| && (k >= x + 1 || cols[k].count <= 1)
      ensures lump[k] == cols[k].lump && ofs[k] == cols[k].ofs
    {
      assert lump[k] == cols[k].lump;
    }
  }

  /** The second pass would overflow the 64K composite at column x. */
  predicate Overflows(cols: seq<Col>, height: nat, x: int)
    requires 0 <= x <= |cols|
  {
    x < |cols| && cols[x].count > 1 && Offset(cols, height, x) > COMPOSITE_LIMIT - height
  }

  /** None of the columns before n overflows the composite. */
  predicate FitsBefore(cols: seq<Col>, height: nat, n: nat)
    requires n <= |cols|
  {
    forall k :: 0 <= k < n ==> !Overflows(cols, height, k)
  }

  /**
   * The second pass of R_GenerateLookup: stop at the first column without a
   * patch (the source only logs it), and give every column more than one
   * patch covers the lump -1 and the next slice of the composite block,
   * failing once the block would pass 64K.
   */
  method SecondPass(cols: seq<Col>, height: nat) returns (r: Outcome<Lookup>)
    requires 0 <= height
    ensures r.Fatal? <==> !FitsBefore(cols, height, FirstEmpty(cols, 0))
    ensures r.Fatal? ==> r.message == TOO_BIG
    ensures r.Ok? ==> Classified(cols, height, r.value) && r.value.size <= COMPOSITE_LIMIT
  {
    var lump := seq(|cols|, x requires 0 <= x < |cols| => cols[x].lump);
    var ofs := seq(|cols|, x requires 0 <= x < |cols| => cols[x].ofs);
    var size := 0;
    var x := 0;
    while x < |cols|
      invariant x <= FirstEmpty(cols, 0)
      invariant ClassifiedUpTo(cols, height, lump, ofs, x)
      invariant size == Offset(cols, height, x) && size <= COMPOSITE_LIMIT
      invariant height == 0 ==> size == 0
      invariant FitsBefore(cols, height, x)
    {
      if cols[x].count == 0 {
        assert x == FirstEmpty(cols, 0);
        return Ok(Lookup(lump, ofs, size, x));
      }
      if cols[x].count > 1 {
        if size > COMPOSITE_LIMIT - height {
          assert Overflows(cols, height, x);
          return Fatal(TOO_BIG);
        }
        assert ToUShort(size) == size;
        ClassifyMulti(cols, height, lump, ofs, x);
        lump := lump[x := -1];
        ofs := ofs[x := ToUShort(size)];
        size := size + height;
      } else {
        ClassifySingle(cols, height, lump, ofs, x);
      }
      x := x + 1;
    }
    return Ok(Lookup(lump, ofs, size, x));
  }

  /**
   * Column x of the first pass read column-wise: with no patch over it,
   * what it held; otherwise its counter bumped once per patch over it and
   * the lump and offset of the last of them.
   */
  function ColumnOf(t: Texture, lumps: seq<PatchLump>, init: seq<Col>, x: nat): Col
    requires ValidLumps(t, lumps) && x < |init|
  {
    match LastCover(t, lumps, |lumps|, x)
    case None => init[x]
    case Some(i) =>
      Col(Wrap8(init[x].count + CoverCount(t, lumps, |lumps|, x)),
          ToShort(t.patches[i].patch),
          ToUShort(lumps[i].columnofs[x - t.patches[i].originx] + 3))
  }

  /** Every column read column-wise. */
  function Columnwise(t: Texture, lumps: seq<PatchLump>, init: seq<Col>): (cols: seq<Col>)
    requires ValidLumps(t, lumps)
    ensures |cols| == |init|
    ensures forall x :: 0 <= x < |init| ==> cols[x] == ColumnOf(t, lumps, init, x)
  {
    seq(|init|, x requires 0 <= x < |init| => ColumnOf(t, lumps, init, x))
  }

  /** The first pass, patch after patch, leaves every column as the column-wise reading says. */
  lemma FirstPassIsColumnwise(t: Texture, lumps: seq<PatchLump>, init: seq<Col>)
    requires ValidLumps(t, lumps) && |init| == t.width
    ensures FirstPass(t, lumps, |lumps|, init) == Columnwise(t, lumps, init)
  {
    var cols := FirstPass(t, lumps, |lumps|, init);
    forall x | 0 <= x < |init|
      ensures cols[x] == ColumnOf(t, lumps, init, x)
    {
      FirstPassColumn(t, lumps, init, x);
    }
  }

  /** One column of FirstPassIsColumnwise. */
  lemma FirstPassColumn(t: Texture, lumps: seq<PatchLump>, init: seq<Col>, x: nat)
    requires ValidLumps(t, lumps) && |init| == t.width && x < |init|
    ensures FirstPass(t, lumps, |lumps|, init)[x] == ColumnOf(t, lumps, init, x)
  {
    FirstPassCount(t, lumps, |lumps|, init, x);
    FirstPassLast(t, lumps, |lumps|, init, x);
    ColumnFromFields(t, lumps, init, x, FirstPass(t, lumps, |lumps|, init)[x]);
  }

  /** A column with the counter and the lump and offset the column-wise reading gives is that reading. */
  lemma ColumnFromFields(t: Texture, lumps: seq<PatchLump>, init: seq<Col>, x: nat, r: Col)
    requires ValidLumps(t, lumps) && |init| == t.width && x < |init|
    requires r.count == Wrap8(init[x].count + CoverCount(t, lumps, |lumps|, x))
    requires LastFields(t, lumps, |lumps|, x, init[x], r)
    ensures r == ColumnOf(t, lumps, init, x)
  {
    if LastCover(t, lumps, |lumps|, x).None? {
      Wrap8Byte(init[x].count);
    }
  }

  /** Storing a byte into a byte leaves it alone. */
  lemma Wrap8Byte(a: byte)
    ensures Wrap8(a) == a
  {
  }

  /**
   * R_GenerateLookup(texnum): the first pass over the patches, then the
   * second pass over the columns. lump0 and ofs0 are what the freshly
   * allocated column tables held.
   */
  method GenerateLookup(t: Texture, lumps: seq<PatchLump>, lump0: seq<int>, ofs0: seq<int>) returns (r: Outcome<Lookup>)
    requires ValidTexture(t) && ValidLumps(t, lumps)
    requires |lump0| == t.width && |ofs0| == t.width
    ensures
      var cols := Columnwise(t, lumps, InitCols(lump0, ofs0));
      && (r.Fatal? <==> !FitsBefore(cols, t.height, FirstEmpty(cols, 0)))
      && (r.Fatal? ==> r.message == TOO_BIG)
      && (r.Ok? ==> Classified(cols, t.height, r.value) && r.value.size <= COMPOSITE_LIMIT)
  {
    var cols := FirstPass(t, lumps, |lumps|, InitCols(lump0, ofs0));
    FirstPassIsColumnwise(t, lumps, InitCols(lump0, ofs0));
    r := SecondPass(cols, t.height);
  }

  /**
   * A column of a texture whose columns all have a patch, as the column-wise
   * reference describes it: it is composited (lump -1) exactly when its
   * counter is above one, and its slice then follows the slices of the
   * composited columns before it; otherwise it keeps the lump and offset of
   * the last patch over it (see CoveredColumn).
   */
  lemma CompositedColumn(t: Texture, lumps: seq<PatchLump>, init: seq<Col>, lk: Lookup, x: nat)
    requires ValidTexture(t) && ValidLumps(t, lumps) && |init| == t.width
    requires Classified(Columnwise(t, lumps, init), t.height, lk)
    requires lk.stop == t.width && x < t.width
    ensures ColumnOf(t, lumps, init, x).count != 0
    ensures ColumnOf(t, lumps, init, x).count > 1 ==>
      lk.lump[x] == -1 && lk.ofs[x] == Offset(Columnwise(t, lumps, init), t.height, x)
    ensures ColumnOf(t, lumps, init, x).count <= 1 ==>
      lk.lump[x] == ColumnOf(t, lumps, init, x).lump && lk.ofs[x] == ColumnOf(t, lumps, init, x).ofs
  {
    var cols := Columnwise(t, lumps, init);
    ClassifiedColumn(cols, t.height, lk, x);
    assert cols[x] == ColumnOf(t, lumps, init, x);
  }

  /** A column some patch covers, read column-wise from cleared counters. */
  lemma CoveredColumn(t: Texture, lumps: seq<PatchLump>, init: seq<Col>, x: nat)
    requires ValidLumps(t, lumps) && x < |init|
    requires forall k :: 0 <= k < |init| ==> init[k].count == 0
    requires forall i :: 0 <= i < |t.patches| ==> 0 <= t.patches[i].patch < 0x8000
    requires ColumnOf(t, lumps, init, x).count != 0
    ensures LastCover(t, lumps, |lumps|, x).Some?
    ensures
      var i := LastCover(t, lumps, |lumps|, x).value;
      ColumnOf(t, lumps, init, x) ==
        Col(Wrap8(CoverCount(t, lumps, |lumps|, x)), t.patches[i].patch,
            ToUShort(lumps[i].columnofs[x - t.patches[i].originx] + 3))
  {
    assert init[x].count == 0;
  }

  /** A column some patch covers takes a lump number, never -1, while lump numbers fit in a short. */
  lemma CoveredLump(t: Texture, lumps: seq<PatchLump>, init: seq<Col>, i: nat, x: nat)
    requires ValidLumps(t, lumps) && x < |init|
    requires forall j :: 0 <= j < |t.patches| ==> 0 <= t.patches[j].patch < 0x8000
    requires i < |lumps| && Covers(t.patches[i], lumps[i], t.width, x)
    ensures ColumnOf(t, lumps, init, x).lump >= 0
  {
    CoverHasLast(t, lumps, |lumps|, i, x);
  }

  /** In a texture whose columns all have a patch, the second pass sorts each column by its counter. */
  lemma ClassifiedColumn(cols: seq<Col>, height: nat, lk: Lookup, x: nat)
    requires Classified(cols, height, lk) && lk.stop == |cols| && x < |cols|
    ensures cols[x].count != 0
    ensures cols[x].count > 1 ==> lk.lump[x] == -1 && lk.ofs[x] == Offset(cols, height, x)
    ensures cols[x].count <= 1 ==> lk.lump[x] == cols[x].lump && lk.ofs[x] == cols[x].ofs
  {
    assert ClassifiedUpTo(cols, height, lk.lump, lk.ofs, lk.stop);
  }

  /** The slice of a composited column ends before the slices of the columns after it start. */
  lemma {:induction false} OffsetIncreases(cols: seq<Col>, height: nat, x: nat, y: nat)
    requires x < y <= |cols| && cols[x].count > 1
    ensures Offset(cols, height, y) >= Offset(cols, height, x) + height
    decreases y - x
  {
    if y > x + 1 {
      OffsetIncreases(cols, height, x, y - 1);
    }
  }

  /** n is a power of two. */
  predicate IsPow2(n: int)
    decreases n
  {
    n >= 1 && (n == 1 || (n % 2 == 0 && IsPow2(n / 2)))
  }

  /**
   * The power-of-two loop of R_InitTextures and the mask it leaves: one
   * less than the largest power of two not above the width (0 for widths
   * below 2).
   */
  method WidthMask(width: int) returns (mask: int)
    ensures IsPow2(mask + 1)
    ensures width >= 1 ==> mask + 1 <= width < 2 * (mask + 1)
    ensures width < 2 ==> mask == 0
  {
    var j := 1;
    while j * 2 <= width
      invariant IsPow2(j)
      invariant width >= 1 ==> j <= width
      invariant j > 1 ==> j <= width
      decreases width - j
    {
      assert (2 * j) / 2 == j;
      j := 2 * j;
    }
    mask := j - 1;
  }

  /**
   * `col & mask` for a mask one less than a power of two keeps the low
   * bits of the two's-complement value, which is the Euclidean remainder.
   */
  function MaskColumn(col: int, mask: int): (c: int)
    requires IsPow2(mask + 1)
    ensures 0 <= c <= mask
  {
    col % (mask + 1)
  }

  /** Masking forgets whole multiples of the mask's power of two. */
  lemma MaskPeriodic(col: int, mask: int, k: int)
    requires IsPow2(mask + 1)
    ensures MaskColumn(col + k * (mask + 1), mask) == MaskColumn(col, mask)
  {
    var m := mask + 1;
    assert col + k * m == (col / m + k) * m + col % m;
    DivModUnique(col + k * m, m, col / m + k, col % m);
  }

  /** A column already within the mask is left as it is. */
  lemma MaskInRange(col: int, mask: int)
    requires IsPow2(mask + 1) && 0 <= col <= mask
    ensures MaskColumn(col, mask) == col
  {
    DivModUnique(col, mask + 1, 0, col);
  }
}

=== FILE: texture_names.dfy ===
/**
 * Texture names: how R_InitTextures stores the name of each texture, and
 * how R_CheckTextureNumForName and R_TextureNumForName find a texture by
 * name. Names are C character arrays of at most eight characters; a name
 * that fills all eight has no terminating NUL.
 */
module TextureNames {
  const NUL: char := 0 as char
  /** The length of a name field in a WAD lump and in texture_t. */
  const NAME_LEN: int := 8

  /** Character k of a C string; reading past the end of the sequence reads NUL. */
  function At(s: seq<char>, k: nat): char {
    if k < |s| then s[k] else NUL
  }

  /** The uppercasing R_InitTextures applies: 'a'..'z' lose 32, everything else stays. */
  function Upper(c: char): (u: char)
    ensures 'a' <= c <= 'z' ==> 'A' <= u <= 'Z' && u as int == c as int - 32
    ensures !('a' <= c <= 'z') ==> u == c
  {
    if 'a' <= c <= 'z' then (c as int - 32) as char else c
  }

  /** tolower in the C locale, as strncasecmp applies it. */
  function Lower(c: char): (l: char)
    ensures 'A' <= c <= 'Z' ==> 'a' <= l <= 'z' && l as int == c as int + 32
    ensures !('A' <= c <= 'Z') ==> l == c
  {
    if 'A' <= c <= 'Z' then (c as int + 32) as char else c
  }

  /** Case folding is the same before and after uppercasing. */
  lemma LowerUpper(c: char)
    ensures Lower(Upper(c)) == Lower(c)
  {
  }

  /**
   * strncasecmp(a, b, 8) == 0, from position k on: characters are compared
   * after tolower, and the comparison stops equal at a common NUL or after
   * the eighth character.
   */
  function SameFrom(a: seq<char>, b: seq<char>, k: nat): bool
    requires k <= NAME_LEN
    decreases NAME_LEN - k
  {
    if k == NAME_LEN then true
    else if Lower(At(a, k)) != Lower(At(b, k)) then false
    else if At(a, k) == NUL then true
    else SameFrom(a, b, k + 1)
  }

  /** strncasecmp(a, b, 8) == 0. */
  predicate SameName(a: seq<char>, b: seq<char>) {
    SameFrom(a, b, 0)
  }

  /**
   * The name a comparison actually sees from position k: the characters
   * before the first NUL and before position 8, case-folded.
   */
  function Key(s: seq<char>, k: nat): (r: seq<char>)
    requires k <= NAME_LEN
    ensures |r| <= NAME_LEN - k
    ensures forall j :: 0 <= j < |r| ==> r[j] == Lower(At(s, k + j)) && At(s, k + j) != NUL
    decreases NAME_LEN - k
  {
    if k == NAME_LEN || At(s, k) == NUL then [] else [Lower(At(s, k))] + Key(s, k + 1)
  }

  /** Lower maps only NUL to NUL. */
  lemma LowerNul(c: char)
    ensures Lower(c) == NUL <==> c == NUL
  {
  }

  /** Two names compare equal from k exactly when their keys from k agree. */
  lemma {:induction false} SameFromIsKey(a: seq<char>, b: seq<char>, k: nat)
    requires k <= NAME_LEN
    ensures SameFrom(a, b, k) <==> Key(a, k) == Key(b, k)
    decreases NAME_LEN - k
  {
    if k < NAME_LEN {
      LowerNul(At(a, k));
      LowerNul(At(b, k));
      if Lower(At(a, k)) == Lower(At(b, k)) && At(a, k) != NUL {
        SameFromIsKey(a, b, k + 1);
        var ka, kb := Key(a, k + 1), Key(b, k + 1);
        assert Key(a, k) == [Lower(At(a, k))] + ka;
        assert Key(b, k) == [Lower(At(b, k))] + kb;
        if Key(a, k) == Key(b, k) {
          assert ka == Key(a, k)[1..];
        }
      } else if Lower(At(a, k)) != Lower(At(b, k)) {
        if At(a, k) != NUL && At(b, k) != NUL {
          assert Key(a, k)[0] != Key(b, k)[0];
        }
      }
    }
  }

  /** strncasecmp over 8 characters compares the keys of the two names. */
  lemma SameNameIsKey(a: seq<char>, b: seq<char>)
    ensures SameName(a, b) <==> Key(a, 0) == Key(b, 0)
  {
    SameFromIsKey(a, b, 0);
  }

  /**
   * The stored name as R_InitTextures writes it: the eight bytes of the
   * lump's name field, uppercased, and then byte 7 overwritten with NUL.
   */
  function StoredNameAsWritten(raw: seq<char>): (r: seq<char>)
    requires |raw| == NAME_LEN
    ensures |r| == NAME_LEN && r[7] == NUL
    ensures forall k :: 0 <= k < 7 ==> r[k] == Upper(raw[k])
  {
    seq(NAME_LEN, k requires 0 <= k < NAME_LEN => if k == 7 then NUL else Upper(raw[k]))
  }

  /**
   * The stored name as intended: texture_t holds eight characters, and a
   * name that fills them all is found by the eight-character comparison.
   */
  function StoredName(raw: seq<char>): (r: seq<char>)
    requires |raw| == NAME_LEN
    ensures |r| == NAME_LEN
    ensures forall k :: 0 <= k < NAME_LEN ==> r[k] == Upper(raw[k])
  {
    seq(NAME_LEN, k requires 0 <= k < NAME_LEN => Upper(raw[k]))
  }

  /** Uppercasing keeps NUL and nothing else at NUL. */
  lemma UpperNul(c: char)
    ensures Upper(c) == NUL <==> c == NUL
  {
  }

  /** A stored name is found by the name it was stored from, in any case. */
  lemma {:induction false} StoredNameFound(raw: seq<char>, k: nat)
    requires |raw| == NAME_LEN && k <= NAME_LEN
    ensures SameFrom(StoredName(raw), raw, k)
    decreases NAME_LEN - k
  {
    if k < NAME_LEN {
      LowerUpper(raw[k]);
      UpperNul(raw[k]);
      StoredNameFound(raw, k + 1);
    }
  }

  /** The names R_InitTextures stores, one per texture, in texture order. */
  function LoadNames(raws: seq<seq<char>>): (names: seq<seq<char>>)
    requires forall i :: 0 <= i < |raws| ==> |raws[i]| == NAME_LEN
    ensures |names| == |raws|
    ensures forall i :: 0 <= i < |raws| ==> names[i] == StoredName(raws[i])
  {
    seq(|raws|, i requires 0 <= i < |raws| => StoredName(raws[i]))
  }

  /** No texture in [lo, hi) has the name. */
  predicate NoneNamed(names: seq<seq<char>>, name: seq<char>, lo: int, hi: int)
    requires 0 <= lo <= hi <= |names|
  {
    forall j :: lo <= j < hi ==> !SameName(names[j], name)
  }

  /** The first texture at or after i whose stored name compares equal, or -1. */
  function FindFrom(names: seq<seq<char>>, name: seq<char>, i: nat): (r: int)
    requires i <= |names|
    ensures r == -1 || (i <= r < |names| && SameName(names[r], name))
    decreases |names| - i
  {
    if i == |names| then -1
    else if SameName(names[i], name) then i
    else FindFrom(names, name, i + 1)
  }

  /** FindFrom misses exactly when no later texture matches, and a hit is the first one. */
  lemma {:induction false} FindFromFirst(names: seq<seq<char>>, name: seq<char>, i: nat)
    requires i <= |names|
    ensures FindFrom(names, name, i) == -1 <==> NoneNamed(names, name, i, |names|)
    ensures FindFrom(names, name, i) != -1 ==> NoneNamed(names, name, i, FindFrom(names, name, i))
    decreases |names| - i
  {
    if i < |names| && !SameName(names[i], name) {
      FindFromFirst(names, name, i + 1);
    }
  }

  /**
   * R_CheckTextureNumForName: a name starting with '-' is the "no
   * texture" marker and gives 0; otherwise the first texture whose name
   * compares equal, or -1.
   */
  function CheckTextureNumForName(names: seq<seq<char>>, name: seq<char>): (r: int)
    ensures At(name, 0) == '-' ==> r == 0
    ensures At(name, 0) != '-' ==> (r == -1 <==> NoneNamed(names, name, 0, |names|))
    ensures At(name, 0) != '-' && r != -1 ==>
      0 <= r < |names| && SameName(names[r], name) && NoneNamed(names, name, 0, r)
  {
    if At(name, 0) == '-' then 0
    else
      FindFromFirst(names, name, 0);
      FindFrom(names, name, 0)
  }

  /**
   * R_TextureNumForName: a name that is not found no longer stops the
   * game; it falls back to texture 0 when any textures exist, and -1
   * otherwise.
   */
  function TextureNumForName(names: seq<seq<char>>, name: seq<char>): (r: int)
    ensures At(name, 0) == '-' ==> r == 0
    ensures At(name, 0) != '-' && NoneNamed(names, name, 0, |names|) ==> r == (if |names| > 0 then 0 else -1)
    ensures At(name, 0) != '-' && !NoneNamed(names, name, 0, |names|) ==>
      0 <= r < |names| && SameName(names[r], name) && NoneNamed(names, name, 0, r)
  {
    var i := CheckTextureNumForName(names, name);
    if i == -1 then (if |names| > 0 then 0 else -1) else i
  }

  /**
   * With the names stored as intended, every texture whose name does not
   * start with '-' is found by its own lump name: at its own index or at
   * an earlier texture of the same name.
   */
  lemma StoredNamesFound(raws: seq<seq<char>>, i: nat)
    requires forall j :: 0 <= j < |raws| ==> |raws[j]| == NAME_LEN
    requires i < |raws| && raws[i][0] != '-'
    ensures 0 <= CheckTextureNumForName(LoadNames(raws), raws[i]) <= i
    ensures SameName(LoadNames(raws)[CheckTextureNumForName(LoadNames(raws), raws[i])], raws[i])
  {
    var names := LoadNames(raws);
    StoredNameFound(raws[i], 0);
    assert SameName(names[i], raws[i]);
    FindFromFirst(names, raws[i], 0);
  }

  /**
   * As written, a texture whose name fills all eight characters is never
   * found by that name: the stored copy stops at seven characters, and
   * the comparison goes on to the eighth.
   */
  lemma FullNameMissedAsWritten(raw: seq<char>)
    requires |raw| == NAME_LEN && forall k :: 0 <= k < NAME_LEN ==> raw[k] != NUL
    ensures !SameName(StoredNameAsWritten(raw), raw)
  {
    var s := StoredNameAsWritten(raw);
    SameNameIsKey(s, raw);
    assert |Key(raw, 0)| == NAME_LEN by { FullKey(raw, 0); }
    assert At(s, 7) == NUL;
    assert |Key(s, 0)| != NAME_LEN;
  }

  /** The key of a name with no NUL in its first eight characters has all eight. */
  lemma {:induction false} FullKey(raw: seq<char>, k: nat)
    requires |raw| == NAME_LEN && forall j :: 0 <= j < NAME_LEN ==> raw[j] != NUL
    requires k <= NAME_LEN
    ensures |Key(raw, k)| == NAME_LEN - k
    decreases NAME_LEN - k
  {
    if k < NAME_LEN {
      FullKey(raw, k + 1);
    }
  }

  /**
   * A concrete instance: with the one texture "BIGDOOR1" stored as
   * written, looking the name up misses, and R_TextureNumForName
   * substitutes texture 0.
   */
  lemma BigDoorMissedAsWritten()
    ensures CheckTextureNumForName([StoredNameAsWritten("BIGDOOR1")], "BIGDOOR1") == -1
    ensures CheckTextureNumForName([StoredName("BIGDOOR1")], "BIGDOOR1") == 0
  {
    FullNameMissedAsWritten("BIGDOOR1");
    StoredNameFound("BIGDOOR1", 0);
  }
}

=== FILE: video.dfy ===
/**
 * The input and output halves of i_video_win.c: the virtual-key map, the
 * gamma-corrected palette, the 8-bit to 32-bit BGRA conversion of the
 * screen, and the events I_StartTic posts for the window messages it
 * drains.
 */
module Video {
  import opened CTypes

  const SCREENWIDTH: int := 320
  const SCREENHEIGHT: int := 200
  const PALETTE_BYTES: int := 256 * 3
  /** The number of gamma levels gammatable holds. */
  const GAMMA_LEVELS: int := 5

  // ---------------------------------------------------------------------
  // Windows virtual-key codes

  const VK_BACK: int := 0x08
  const VK_TAB: int := 0x09
  const VK_RETURN: int := 0x0d
  const VK_SHIFT: int := 0x10
  const VK_CONTROL: int := 0x11
  const VK_MENU: int := 0x12
  const VK_PAUSE: int := 0x13
  const VK_ESCAPE: int := 0x1b
  const VK_SPACE: int := 0x20
  const VK_LEFT: int := 0x25
  const VK_UP: int := 0x26
  const VK_RIGHT: int := 0x27
  const VK_DOWN: int := 0x28
  const VK_ADD: int := 0x6b
  const VK_SUBTRACT: int := 0x6d
  const VK_F1: int := 0x70
  const VK_F10: int := 0x79
  const VK_F11: int := 0x7a
  const VK_F12: int := 0x7b
  const VK_OEM_PLUS: int := 0xbb
  const VK_OEM_MINUS: int := 0xbd

  // ---------------------------------------------------------------------
  // Game key codes

  const KEY_RIGHTARROW: int := 0xae
  const KEY_LEFTARROW: int := 0xac
  const KEY_UPARROW: int := 0xad
  const KEY_DOWNARROW: int := 0xaf
  const KEY_ESCAPE: int := 27
  const KEY_ENTER: int := 13
  const KEY_TAB: int := 9
  const KEY_BACKSPACE: int := 127
  const KEY_PAUSE: int := 0xff
  const KEY_EQUALS: int := 0x3d
  const KEY_MINUS: int := 0x2d
  const KEY_RSHIFT: int := 0x80 + 0x36
  const KEY_RCTRL: int := 0x80 + 0x1d
  const KEY_RALT: int := 0x80 + 0x38

  /** The game code of function key F(n), 1 <= n <= 12: F1..F10 are 0x80 + 0x3b.., F11 and F12 0x80 + 0x57, 0x58. */
  function FKey(n: int): int
    requires 1 <= n <= 12
  {
    if n <= 10 then 0x80 + 0x3a + n else 0x80 + 0x4c + n
  }

  /**
   * The keys both window procedures translate the same way, whatever
   * they do with the rest: arrows, Escape, Enter, Tab, the function keys,
   * Backspace, Pause, plus and minus (main keyboard and keypad), Shift,
   * Ctrl and Alt. None for every other code.
   */
  function CommonKey(vk: int): (k: int)
    ensures k != 0 ==> 0 < k < 0x100
  {
    if vk == VK_LEFT then KEY_LEFTARROW
    else if vk == VK_RIGHT then KEY_RIGHTARROW
    else if vk == VK_UP then KEY_UPARROW
    else if vk == VK_DOWN then KEY_DOWNARROW
    else if vk == VK_ESCAPE then KEY_ESCAPE
    else if vk == VK_RETURN then KEY_ENTER
    else if vk == VK_TAB then KEY_TAB
    else if VK_F1 <= vk <= VK_F12 then FKey(vk - VK_F1 + 1)
    else if vk == VK_BACK then KEY_BACKSPACE
    else if vk == VK_PAUSE then KEY_PAUSE
    else if vk == VK_ADD || vk == VK_OEM_PLUS then KEY_EQUALS
    else if vk == VK_SUBTRACT || vk == VK_OEM_MINUS then KEY_MINUS
    else if vk == VK_SHIFT then KEY_RSHIFT
    else if vk == VK_CONTROL then KEY_RCTRL
    else if vk == VK_MENU then KEY_RALT
    else 0
  }

  /** A code CommonKey translates. */
  predicate Common(vk: int) {
    CommonKey(vk) != 0
  }

  /** The movement and use keys i_video_win.c adds: W A S D as the arrows, E as the use key (space). */
  function GameKey(vk: int): int {
    if vk == 'W' as int then KEY_UPARROW
    else if vk == 'S' as int then KEY_DOWNARROW
    else if vk == 'A' as int then KEY_LEFTARROW
    else if vk == 'D' as int then KEY_RIGHTARROW
    else if vk == 'E' as int then ' ' as int
    else 0
  }

  /**
   * VK_to_DoomKey of i_video_win.c: the common keys, then W A S D E, then
   * any other code in ' '..'Z' as itself, and 0 (no key) for the rest.
   */
  function VideoKey(vk: int): (k: int)
    ensures 0 <= k < 0x100
    ensures Common(vk) ==> k == CommonKey(vk)
    ensures !Common(vk) && GameKey(vk) != 0 ==> k == GameKey(vk)
    ensures !Common(vk) && GameKey(vk) == 0 ==> k == (if ' ' as int <= vk <= 'Z' as int then vk else 0)
  {
    if Common(vk) then CommonKey(vk)
    else if GameKey(vk) != 0 then GameKey(vk)
    else if ' ' as int <= vk <= 'Z' as int then vk
    else 0
  }

  /** W A S D move exactly as the arrow keys do, and E acts as the space bar. */
  lemma MovementKeys()
    ensures VideoKey('W' as int) == VideoKey(VK_UP) && VideoKey('S' as int) == VideoKey(VK_DOWN)
    ensures VideoKey('A' as int) == VideoKey(VK_LEFT) && VideoKey('D' as int) == VideoKey(VK_RIGHT)
    ensures VideoKey('E' as int) == VideoKey(VK_SPACE) == ' ' as int
  {
  }

  /** The function keys give 0x80 + 0x3b .. 0x80 + 0x44 for F1..F10, and 0x80 + 0x57, 0x80 + 0x58 for F11, F12. */
  lemma FunctionKeys(n: int)
    requires 1 <= n <= 12
    ensures n <= 10 ==> VideoKey(VK_F1 + n - 1) == 0x80 + 0x3b + n - 1
    ensures n == 11 ==> VideoKey(VK_F11) == 0x80 + 0x57
    ensures n == 12 ==> VideoKey(VK_F12) == 0x80 + 0x58
  {
  }

  // ---------------------------------------------------------------------
  // Palette

  /** A gamma table as v_video.c holds it: GAMMA_LEVELS rows of 256 bytes. */
  predicate GammaTable(gamma: seq<seq<byte>>) {
    |gamma| == GAMMA_LEVELS && forall g :: 0 <= g < GAMMA_LEVELS ==> |gamma[g]| == 256
  }

  /**
   * I_SetPalette: every byte of the 768-byte palette goes through row
   * usegamma of the gamma table.
   */
  method SetPalette(gamma: seq<seq<byte>>, usegamma: int, palette: seq<byte>) returns (pal: seq<byte>)
    requires GammaTable(gamma) && 0 <= usegamma < GAMMA_LEVELS && |palette| >= PALETTE_BYTES
    ensures |pal| == PALETTE_BYTES
    ensures forall k :: 0 <= k < PALETTE_BYTES ==> pal[k] == gamma[usegamma][palette[k]]
  {
    var row := gamma[usegamma];
    pal := [];
    var i := 0;
    while i < 256
      invariant 0 <= i <= 256 && |pal| == 3 * i
      invariant forall k :: 0 <= k < 3 * i ==> pal[k] == row[palette[k]]
    {
      pal := pal + [row[palette[3 * i]], row[palette[3 * i + 1]], row[palette[3 * i + 2]]];
      i := i + 1;
    }
  }

  /** An RGB colour. */
  datatype Rgb = Rgb(r: byte, g: byte, b: byte)

  /** Colour number idx of a palette: bytes 3 idx, 3 idx + 1, 3 idx + 2 are red, green, blue. */
  function PaletteColour(pal: seq<byte>, idx: byte): Rgb
    requires |pal| == PALETTE_BYTES
  {
    Rgb(pal[idx as int * 3], pal[idx as int * 3 + 1], pal[idx as int * 3 + 2])
  }

  /** One pixel of the 32-bit DIB, in memory order: blue, green, red, then an unused byte. */
  datatype Bgra = Bgra(b: byte, g: byte, r: byte, a: byte)

  /**
   * The conversion loop of I_FinishUpdate: the 320 x 200 screen is read
   * row by row, left to right, and each byte, a colour number, becomes the
   * palette's blue, green and red bytes and 255.
   */
  method ToBgra(screen: seq<byte>, pal: seq<byte>) returns (out: seq<Bgra>)
    requires |screen| == SCREENWIDTH * SCREENHEIGHT && |pal| == PALETTE_BYTES
    ensures |out| == |screen|
    ensures forall p :: 0 <= p < |screen| ==> Colour(out[p]) == PaletteColour(pal, screen[p]) && out[p].a == 255
  {
    out := [];
    var y := 0;
    while y < SCREENHEIGHT
      invariant 0 <= y <= SCREENHEIGHT && |out| == y * SCREENWIDTH
      invariant forall p :: 0 <= p < |out| ==> Colour(out[p]) == PaletteColour(pal, screen[p]) && out[p].a == 255
    {
      var x := 0;
      while x < SCREENWIDTH
        invariant 0 <= x <= SCREENWIDTH && |out| == y * SCREENWIDTH + x
        invariant forall p :: 0 <= p < |out| ==> Colour(out[p]) == PaletteColour(pal, screen[p]) && out[p].a == 255
      {
        var idx := screen[y * SCREENWIDTH + x] as int;
        out := out + [Bgra(pal[idx * 3 + 2], pal[idx * 3 + 1], pal[idx * 3 + 0], 255)];
        x := x + 1;
      }
      y := y + 1;
    }
  }

  /** The colour of a DIB pixel, read back in red, green, blue order. */
  function Colour(q: Bgra): Rgb {
    Rgb(q.r, q.g, q.b)
  }

  /** A gamma-corrected palette shows colour idx as the gamma row applied to the game palette's colour idx. */
  lemma GammaColour(gamma: seq<seq<byte>>, usegamma: int, palette: seq<byte>, pal: seq<byte>, idx: byte)
    requires GammaTable(gamma) && 0 <= usegamma < GAMMA_LEVELS && |palette| >= PALETTE_BYTES
    requires |pal| == PALETTE_BYTES && forall k :: 0 <= k < PALETTE_BYTES ==> pal[k] == gamma[usegamma][palette[k]]
    ensures PaletteColour(pal, idx) ==
      Rgb(gamma[usegamma][palette[idx as int * 3]], gamma[usegamma][palette[idx as int * 3 + 1]],
          gamma[usegamma][palette[idx as int * 3 + 2]])
  {
  }

  // ---------------------------------------------------------------------
  // Events

  datatype EvType = KeyDown | KeyUp | Mouse

  /** event_t: the type and three data words. */
  datatype Event = Event(kind: EvType, data1: int, data2: int, data3: int)

  /** The mouse button bits of a button message's wParam. */
  const MK_LBUTTON: int := 0x01
  const MK_RBUTTON: int := 0x02
  const MK_MBUTTON: int := 0x10

  /** wParam & flag != 0, for a flag that is a single bit. */
  predicate HasFlag(w: int, flag: int)
    requires flag > 0
  {
    (w / flag) % 2 == 1
  }

  /**
   * The window messages I_StartTic reacts to. A mouse move carries where
   * GetCursorPos finds the cursor when the message is handled; a wheel
   * message carries the signed wheel delta; a button message its wParam.
   * Close is a WM_CLOSE that DispatchMessage hands to the main window
   * procedure.
   */
  datatype Msg =
    | Quit
    | Close
    | KeyMsg(down: bool, vk: int)
    | Wheel(delta: int)
    | MouseMove(x: int, y: int)
    | Button(wparam: int)
    | OtherMsg

  /** A screen position. */
  datatype Point = Point(x: int, y: int)

  /**
   * What I_StartTic remembers between messages: whether the mouse is
   * locked, the last cursor position it measured from, and the quit flag
   * of win_main.c.
   */
  datatype TicState = TicState(locked: bool, last: Point, quit: bool)

  /** The mouse button mask of a button event: left 1, right 2, middle 4. */
  function ButtonMask(w: int): (mask: int)
    ensures 0 <= mask <= 7
    ensures (mask % 2 == 1) == HasFlag(w, MK_LBUTTON)
    ensures ((mask / 2) % 2 == 1) == HasFlag(w, MK_RBUTTON)
    ensures (mask / 4 == 1) == HasFlag(w, MK_MBUTTON)
  {
    (if HasFlag(w, MK_LBUTTON) then 1 else 0)
      + (if HasFlag(w, MK_RBUTTON) then 2 else 0)
      + (if HasFlag(w, MK_MBUTTON) then 4 else 0)
  }

  /** The events one message posts, and the state after it. */
  datatype Step = Step(events: seq<Event>, st: TicState)

  /**
   * One message of the I_StartTic loop, other than WM_QUIT: a key with a
   * game code posts a key down or up event; the wheel posts a key down of
   * '-' (up) or '=' (down); a locked mouse that moved posts its movement
   * times 8, y inverted, and is re-centred; a button posts its mask.
   * Every message is then dispatched, and the window procedure answers
   * WM_CLOSE by requesting quit; the loop goes on.
   */
  function Translate(st: TicState, center: Point, m: Msg): Step
    requires !m.Quit?
  {
    match m
    case KeyMsg(down, vk) =>
      var key := VideoKey(vk);
      if key != 0 then Step([Event(if down then KeyDown else KeyUp, key, 0, 0)], st) else Step([], st)
    case Wheel(delta) =>
      Step([Event(KeyDown, if delta > 0 then 0x2d else 0x3d, 0, 0)], st)
    case MouseMove(x, y) =>
      if !st.locked then Step([], st)
      else
        var dx, dy := x - st.last.x, y - st.last.y;
        if dx != 0 || dy != 0 then Step([Event(Mouse, 0, dx * 8, -dy * 8)], st.(last := center))
        else Step([], st)
    case Button(w) => Step([Event(Mouse, ButtonMask(w), 0, 0)], st)
    case Close => Step([], st.(quit := true))
    case OtherMsg => Step([], st)
  }

  /**
   * The message loop of I_StartTic over the queued messages: each is
   * translated in order; WM_QUIT sets the quit flag and ends the loop,
   * leaving later messages queued.
   */
  function Drain(st: TicState, center: Point, msgs: seq<Msg>): Step
    decreases |msgs|
  {
    if |msgs| == 0 then Step([], st)
    else if msgs[0].Quit? then Step([], st.(quit := true))
    else
      var s := Translate(st, center, msgs[0]);
      var rest := Drain(s.st, center, msgs[1..]);
      Step(s.events + rest.events, rest.st)
  }

  /** The messages before the first WM_QUIT: the ones I_StartTic handles. */
  function Handled(msgs: seq<Msg>): (h: seq<Msg>)
    ensures |h| <= |msgs| && h == msgs[..|h|]
    ensures forall i :: 0 <= i < |h| ==> !h[i].Quit?
    ensures |h| < |msgs| ==> msgs[|h|].Quit?
    decreases |msgs|
  {
    if |msgs| == 0 || msgs[0].Quit? then [] else [msgs[0]] + Handled(msgs[1..])
  }

  /** Some message is WM_QUIT. */
  predicate HasQuit(msgs: seq<Msg>) {
    exists i :: 0 <= i < |msgs| && msgs[i].Quit?
  }

  /** Some message is a WM_CLOSE. */
  predicate HasClose(msgs: seq<Msg>) {
    exists i :: 0 <= i < |msgs| && msgs[i].Close?
  }

  /**
   * A well-formed event, the properties the game relies on: key events carry a
   * key code (never 0) and nothing else, mouse events carry a button mask
   * in 0..7, or a nonzero movement in multiples of 8.
   */
  predicate WellFormed(e: Event) {
    match e.kind
    case KeyDown => 0 < e.data1 < 0x100 && e.data2 == 0 && e.data3 == 0
    case KeyUp => 0 < e.data1 < 0x100 && e.data2 == 0 && e.data3 == 0
    case Mouse =>
      || (0 <= e.data1 <= 7 && e.data2 == 0 && e.data3 == 0)
      || (e.data1 == 0 && e.data2 % 8 == 0 && e.data3 % 8 == 0 && (e.data2 != 0 || e.data3 != 0))
  }

  /**
   * I_StartTic sets the quit flag exactly when a WM_QUIT is queued, or a
   * WM_CLOSE comes before the first WM_QUIT, or it was already set; only
   * the messages before the first WM_QUIT post events, and every event it
   * posts is well formed.
   */
  lemma {:induction false} DrainSpec(st: TicState, center: Point, msgs: seq<Msg>)
    ensures Drain(st, center, msgs).st.quit <==> st.quit || HasQuit(msgs) || HasClose(Handled(msgs))
    ensures Drain(st, center, msgs).st.locked == st.locked
    ensures Drain(st, center, msgs) == Drain(st, center, Handled(msgs)).(st := Drain(st, center, msgs).st)
    ensures forall e :: e in Drain(st, center, msgs).events ==> WellFormed(e)
    decreases |msgs|
  {
    if |msgs| > 0 && !msgs[0].Quit? {
      var s := Translate(st, center, msgs[0]);
      DrainSpec(s.st, center, msgs[1..]);
      assert Handled(msgs) == [msgs[0]] + Handled(msgs[1..]);
      assert Handled(msgs)[1..] == Handled(msgs[1..]);
      if HasQuit(msgs[1..]) {
        var i :| 0 <= i < |msgs[1..]| && msgs[1..][i].Quit?;
        assert msgs[i + 1].Quit?;
      }
      if HasQuit(msgs) {
        var i :| 0 <= i < |msgs| && msgs[i].Quit?;
        assert msgs[1..][i - 1].Quit?;
      }
      var h, h' := Handled(msgs), Handled(msgs[1..]);
      if HasClose(h') {
        var i :| 0 <= i < |h'| && h'[i].Close?;
        assert h[i + 1].Close?;
      }
      if HasClose(h) && !msgs[0].Close? {
        var i :| 0 <= i < |h| && h[i].Close?;
        assert h'[i - 1].Close?;
      }
      TranslateWellFormed(st, center, msgs[0]);
    } else if |msgs| > 0 {
      assert msgs[0].Quit?;
    }
  }

  /** Every event one message posts is well formed. */
  lemma TranslateWellFormed(st: TicState, center: Point, m: Msg)
    requires !m.Quit?
    ensures forall e :: e in Translate(st, center, m).events ==> WellFormed(e)
    ensures Translate(st, center, m).st.quit == (st.quit || m.Close?) && Translate(st, center, m).st.locked == st.locked
  {
    if m.MouseMove? && st.locked {
      var dx, dy := m.x - st.last.x, m.y - st.last.y;
      DivModUnique(dx * 8, 8, dx, 0);
      DivModUnique(-dy * 8, 8, -dy, 0);
    }
  }

  /**
   * A locked mouse that moved posts its movement, measured from the last
   * position, and is measured from the centre afterwards; an unlocked or
   * unmoved mouse posts nothing and changes nothing.
   */
  lemma MouseRecentres(st: TicState, center: Point, x: int, y: int)
    ensures Translate(st, center, MouseMove(x, y)).events != [] <==> st.locked && (x != st.last.x || y != st.last.y)
    ensures st.locked && (x != st.last.x || y != st.last.y) ==>
      && Translate(st, center, MouseMove(x, y)).st == st.(last := center)
      && Translate(st, center, MouseMove(x, y)).events == [Event(Mouse, 0, (x - st.last.x) * 8, -(y - st.last.y) * 8)]
    ensures !(st.locked && (x != st.last.x || y != st.last.y)) ==> Translate(st, center, MouseMove(x, y)).st == st
  {
  }

  /** A wheel turn is a press of the minus key (turned up) or the equals key (turned down), as the keypad sends them. */
  lemma WheelActsAsKey(st: TicState, center: Point, delta: int)
    ensures Translate(st, center, Wheel(delta)).st == st
    ensures Translate(st, center, Wheel(delta)).events ==
      [Event(KeyDown, VideoKey(if delta > 0 then VK_SUBTRACT else VK_ADD), 0, 0)]
  {
    assert VideoKey(VK_SUBTRACT) == KEY_MINUS && VideoKey(VK_ADD) == KEY_EQUALS;
  }

  /** A key message posts one event, of its own direction, exactly when the key has a game code. */
  lemma KeyPosts(st: TicState, center: Point, down: bool, vk: int)
    ensures Translate(st, center, KeyMsg(down, vk)).st == st
    ensures |Translate(st, center, KeyMsg(down, vk)).events| == (if VideoKey(vk) != 0 then 1 else 0)
    ensures VideoKey(vk) != 0 ==>
      Translate(st, center, KeyMsg(down, vk)).events[0] == Event(if down then KeyDown else KeyUp, VideoKey(vk), 0, 0)
  {
  }
}

=== FILE: winmain.dfy ===
/**
 * The pieces of win_main.c the game depends on: the quit flag the window
 * procedure and I_StartTic raise, its own virtual-key map, and the way
 * WinMain turns the process command line into myargc and myargv.
 */
module WinMain {
  import opened Video

  // ---------------------------------------------------------------------
  // Quit flag

  /** The flag s_quit_requested: 0 until something asks the program to quit. */
  datatype QuitFlag = QuitFlag(requested: bool)

  /** Win_RequestQuit. */
  function RequestQuit(f: QuitFlag): (f': QuitFlag)
    ensures f'.requested
  {
    QuitFlag(true)
  }

  /** Win_QuitRequested: the flag as the int the callers test. */
  function QuitRequested(f: QuitFlag): (r: int)
    ensures r == 0 || r == 1
    ensures r == 1 <==> f.requested
  {
    if f.requested then 1 else 0
  }

  /** The flag after one I_StartTic that begins with flag f and drains msgs. */
  function AfterTic(f: QuitFlag, st: TicState, center: Point, msgs: seq<Msg>): QuitFlag {
    QuitFlag(Drain(st.(quit := f.requested), center, msgs).st.quit)
  }

  /**
   * A tic calls Win_RequestQuit exactly when a WM_QUIT is queued or a
   * WM_CLOSE is handled before it, and leaves the flag alone otherwise; a
   * request made before the tic is never lost.
   */
  lemma TicRequestsQuit(f: QuitFlag, st: TicState, center: Point, msgs: seq<Msg>)
    ensures HasQuit(msgs) || HasClose(Handled(msgs)) ==> AfterTic(f, st, center, msgs) == RequestQuit(f)
    ensures !(HasQuit(msgs) || HasClose(Handled(msgs))) ==> AfterTic(f, st, center, msgs) == f
    ensures QuitRequested(f) == 1 ==> QuitRequested(AfterTic(f, st, center, msgs)) == 1
  {
    DrainSpec(st.(quit := f.requested), center, msgs);
  }

  // ---------------------------------------------------------------------
  // Key map

  /**
   * VK_to_DoomKey of win_main.c: the same common keys as i_video_win.c,
   * no W A S D E remapping, and any other code in ' '..'z' as itself.
   * Nothing calls it: the main window procedure answers key messages with
   * 0 and leaves them to I_StartTic, which uses the map of i_video_win.c.
   */
  function MainKey(vk: int): (k: int)
    ensures 0 <= k < 0x100
  {
    if Common(vk) then CommonKey(vk)
    else if ' ' as int <= vk <= 'z' as int then vk
    else 0
  }

  /**
   * The two key maps agree except on W A S D E, which only i_video_win.c
   * remaps, and on the codes '['..'z' it does not list, which only
   * win_main.c passes through.
   */
  lemma KeyMapsAgree(vk: int)
    ensures GameKey(vk) == 0 && !(('Z' as int) < vk <= 'z' as int && !Common(vk)) ==> MainKey(vk) == VideoKey(vk)
    ensures GameKey(vk) != 0 ==> MainKey(vk) == vk && VideoKey(vk) != vk
    ensures ('Z' as int) < vk <= 'z' as int && !Common(vk) ==> MainKey(vk) == vk && VideoKey(vk) == 0
  {
  }

  // ---------------------------------------------------------------------
  // Command line

  /** The separators WinMain splits on. */
  predicate IsBlank(c: char) {
    c == ' ' || c == '\t'
  }

  /** The first position at or after i that is not a blank, or |s|. */
  function SkipBlanks(s: seq<char>, i: nat): (j: nat)
    requires i <= |s|
    ensures i <= j <= |s| && (j == |s| || !IsBlank(s[j]))
    decreases |s| - i
  {
    if i == |s| || !IsBlank(s[i]) then i else SkipBlanks(s, i + 1)
  }

  /** The first position at or after i that is a blank, or |s|. */
  function SkipWord(s: seq<char>, i: nat): (j: nat)
    requires i <= |s|
    ensures i <= j <= |s| && (j == |s| || IsBlank(s[j]))
    decreases |s| - i
  {
    if i == |s| || IsBlank(s[i]) then i else SkipWord(s, i + 1)
  }

  /** No blank in s[i..j]. */
  predicate NoBlank(s: seq<char>, i: int, j: int)
    requires 0 <= i <= j <= |s|
  {
    forall k :: i <= k < j ==> !IsBlank(s[k])
  }

  /** SkipWord stops at the first blank: there is none before it. */
  lemma {:induction false} SkipWordIsFirst(s: seq<char>, i: nat)
    requires i <= |s|
    ensures NoBlank(s, i, SkipWord(s, i))
    decreases |s| - i
  {
    if i < |s| && !IsBlank(s[i]) {
      SkipWordIsFirst(s, i + 1);
    }
  }

  /**
   * The reference definition of the words of s from position i on: the
   * start of each maximal run of non-blank characters that begins at or
   * after i, where i is not in the middle of a word.
   */
  function WordStarts(s: seq<char>, i: nat): seq<nat>
    requires i <= |s|
    decreases |s| - i
  {
    var j := SkipBlanks(s, i);
    if j == |s| then [] else [j] + WordStarts(s, SkipWord(s, j))
  }

  /** The words after the first one: the arguments a program name is followed by. */
  function ArgStarts(s: seq<char>): seq<nat> {
    WordStarts(s, SkipWord(s, SkipBlanks(s, 0)))
  }

  /** The number of blanks in s from position i on. */
  function BlanksFrom(s: seq<char>, i: nat): nat
    requires i <= |s|
    decreases |s| - i
  {
    if i == |s| then 0 else (if IsBlank(s[i]) then 1 else 0) + BlanksFrom(s, i + 1)
  }

  /** Skipping blanks passes exactly that many blanks. */
  lemma {:induction false} SkipBlanksCount(s: seq<char>, i: nat)
    requires i <= |s|
    ensures BlanksFrom(s, i) == SkipBlanks(s, i) - i + BlanksFrom(s, SkipBlanks(s, i))
    decreases |s| - i
  {
    if i < |s| && IsBlank(s[i]) {
      SkipBlanksCount(s, i + 1);
    }
  }

  /** Skipping a word passes no blank. */
  lemma {:induction false} SkipWordCount(s: seq<char>, i: nat)
    requires i <= |s|
    ensures BlanksFrom(s, i) == BlanksFrom(s, SkipWord(s, i))
    decreases |s| - i
  {
    if i < |s| && !IsBlank(s[i]) {
      SkipWordCount(s, i + 1);
    }
  }

  /** From a blank (or the end), there are no more words than blanks: each word follows at least one. */
  lemma {:induction false} WordsAfterBlanks(s: seq<char>, i: nat)
    requires i <= |s| && (i == |s| || IsBlank(s[i]))
    ensures |WordStarts(s, i)| <= BlanksFrom(s, i)
    decreases |s| - i
  {
    var j := SkipBlanks(s, i);
    if j < |s| {
      SkipBlanksCount(s, i);
      SkipWordCount(s, j);
      WordsAfterBlanks(s, SkipWord(s, j));
    }
  }

  /** Position i is not inside a word: it is an end of s, a blank, or just after one. */
  predicate Boundary(s: seq<char>, i: nat)
    requires i <= |s|
  {
    i == 0 || i == |s| || IsBlank(s[i]) || IsBlank(s[i - 1])
  }

  /** Every word start is a non-blank character that begins its word: the one before it, if any, is a blank. */
  lemma {:induction false} WordStartsAreStarts(s: seq<char>, i: nat)
    requires i <= |s| && Boundary(s, i)
    ensures forall k :: 0 <= k < |WordStarts(s, i)| ==>
      i <= WordStarts(s, i)[k] < |s| && !IsBlank(s[WordStarts(s, i)[k]])
      && (WordStarts(s, i)[k] == 0 || IsBlank(s[WordStarts(s, i)[k] - 1]))
    ensures forall k :: 0 < k < |WordStarts(s, i)| ==> WordStarts(s, i)[k - 1] < WordStarts(s, i)[k]
    decreases |s| - i
  {
    var j := SkipBlanks(s, i);
    if j < |s| {
      var w := SkipWord(s, j);
      WordStartsAreStarts(s, w);
      if j > i {
        SkipBlanksBefore(s, i, j - 1);
      }
    }
  }

  /** Every position SkipBlanks passes over is a blank. */
  lemma {:induction false} SkipBlanksBefore(s: seq<char>, i: nat, k: int)
    requires i <= |s| && i <= k < SkipBlanks(s, i)
    ensures IsBlank(s[k])
    decreases |s| - i
  {
    if k > i {
      SkipBlanksBefore(s, i + 1, k);
    }
  }

  /**
   * The two loops of WinMain over a nonempty command line: the first
   * counts the blanks and sizes the argv array at (blanks + 1) + 1 slots;
   * the second skips leading blanks and the program name, then records
   * where every later word begins. Nothing is written into the command
   * line.
   */
  method Tokenize(cmd: seq<char>) returns (slots: int, starts: seq<nat>)
    requires |cmd| > 0
    ensures slots == BlanksFrom(cmd, 0) + 2
    ensures starts == ArgStarts(cmd)
    ensures 1 + |starts| + 1 <= slots
    ensures forall k :: 0 <= k < |starts| ==>
      0 < starts[k] < |cmd| && !IsBlank(cmd[starts[k]]) && IsBlank(cmd[starts[k] - 1])
  {
    var argc := 0;
    var q := 0;
    while q < |cmd|
      invariant 0 <= q <= |cmd| && argc + BlanksFrom(cmd, q) == BlanksFrom(cmd, 0)
    {
      if IsBlank(cmd[q]) {
        argc := argc + 1;
      }
      q := q + 1;
    }
    argc := argc + 1;
    slots := argc + 1;

    var p := 0;
    while p < |cmd| && IsBlank(cmd[p])
      invariant 0 <= p <= |cmd| && SkipBlanks(cmd, p) == SkipBlanks(cmd, 0)
    {
      p := p + 1;
    }
    starts := [];
    while p < |cmd|
      invariant 0 <= p <= |cmd| && (p == |cmd| || !IsBlank(cmd[p]))
      invariant starts + WordStarts(cmd, SkipWord(cmd, p)) == ArgStarts(cmd)
      decreases |cmd| - p
    {
      ghost var p0 := p;
      while p < |cmd| && !IsBlank(cmd[p])
        invariant p0 <= p <= |cmd| && SkipWord(cmd, p) == SkipWord(cmd, p0)
      {
        p := p + 1;
      }
      ghost var w := p;
      while p < |cmd| && IsBlank(cmd[p])
        invariant w <= p <= |cmd| && SkipBlanks(cmd, p) == SkipBlanks(cmd, w)
      {
        p := p + 1;
      }
      if p < |cmd| {
        starts := starts + [p];
      }
    }
    ArgCountFits(cmd);
    WordStartsAreStarts(cmd, SkipWord(cmd, SkipBlanks(cmd, 0)));
  }

  /** The argument words never outnumber the blanks of the command line. */
  lemma ArgCountFits(s: seq<char>)
    ensures |ArgStarts(s)| <= BlanksFrom(s, 0)
  {
    var j := SkipBlanks(s, 0);
    SkipBlanksCount(s, 0);
    SkipWordCount(s, j);
    WordsAfterBlanks(s, SkipWord(s, j));
  }

  /** The name WinMain gives the program in argv[0]. */
  const PROGRAM: seq<char> := "doom.exe"

  /**
   * myargv as WinMain leaves it: "doom.exe", then, for each recorded
   * start, the C string beginning there. No terminator is written, so each
   * string runs on to the end of the command line. An empty command line
   * gives the single entry "doom.exe".
   */
  function ArgvAsWritten(cmd: seq<char>): (argv: seq<seq<char>>)
    ensures |argv| == 1 + |ArgStarts(cmd)| && argv[0] == PROGRAM
    ensures forall k :: 1 <= k < |argv| ==> ArgStarts(cmd)[k - 1] < |cmd| && argv[k] == cmd[ArgStarts(cmd)[k - 1]..]
  {
    var starts := ArgStarts(cmd);
    WordStartsInRange(cmd);
    [PROGRAM] + seq(|starts|, k requires 0 <= k < |starts| => cmd[starts[k]..])
  }

  /** Every recorded start lies inside the command line. */
  lemma WordStartsInRange(cmd: seq<char>)
    ensures forall k :: 0 <= k < |ArgStarts(cmd)| ==> ArgStarts(cmd)[k] < |cmd|
  {
    var w := SkipWord(cmd, SkipBlanks(cmd, 0));
    WordStartsAreStarts(cmd, w);
  }

  /** The corrected myargv: each entry is its word alone, ended at the next blank. */
  function Argv(cmd: seq<char>): (argv: seq<seq<char>>)
    ensures |argv| == 1 + |ArgStarts(cmd)| && argv[0] == PROGRAM
    ensures forall k :: 1 <= k < |argv| ==>
      ArgStarts(cmd)[k - 1] < |cmd| && argv[k] == cmd[ArgStarts(cmd)[k - 1]..SkipWord(cmd, ArgStarts(cmd)[k - 1])]
  {
    var starts := ArgStarts(cmd);
    WordStartsInRange(cmd);
    [PROGRAM] + seq(|starts|, k requires 0 <= k < |starts| => cmd[starts[k]..SkipWord(cmd, starts[k])])
  }

  /**
   * The corrected arguments are words: nonempty and free of blanks, and
   * the command line has a blank (or its end) right after each. As
   * written, an entry is its word followed by the whole rest of the line.
   */
  lemma ArgvWords(cmd: seq<char>, k: int)
    requires 1 <= k < |Argv(cmd)|
    ensures |Argv(cmd)[k]| > 0 && forall c :: c in Argv(cmd)[k] ==> !IsBlank(c)
    ensures ArgvAsWritten(cmd)[k] == Argv(cmd)[k] + cmd[ArgStarts(cmd)[k - 1] + |Argv(cmd)[k]|..]
  {
    var w := SkipWord(cmd, SkipBlanks(cmd, 0));
    WordStartsAreStarts(cmd, w);
    var i := ArgStarts(cmd)[k - 1];
    SkipWordIsFirst(cmd, i);
    var a := Argv(cmd)[k];
    forall c | c in a
      ensures !IsBlank(c)
    {
      var m :| 0 <= m < |a| && a[m] == c;
      assert c == cmd[i + m];
    }
    assert cmd[i..] == cmd[i..SkipWord(cmd, i)] + cmd[SkipWord(cmd, i)..];
  }

  /**
   * As written, every argument but a final one that ends the command line
   * differs from its word: "doom -warp 1" gives "-warp 1" where "-warp" is
   * meant, so a parameter followed by anything is never recognised.
   */
  lemma WarpAsWritten()
    ensures ArgvAsWritten("doom -warp 1") == ["doom.exe", "-warp 1", "1"]
    ensures Argv("doom -warp 1") == ["doom.exe", "-warp", "1"]
  {
    var s: seq<char> := "doom -warp 1";
    assert SkipBlanks(s, 0) == 0;
    assert SkipWord(s, 0) == 4;
    assert SkipBlanks(s, 4) == 5;
    assert SkipWord(s, 5) == 10;
    assert SkipBlanks(s, 10) == 11;
    assert SkipWord(s, 11) == 12;
    assert SkipBlanks(s, 12) == 12;
    assert ArgStarts(s) == [5, 11];
    assert s[5..10] == "-warp" && s[11..12] == "1";
  }

  /**
   * WinMain's argv, corrected: an empty command line gives just
   * "doom.exe"; otherwise "doom.exe" and the words after the program name.
   * argc is |argv|, and argv[argc] is the NULL after them, in the slots
   * the first loop sized.
   */
  method CommandLine(cmd: seq<char>) returns (argv: seq<seq<char>>)
    ensures argv == Argv(cmd) && argv[0] == PROGRAM
    ensures |cmd| == 0 ==> argv == [PROGRAM]
    ensures |cmd| > 0 ==> |argv| + 1 <= BlanksFrom(cmd, 0) + 2
  {
    if |cmd| > 0 {
      var slots, starts := Tokenize(cmd);
      WordStartsInRange(cmd);
      argv := [PROGRAM] + seq(|starts|, k requires 0 <= k < |starts| => cmd[starts[k]..SkipWord(cmd, starts[k])]);
    } else {
      argv := [PROGRAM];
    }
  }
}

=== FILE: wrappers.dfy ===
/** Failure-carrying datatypes shared by every module of the model. */
module Wrappers {

  /** A value that may be absent: a NULL pointer, a lump that was not found. */
  datatype Option<+T> = None | Some(value: T)

  /**
   * The result of an operation that may end in I_Error. I_Error shows a
   * message box and exits the process, so a Fatal outcome is terminal:
   * no state survives it.
   */
  datatype Outcome<+T> = Ok(value: T) | Fatal(message: string)
}

=== FILE: zone.dfy ===
/**
 * The zone allocator of z_zone.c.
 *
 * The zone is one memory region carved into blocks that form a circular,
 * address-ordered list closed by a sentinel (the `blocklist` member of the
 * zone header). Here the list is a sequence: index 0 is the sentinel and
 * indices 1.. are the blocks in address order, so the successor of the last
 * block is the sentinel again. Offsets are byte offsets from the start of the
 * zone's memory region. Because the links are the order of the sequence, a
 * block's `next->prev` always leads back to it.
 *
 * Each block's `user` field is NULL (free), the constant 2 (in use, no
 * owner), the zone itself (the sentinel) or the address of an owner slot.
 * Allocation writes the payload address into the owner slot and freeing
 * writes 0 there. The slots are modelled as a map from slot address to the
 * pointer stored there.
 */
module Zone {
  import opened Wrappers

  // Purge tags, as z_zone.h numbers them.
  const PU_STATIC: int := 1
  const PU_SOUND: int := 2
  const PU_MUSIC: int := 3
  const PU_DAVE: int := 4
  const PU_LEVEL: int := 50
  const PU_LEVSPEC: int := 51
  const PU_PURGELEVEL: int := 100
  const PU_CACHE: int := 101

  /** sizeof(memblock_t) in the 64-bit layout: size, user, tag, id, next, prev. */
  const BLOCK_HEADER: int := 40
  /** sizeof(memzone_t) in the 64-bit layout: size, the sentinel block, rover. */
  const ZONE_HEADER: int := 56
  /** Where the sentinel (`blocklist`) lies inside the zone header. */
  const SENTINEL_OFFSET: int := 8
  /** A leftover larger than this is split off as a new free block. */
  const MINFRAGMENT: int := 64
  /** The `user` value of a block in use that has no owner slot. */
  const UNOWNED: nat := 2
  /** `user` values above this are treated as owner-slot addresses. */
  const OWNER_THRESHOLD: nat := 0x100
  const MAX_INT: int := 0x7fff_ffff
  /** Largest request whose rounding and header addition stay within `int`. */
  const MAX_REQUEST: int := MAX_INT - 3 - BLOCK_HEADER

  datatype User = Free | Unowned | Owner(slot: nat) | ZoneHead

  datatype Block = Block(offset: int, size: int, user: User, tag: int)

  /**
   * The zone: its total size, the block list (sentinel first), the rover
   * (index of the block where the next allocation starts looking) and the
   * contents of the owner slots the zone has written.
   */
  datatype Memzone = Memzone(size: int, blocks: seq<Block>, rover: nat, slots: map<nat, int>)

  /** The sentinel: never free, PU_STATIC, so never merged or purged. Its size field is never read. */
  const SENTINEL: Block := Block(SENTINEL_OFFSET, 0, ZoneHead, PU_STATIC)

  /** The integer value held in a block's `user` field. */
  function RawUser(u: User): nat
    requires !u.ZoneHead?
  {
    match u
    case Free => 0
    case Unowned => UNOWNED
    case Owner(a) => a
  }

  predicate IsFree(b: Block) {
    b.user.Free?
  }

  predicate Purgeable(b: Block) {
    b.tag >= PU_PURGELEVEL
  }

  /** `block->next` in a ring of n entries. */
  function Next(n: nat, i: nat): nat
    requires i < n
  {
    if i + 1 == n then 0 else i + 1
  }

  /** `block->prev` in a ring of n entries. */
  function Prev(n: nat, i: nat): nat
    requires i < n
  {
    if i == 0 then n - 1 else i - 1
  }

  /** Number of steps forward from a to b in a ring of n entries. */
  function Dist(n: nat, a: nat, b: nat): nat
    requires a < n && b < n
  {
    if a <= b then b - a else b + n - a
  }

  predicate WellFormedBlock(b: Block) {
    && b.size > 0
    && !b.user.ZoneHead?
    && (b.user.Owner? ==> b.user.slot > OWNER_THRESHOLD)
  }

  /** Each block ends where its successor begins (Z_CheckHeap's first test). */
  predicate Contiguous(s: seq<Block>) {
    forall i :: 1 <= i < |s| - 1 ==> s[i].offset + s[i].size == s[i + 1].offset
  }

  /** No two consecutive free blocks (Z_CheckHeap's third test). */
  predicate NoAdjacentFree(s: seq<Block>) {
    forall i :: 1 <= i < |s| - 1 ==> !(IsFree(s[i]) && IsFree(s[i + 1]))
  }

  /** Everything but the no-two-free-blocks rule. */
  predicate Layout(z: Memzone) {
    && |z.blocks| >= 2
    && z.blocks[0] == SENTINEL
    && z.rover < |z.blocks|
    && z.blocks[1].offset == ZONE_HEADER
    && z.blocks[|z.blocks| - 1].offset + z.blocks[|z.blocks| - 1].size == z.size
    && (forall i :: 1 <= i < |z.blocks| ==> WellFormedBlock(z.blocks[i]))
    && Contiguous(z.blocks)
  }

  /** The zone invariant every operation keeps. */
  predicate Valid(z: Memzone) {
    Layout(z) && NoAdjacentFree(z.blocks)
  }

  /** The blocks in use, in address order (the sentinel included). */
  function Live(s: seq<Block>): seq<Block> {
    if |s| == 0 then [] else (if IsFree(s[0]) then [] else [s[0]]) + Live(s[1..])
  }

  lemma LiveAppend(a: seq<Block>, b: seq<Block>)
    ensures Live(a + b) == Live(a) + Live(b)
  {
    if |a| > 0 {
      assert (a + b)[1..] == a[1..] + b;
      LiveAppend(a[1..], b);
    } else {
      assert a + b == b;
    }
  }

  lemma LiveSingle(b: Block)
    ensures Live([b]) == if IsFree(b) then [] else [b]
  {
    assert [b][1..] == [];
  }

  lemma LiveMembers(s: seq<Block>, x: Block)
    ensures x in Live(s) <==> x in s && !IsFree(x)
  {
    if |s| > 0 {
      LiveMembers(s[1..], x);
      assert s == [s[0]] + s[1..];
    }
  }

  /** Z_ClearZone / Z_Init: the whole region after the header becomes one free block. */
  function Init(size: int): (z: Memzone)
    requires size > ZONE_HEADER
    ensures Valid(z)
    ensures z.size == size && |z.blocks| == 2 && z.rover == 1
    ensures IsFree(z.blocks[1]) && z.blocks[1].offset == ZONE_HEADER
    ensures z.blocks[1].size == size - ZONE_HEADER
    ensures Live(z.blocks) == [SENTINEL]
  {
    var blocks := [SENTINEL, Block(ZONE_HEADER, size - ZONE_HEADER, Free, 0)];
    LiveAppend([SENTINEL], [blocks[1]]);
    LiveSingle(SENTINEL);
    LiveSingle(blocks[1]);
    assert blocks == [SENTINEL] + [blocks[1]];
    Memzone(size, blocks, 1, map[])
  }

  /** Z_ClearZone on a zone in use: the owner slots keep whatever they held. */
  function ClearZone(z: Memzone): (r: Memzone)
    requires z.size > ZONE_HEADER
    ensures Valid(r) && r.size == z.size && r.slots == z.slots
    ensures |r.blocks| == 2 && IsFree(r.blocks[1]) && r.rover == 1
  {
    Init(z.size).(slots := z.slots)
  }

  /** `s[..lo] + fs + s[hi + 1..]`: the blocks lo..hi replaced by the run fs. */
  function Splice(s: seq<Block>, lo: nat, hi: nat, fs: seq<Block>): seq<Block>
    requires lo <= hi < |s|
  {
    s[..lo] + fs + s[hi + 1..]
  }

  lemma SpliceAt(s: seq<Block>, lo: nat, hi: nat, fs: seq<Block>, k: nat)
    requires lo <= hi < |s|
    requires k < |Splice(s, lo, hi, fs)|
    ensures |Splice(s, lo, hi, fs)| == lo + |fs| + |s| - hi - 1
    ensures k < lo ==> Splice(s, lo, hi, fs)[k] == s[k]
    ensures lo <= k < lo + |fs| ==> Splice(s, lo, hi, fs)[k] == fs[k - lo]
    ensures lo + |fs| <= k ==> Splice(s, lo, hi, fs)[k] == s[k - lo - |fs| + hi + 1]
  {
  }

  /** A run of blocks that could stand in the list: well formed, touching, no two free in a row. */
  predicate GoodRun(fs: seq<Block>) {
    && |fs| >= 1
    && (forall k :: 0 <= k < |fs| ==> WellFormedBlock(fs[k]))
    && (forall k :: 0 <= k < |fs| - 1 ==> fs[k].offset + fs[k].size == fs[k + 1].offset)
    && (forall k :: 0 <= k < |fs| - 1 ==> !(IsFree(fs[k]) && IsFree(fs[k + 1])))
  }

  lemma SpliceWellFormed(s: seq<Block>, lo: nat, hi: nat, fs: seq<Block>)
    requires 1 <= lo <= hi < |s|
    requires forall i :: 1 <= i < |s| ==> WellFormedBlock(s[i])
    requires GoodRun(fs)
    ensures forall k :: 1 <= k < |Splice(s, lo, hi, fs)| ==> WellFormedBlock(Splice(s, lo, hi, fs)[k])
  {
    var t := Splice(s, lo, hi, fs);
    forall k | 1 <= k < |t|
      ensures WellFormedBlock(t[k])
    {
      SpliceAt(s, lo, hi, fs, k);
    }
  }

  lemma SpliceLinks(s: seq<Block>, lo: nat, hi: nat, fs: seq<Block>)
    requires 1 <= lo <= hi < |s|
    requires Contiguous(s) && NoAdjacentFree(s)
    requires GoodRun(fs)
    requires fs[0].offset == s[lo].offset
    requires fs[|fs| - 1].offset + fs[|fs| - 1].size == s[hi].offset + s[hi].size
    requires IsFree(fs[0]) && lo > 1 ==> !IsFree(s[lo - 1])
    requires IsFree(fs[|fs| - 1]) && hi + 1 < |s| ==> !IsFree(s[hi + 1])
    ensures Contiguous(Splice(s, lo, hi, fs)) && NoAdjacentFree(Splice(s, lo, hi, fs))
  {
    var t := Splice(s, lo, hi, fs);
    var m := |fs|;
    forall k | 1 <= k < |t| - 1
      ensures t[k].offset + t[k].size == t[k + 1].offset
      ensures !(IsFree(t[k]) && IsFree(t[k + 1]))
    {
      SpliceAt(s, lo, hi, fs, k);
      SpliceAt(s, lo, hi, fs, k + 1);
      if k + 1 == lo {
        assert t[k] == s[lo - 1] && t[k + 1] == fs[0];
      } else if lo <= k && k + 1 < lo + m {
        assert t[k] == fs[k - lo] && t[k + 1] == fs[k - lo + 1];
      } else if k + 1 == lo + m {
        assert t[k] == fs[m - 1] && t[k + 1] == s[hi + 1];
      } else if k + 1 > lo + m {
        assert t[k] == s[k - lo - m + hi + 1] && t[k + 1] == s[k - lo - m + hi + 2];
      }
    }
  }

  /**
   * Replacing the blocks lo..hi by a run fs covering the same bytes keeps
   * the zone valid when fs does not put a free block beside a free neighbour.
   */
  lemma ReplaceWindowValid(z: Memzone, lo: nat, hi: nat, fs: seq<Block>, rover: nat, slots: map<nat, int>)
    requires Valid(z)
    requires 1 <= lo <= hi < |z.blocks|
    requires GoodRun(fs)
    requires fs[0].offset == z.blocks[lo].offset
    requires fs[|fs| - 1].offset + fs[|fs| - 1].size == z.blocks[hi].offset + z.blocks[hi].size
    requires IsFree(fs[0]) ==> !IsFree(z.blocks[lo - 1])
    requires IsFree(fs[|fs| - 1]) && hi + 1 < |z.blocks| ==> !IsFree(z.blocks[hi + 1])
    requires rover < lo + |fs| + |z.blocks| - hi - 1
    ensures Valid(Memzone(z.size, Splice(z.blocks, lo, hi, fs), rover, slots))
  {
    var s := z.blocks;
    var t := Splice(s, lo, hi, fs);
    SpliceWellFormed(s, lo, hi, fs);
    SpliceLinks(s, lo, hi, fs);
    SpliceAt(s, lo, hi, fs, 0);
    SpliceAt(s, lo, hi, fs, 1);
    SpliceAt(s, lo, hi, fs, |t| - 1);
  }

  /** What Z_Free did to the list: the blocks lo..hi became one free block at lo. */
  datatype Freed = Freed(zone: Memzone, lo: nat, hi: nat)

  /** First index of the run Z_Free merges: the predecessor when it is free. */
  function MergeLo(s: seq<Block>, i: nat): (lo: nat)
    requires 1 <= i < |s|
    ensures lo == i || lo == i - 1
    ensures lo == i - 1 <==> IsFree(s[i - 1])
  {
    if IsFree(s[i - 1]) then i - 1 else i
  }

  /** Last index of the run Z_Free merges: the successor when it exists and is free. */
  function MergeHi(s: seq<Block>, i: nat): (hi: nat)
    requires i < |s|
    ensures hi == i || hi == i + 1
    ensures hi == i + 1 <==> i + 1 < |s| && IsFree(s[i + 1])
  {
    if i + 1 < |s| && IsFree(s[i + 1]) then i + 1 else i
  }

  /**
   * The free block left by Z_Free: a free predecessor absorbs the block
   * (keeping its own tag), and the result absorbs a free successor.
   */
  function MergedBlock(s: seq<Block>, lo: nat, i: nat, hi: nat): (f: Block)
    requires lo <= i <= hi < |s| && i - lo <= 1 && hi - i <= 1
    ensures IsFree(f) && f.offset == s[lo].offset
    ensures (forall k :: lo <= k < hi ==> s[k].offset + s[k].size == s[k + 1].offset) ==>
              f.offset + f.size == s[hi].offset + s[hi].size
  {
    var size := (if lo < i then s[lo].size else 0) + s[i].size + (if i < hi then s[hi].size else 0);
    Block(s[lo].offset, size, Free, if lo < i then s[lo].tag else 0)
  }

  /** Where an index into the list lands once lo..hi collapse into index lo. */
  function Collapse(x: nat, lo: nat, hi: nat): (y: nat)
    requires lo <= hi
    ensures x < lo ==> y == x
    ensures lo <= x <= hi ==> y == lo
    ensures hi < x ==> y + (hi - lo) == x
  {
    if x < lo then x else if x <= hi then lo else x - (hi - lo)
  }

  /** `if (block->user > (void **)0x100) *block->user = 0`. */
  function ReleaseSlot(slots: map<nat, int>, u: User): (r: map<nat, int>)
    requires !u.ZoneHead? && (u.Owner? ==> u.slot > OWNER_THRESHOLD)
    ensures u.Owner? ==> r == slots[u.slot := 0]
    ensures !u.Owner? ==> r == slots
  {
    if RawUser(u) > OWNER_THRESHOLD then slots[u.slot := 0] else slots
  }

  lemma MergeRunFits(s: seq<Block>, lo: nat, i: nat, hi: nat)
    requires Contiguous(s) && 1 <= i < |s| && !IsFree(s[0])
    requires lo == MergeLo(s, i) && hi == MergeHi(s, i)
    ensures lo <= i <= hi < |s| && i - lo <= 1 && hi - i <= 1
    ensures forall k :: lo <= k < hi ==> s[k].offset + s[k].size == s[k + 1].offset
  {
  }

  /** The list Z_Free leaves behind is still a valid zone. */
  lemma FreedValid(z: Memzone, i: nat, rover: nat, slots: map<nat, int>)
    requires Valid(z) && 1 <= i < |z.blocks|
    requires rover < |z.blocks| - (MergeHi(z.blocks, i) - MergeLo(z.blocks, i))
    ensures MergeLo(z.blocks, i) <= i <= MergeHi(z.blocks, i) < |z.blocks|
    ensures
      var s := z.blocks;
      var lo := MergeLo(s, i);
      var hi := MergeHi(s, i);
      Valid(Memzone(z.size, Splice(s, lo, hi, [MergedBlock(s, lo, i, hi)]), rover, slots))
  {
    var s := z.blocks;
    var lo := MergeLo(s, i);
    var hi := MergeHi(s, i);
    MergeRunFits(s, lo, i, hi);
    var f := MergedBlock(s, lo, i, hi);
    assert lo < i && lo > 1 ==> !IsFree(s[lo - 1]);
    ReplaceWindowValid(z, lo, hi, [f], rover, slots);
  }

  /**
   * The body of Z_Free for the block at index i: zero the owner slot, mark
   * the block free, merge it into a free predecessor, then merge a free
   * successor into the result, moving the rover onto the merged block when it
   * pointed at an absorbed one.
   */
  function FreeBlock(z: Memzone, i: nat): (r: Freed)
    requires Valid(z) && 1 <= i < |z.blocks|
    ensures Valid(r.zone) && r.zone.size == z.size
    ensures 1 <= r.lo <= i <= r.hi < |z.blocks|
    ensures r.lo == i - 1 <==> IsFree(z.blocks[i - 1])
    ensures r.hi == i + 1 <==> i + 1 < |z.blocks| && IsFree(z.blocks[i + 1])
    ensures r.lo == i - 1 || r.lo == i
    ensures r.hi == i + 1 || r.hi == i
    ensures |r.zone.blocks| == |z.blocks| - (r.hi - r.lo)
    ensures IsFree(r.zone.blocks[r.lo])
    ensures r.zone.blocks[r.lo].offset == z.blocks[r.lo].offset
    ensures r.zone.blocks[r.lo].offset + r.zone.blocks[r.lo].size == z.blocks[r.hi].offset + z.blocks[r.hi].size
    ensures r.zone.rover == Collapse(z.rover, r.lo, r.hi)
    ensures r.zone.slots == (if z.blocks[i].user.Owner? then z.slots[z.blocks[i].user.slot := 0] else z.slots)
  {
    var s := z.blocks;
    var lo := MergeLo(s, i);
    var hi := MergeHi(s, i);
    MergeRunFits(s, lo, i, hi);
    var f := MergedBlock(s, lo, i, hi);
    var rover := Collapse(z.rover, lo, hi);
    assert WellFormedBlock(s[i]);
    var slots := ReleaseSlot(z.slots, s[i].user);
    FreedValid(z, i, rover, slots);
    var t := Splice(s, lo, hi, [f]);
    SpliceAt(s, lo, hi, [f], lo);
    Freed(Memzone(z.size, t, rover, slots), lo, hi)
  }

  /** Z_Free replaces the merged run lo..hi by the one free block. */
  lemma FreeBlockSplices(z: Memzone, i: nat)
    requires Valid(z) && 1 <= i < |z.blocks|
    ensures
      var r := FreeBlock(z, i);
      r.zone.blocks == Splice(z.blocks, r.lo, r.hi, [r.zone.blocks[r.lo]])
  {
  }

  /** Cutting a list at i splits its blocks in use at the same place. */
  lemma {:induction false} LiveSplit(s: seq<Block>, i: nat)
    requires i < |s|
    ensures Live(s) == Live(s[..i]) + Live([s[i]]) + Live(s[i + 1..])
  {
    var a, b, c := s[..i], [s[i]], s[i + 1..];
    LiveAppend(a + b, c);
    LiveAppend(a, b);
    assert a + b + c == s;
  }

  /** Z_Free removes exactly the freed block from the blocks in use. */
  lemma {:induction false} LiveAfterFree(s: seq<Block>, lo: nat, i: nat, hi: nat, f: Block)
    requires lo <= i <= hi < |s| && i - lo <= 1 && hi - i <= 1
    requires IsFree(f)
    requires lo < i ==> IsFree(s[lo])
    requires i < hi ==> IsFree(s[hi])
    ensures Live(Splice(s, lo, hi, [f])) == Live(s[..i]) + Live(s[i + 1..])
    ensures Live(Splice(s, lo, hi, [f])[..lo + 1]) == Live(s[..i])
    ensures Live(Splice(s, lo, hi, [f])[lo + 1..]) == Live(s[i + 1..])
  {
    assert Splice(s, lo, hi, [f])[..lo + 1] == s[..lo] + [f];
    assert Splice(s, lo, hi, [f])[lo + 1..] == s[hi + 1..];
    LiveSingle(f);
    LiveAppend(s[..lo] + [f], s[hi + 1..]);
    LiveAppend(s[..lo], [f]);
    assert Live(s[..lo] + [f]) == Live(s[..i]) by {
      if lo < i {
        assert s[..i] == s[..lo] + [s[lo]];
        LiveAppend(s[..lo], [s[lo]]);
        LiveSingle(s[lo]);
      } else {
        assert s[..i] == s[..lo];
      }
    }
    assert Live(s[hi + 1..]) == Live(s[i + 1..]) by {
      if i < hi {
        assert s[i + 1..] == [s[hi]] + s[hi + 1..];
        LiveAppend([s[hi]], s[hi + 1..]);
        LiveSingle(s[hi]);
      } else {
        assert s[i + 1..] == s[hi + 1..];
      }
    }
  }

  /** Blocks outside the merged run keep their contents and shift down by the number absorbed. */
  lemma {:induction false} FreeBlockKeeps(z: Memzone, i: nat, k: nat)
    requires Valid(z) && 1 <= i < |z.blocks| && k < |z.blocks|
    ensures
      var r := FreeBlock(z, i);
      && (k < r.lo ==> r.zone.blocks[k] == z.blocks[k])
      && (r.hi < k ==> r.zone.blocks[k - (r.hi - r.lo)] == z.blocks[k])
  {
    var r := FreeBlock(z, i);
    var f := r.zone.blocks[r.lo];
    FreeBlockSplices(z, i);
    if k < r.lo {
      SpliceAt(z.blocks, r.lo, r.hi, [f], k);
    } else if r.hi < k {
      SpliceAt(z.blocks, r.lo, r.hi, [f], k - (r.hi - r.lo));
    }
  }

  /** In a valid zone the blocks after the sentinel lie at strictly increasing offsets. */
  lemma {:induction false} OffsetsIncrease(z: Memzone, j: nat, k: nat)
    requires Valid(z) && 1 <= j < k < |z.blocks|
    ensures z.blocks[j].offset < z.blocks[k].offset
    decreases k - j
  {
    assert z.blocks[j].offset + z.blocks[j].size == z.blocks[j + 1].offset;
    if j + 1 < k {
      OffsetsIncrease(z, j + 1, k);
    }
  }

  /**
   * p is the owner slot of a block that was in use in a and is no longer
   * in use in b: Z_Free of that block is what writes NULL into p.
   */
  predicate SlotReleased(a: Memzone, b: Memzone, p: nat) {
    exists x :: x in Live(a.blocks) && x !in Live(b.blocks) && x.user == Owner(p)
  }

  /** Every owner slot other than the released ones holds in b what it held in a. */
  predicate SlotsKept(a: Memzone, b: Memzone) {
    && (forall p :: p in a.slots && !SlotReleased(a, b, p) ==> p in b.slots && b.slots[p] == a.slots[p])
    && (forall p :: p in b.slots && !SlotReleased(a, b, p) ==> p in a.slots)
  }

  /**
   * Going from a to b only released blocks: no block came into use, every
   * owner whose block went away had its slot set to NULL, and no other slot
   * changed.
   */
  predicate Releases(a: Memzone, b: Memzone) {
    && (forall x :: x in Live(b.blocks) ==> x in Live(a.blocks))
    && (forall x :: x in Live(a.blocks) && x !in Live(b.blocks) && x.user.Owner? ==>
          x.user.slot in b.slots && b.slots[x.user.slot] == 0)
    && SlotsKept(a, b)
  }

  /** A release that only dropped purgeable blocks. */
  predicate Purges(a: Memzone, b: Memzone) {
    && Releases(a, b)
    && (forall x :: x in Live(a.blocks) && !Purgeable(x) ==> x in Live(b.blocks))
  }

  /** A slot released on the way from a to b or from b to c is released from a to c. */
  lemma ReleasedTrans(a: Memzone, b: Memzone, c: Memzone, p: nat)
    requires forall x :: x in Live(b.blocks) ==> x in Live(a.blocks)
    requires forall x :: x in Live(c.blocks) ==> x in Live(b.blocks)
    ensures SlotReleased(a, b, p) || SlotReleased(b, c, p) ==> SlotReleased(a, c, p)
  {
    if SlotReleased(a, b, p) {
      var x :| x in Live(a.blocks) && x !in Live(b.blocks) && x.user == Owner(p);
      assert x !in Live(c.blocks);
    } else if SlotReleased(b, c, p) {
      var x :| x in Live(b.blocks) && x !in Live(c.blocks) && x.user == Owner(p);
      assert x in Live(a.blocks);
    }
  }

  lemma ReleasesTrans(a: Memzone, b: Memzone, c: Memzone)
    requires Releases(a, b) && Releases(b, c)
    ensures Releases(a, c)
  {
    forall p | p in a.slots && !SlotReleased(a, c, p)
      ensures p in c.slots && c.slots[p] == a.slots[p]
    {
      ReleasedTrans(a, b, c, p);
    }
    forall p | p in c.slots && !SlotReleased(a, c, p)
      ensures p in a.slots
    {
      ReleasedTrans(a, b, c, p);
    }
    forall x | x in Live(a.blocks) && x !in Live(c.blocks) && x.user.Owner?
      ensures x.user.slot in c.slots && c.slots[x.user.slot] == 0
    {
      if x !in Live(b.blocks) {
        assert b.slots[x.user.slot] == 0;
        ReleasedTrans(a, b, c, x.user.slot);
        if !SlotReleased(b, c, x.user.slot) {
          assert x.user.slot in b.slots;
        }
      }
    }
  }

  lemma PurgesTrans(a: Memzone, b: Memzone, c: Memzone)
    requires Purges(a, b) && Purges(b, c)
    ensures Purges(a, c)
  {
    ReleasesTrans(a, b, c);
  }

  lemma PurgesRefl(a: Memzone)
    ensures Purges(a, a)
  {
  }

  /** Z_Free takes exactly the freed block out of the blocks in use, and splits the rest where it stood. */
  lemma {:induction false} FreeBlockLive(z: Memzone, i: nat)
    requires Valid(z) && 1 <= i < |z.blocks|
    ensures
      var r := FreeBlock(z, i);
      && Live(z.blocks) == Live(z.blocks[..i]) + Live([z.blocks[i]]) + Live(z.blocks[i + 1..])
      && Live(r.zone.blocks) == Live(z.blocks[..i]) + Live(z.blocks[i + 1..])
      && Live(r.zone.blocks[..r.lo + 1]) == Live(z.blocks[..i])
      && Live(r.zone.blocks[r.lo + 1..]) == Live(z.blocks[i + 1..])
  {
    var s := z.blocks;
    var r := FreeBlock(z, i);
    LiveSplit(s, i);
    FreeBlockSplices(z, i);
    LiveAfterFree(s, r.lo, i, r.hi, r.zone.blocks[r.lo]);
  }

  /** Freeing a block is a release; freeing a purgeable one is a purge. */
  lemma {:induction false} FreeBlockReleases(z: Memzone, i: nat)
    requires Valid(z) && 1 <= i < |z.blocks|
    ensures Releases(z, FreeBlock(z, i).zone)
    ensures Purgeable(z.blocks[i]) ==> Purges(z, FreeBlock(z, i).zone)
  {
    var s := z.blocks;
    var r := FreeBlock(z, i).zone;
    FreeBlockLive(z, i);
    LiveSingle(s[i]);
    assert WellFormedBlock(s[i]);
    forall x | x in Live(s) && x !in Live(r.blocks)
      ensures x == s[i]
    {
    }
    if s[i].user.Owner? {
      LiveMembers(s, s[i]);
      FreedGone(z, i);
      assert SlotReleased(z, r, s[i].user.slot);
    }
  }

  /** The freed block is no longer in use afterwards: no other block of a valid zone equals it. */
  lemma FreedGone(z: Memzone, i: nat)
    requires Valid(z) && 1 <= i < |z.blocks|
    ensures z.blocks[i] !in Live(FreeBlock(z, i).zone.blocks)
  {
    var s := z.blocks;
    FreeBlockLive(z, i);
    LiveMembers(s[..i], s[i]);
    LiveMembers(s[i + 1..], s[i]);
    assert WellFormedBlock(s[i]);
    forall k | 0 <= k < |s| && k != i
      ensures s[k] != s[i]
    {
      if k == 0 {
      } else if k < i {
        OffsetsIncrease(z, k, i);
      } else {
        OffsetsIncrease(z, i, k);
      }
    }
  }
}

=== FILE: zone_malloc.dfy ===
/**
 * Z_Malloc of z_zone.c: the first-fit scan from the rover that purges
 * purgeable blocks on its way, and the carving of the block it finds.
 */
module ZoneMalloc {
  import opened Wrappers
  import opened Zone
  import opened ZoneRuns

  const FAILED: string := "Z_Malloc: failed on allocation of %i bytes"
  const OWNER_REQUIRED: string := "Z_Malloc: an owner is required for purgable blocks"

  /** `(size + 3) & ~3` on a non-negative size. */
  function RoundUp4(size: int): (r: int)
    requires size >= 0
    ensures r % 4 == 0 && size <= r < size + 4
  {
    (size + 3) - (size + 3) % 4
  }

  /** The request with its rounding and the block header added. */
  function Need(size: int): (r: int)
    requires 0 <= size
    ensures r % 4 == 0 && size + BLOCK_HEADER <= r < size + BLOCK_HEADER + 4
  {
    RoundUp4(size) + BLOCK_HEADER
  }

  /** The local variables of Z_Malloc's scan. */
  datatype ScanState = ScanState(zone: Memzone, base: nat, rover: nat, start: nat)

  /**
   * What holds at the top of the scan loop: `start` is a block in use (the
   * scan gives up when the rover reaches it), the block before `base` is in
   * use, and the rover is `base` itself or, when `base` is free, the block
   * right after it.
   */
  predicate ScanInv(st: ScanState) {
    var s := st.zone.blocks;
    && Valid(st.zone)
    && st.base < |s| && st.rover < |s| && st.start < |s|
    && !IsFree(s[st.start])
    && !IsFree(s[Prev(|s|, st.base)])
    && (st.rover == st.base || (IsFree(s[st.base]) && st.rover == Next(|s|, st.base)))
  }

  /** Neither neighbour of a free block is free (the sentinel never is). */
  lemma FreeNeighbours(z: Memzone, j: nat)
    requires Valid(z) && j < |z.blocks| && IsFree(z.blocks[j])
    ensures !IsFree(z.blocks[Prev(|z.blocks|, j)]) && !IsFree(z.blocks[Next(|z.blocks|, j)])
  {
    if j + 1 < |z.blocks| {
      assert !(IsFree(z.blocks[j]) && IsFree(z.blocks[j + 1]));
    }
  }

  /** Purging the rover's block moves the rover past the merged block, closer to `start`. */
  lemma PurgeShortensScan(n: nat, lo: nat, hi: nat, rover: nat, start: nat)
    requires 1 <= lo <= rover <= hi < n && start < n && !(lo <= start <= hi)
    ensures Collapse(start, lo, hi) < n - (hi - lo)
    ensures Dist(n - (hi - lo), Next(n - (hi - lo), lo), Collapse(start, lo, hi)) < Dist(n, rover, start)
  {
  }

  /**
   * The purging pass of the scan: `base = base->prev; Z_Free(rover);
   * base = base->next; rover = base->next`. The block before `base` is in
   * use, so it survives the free and `base` ends up on the merged block.
   */
  function PurgeStep(st: ScanState): (r: ScanState)
    requires ScanInv(st) && st.rover != st.start
    requires !IsFree(st.zone.blocks[st.rover]) && Purgeable(st.zone.blocks[st.rover])
    ensures Purges(st.zone, r.zone) && r.zone.size == st.zone.size
  {
    var fr := FreeBlock(st.zone, st.rover);
    var m := |fr.zone.blocks|;
    FreeBlockReleases(st.zone, st.rover);
    var base := Next(m, Prev(|st.zone.blocks|, st.base));
    ScanState(fr.zone, base, Next(m, base), Collapse(st.start, fr.lo, fr.hi))
  }

  /** The run Z_Free merges when the scan purges: it starts at `base`, covers the rover and stops short of `start`. */
  lemma {:induction false} PurgeWindow(st: ScanState)
    requires ScanInv(st) && st.rover != st.start
    requires !IsFree(st.zone.blocks[st.rover]) && Purgeable(st.zone.blocks[st.rover])
    ensures 1 <= st.base && st.rover != 0
    ensures FreeBlock(st.zone, st.rover).lo == st.base
    ensures !(FreeBlock(st.zone, st.rover).lo <= st.start <= FreeBlock(st.zone, st.rover).hi)
  {
    var s := st.zone.blocks;
    assert st.rover != 0;
    if st.rover == st.base {
      assert !IsFree(s[st.rover - 1]);
    } else {
      assert st.rover == st.base + 1;
    }
  }

  /** After the purging pass the loop invariant still holds. */
  lemma {:induction false} PurgeStepKeepsInv(st: ScanState)
    requires ScanInv(st) && st.rover != st.start
    requires !IsFree(st.zone.blocks[st.rover]) && Purgeable(st.zone.blocks[st.rover])
    ensures ScanInv(PurgeStep(st))
  {
    PurgeStepShape(st);
    var s := st.zone.blocks;
    assert !IsFree(s[st.start]) && !IsFree(s[st.base - 1]);
    PurgeFreedInv(st.zone, st.rover, st.start);
  }

  /** Z_Free of block i, when the block before the merged run and `start` are in use, leaves the loop invariant. */
  lemma PurgeFreedInv(z: Memzone, i: nat, start: nat)
    requires Valid(z) && 1 <= i < |z.blocks| && start < |z.blocks|
    requires !(FreeBlock(z, i).lo <= start <= FreeBlock(z, i).hi)
    requires !IsFree(z.blocks[start]) && !IsFree(z.blocks[FreeBlock(z, i).lo - 1])
    ensures
      var fr := FreeBlock(z, i);
      ScanInv(ScanState(fr.zone, fr.lo, Next(|fr.zone.blocks|, fr.lo), Collapse(start, fr.lo, fr.hi)))
  {
    var fr := FreeBlock(z, i);
    FreeBlockKeeps(z, i, fr.lo - 1);
    FreeBlockKeeps(z, i, start);
    FreedKeepsInv(z.blocks, fr.zone, fr.lo, fr.hi, start);
  }

  /**
   * The loop invariant after a purge, stated on the blocks alone: the merged
   * free block sits at `lo`, the block before it and `start` are untouched.
   */
  lemma FreedKeepsInv(s: seq<Block>, z: Memzone, lo: nat, hi: nat, start: nat)
    requires Valid(z) && 1 <= lo <= hi < |s| && |z.blocks| == |s| - (hi - lo)
    requires IsFree(z.blocks[lo]) && start < |s| && !(lo <= start <= hi)
    requires !IsFree(s[start]) && !IsFree(s[lo - 1]) && z.blocks[lo - 1] == s[lo - 1]
    requires start < lo ==> z.blocks[start] == s[start]
    requires hi < start ==> z.blocks[start - (hi - lo)] == s[start]
    ensures ScanInv(ScanState(z, lo, Next(|z.blocks|, lo), Collapse(start, lo, hi)))
  {
  }

  /** The purging pass leaves the rover closer to `start`. */
  lemma {:induction false} PurgeStepAdvances(st: ScanState)
    requires ScanInv(st) && st.rover != st.start
    requires !IsFree(st.zone.blocks[st.rover]) && Purgeable(st.zone.blocks[st.rover])
    ensures Dist(|PurgeStep(st).zone.blocks|, PurgeStep(st).rover, PurgeStep(st).start)
              < Dist(|st.zone.blocks|, st.rover, st.start)
  {
    PurgeWindow(st);
    var fr := FreeBlock(st.zone, st.rover);
    PurgeShortensScan(|st.zone.blocks|, fr.lo, fr.hi, st.rover, st.start);
  }

  /** One pass of the do-while body of Z_Malloc's scan. */
  function ScanStep(st: ScanState): (r: ScanState)
    requires ScanInv(st) && st.rover != st.start
    ensures ScanInv(r)
    ensures Purges(st.zone, r.zone)
    ensures Dist(|r.zone.blocks|, r.rover, r.start) < Dist(|st.zone.blocks|, st.rover, st.start)
    ensures r.zone.size == st.zone.size
  {
    var s := st.zone.blocks;
    var n := |s|;
    if IsFree(s[st.rover]) then
      FreeNeighbours(st.zone, st.rover);
      PurgesRefl(st.zone);
      st.(rover := Next(n, st.rover))
    else if !Purgeable(s[st.rover]) then
      // A block that cannot be purged: restart the run after it.
      PurgesRefl(st.zone);
      st.(base := Next(n, st.rover), rover := Next(n, st.rover))
    else
      PurgeStepKeepsInv(st);
      PurgeStepAdvances(st);
      PurgeStep(st)
  }

  /** The blocks the scan can still reach: from `base` round the ring to the block before `start`. */
  function Ahead(st: ScanState): seq<Block>
    requires ScanInv(st)
  {
    Window(st.zone.blocks, st.base, st.start)
  }

  /**
   * The scan has not settled on `base`: it has not yet looked there
   * (the rover is still on it), or `base` is a free block too small for
   * the request, as the loop test found it.
   */
  predicate Searching(st: ScanState, need: int)
    requires ScanInv(st)
  {
    st.rover != st.base ==> st.zone.blocks[st.base].size < need
  }

  /** Stepping over a free rover changes nothing ahead. */
  lemma StepFreeAhead(st: ScanState)
    requires ScanInv(st) && st.rover != st.start && IsFree(st.zone.blocks[st.rover])
    ensures ScanStep(st).zone == st.zone && ScanStep(st).base == st.base && ScanStep(st).start == st.start
  {
  }

  /** Passing a block that cannot be purged drops it, and the too-small free base before it, from what lies ahead. */
  lemma StepLockedAhead(st: ScanState, need: int)
    requires ScanInv(st) && st.rover != st.start && Searching(st, need)
    requires !IsFree(st.zone.blocks[st.rover]) && !Purgeable(st.zone.blocks[st.rover])
    ensures Fits(Ahead(st), need) <==> Fits(Ahead(ScanStep(st)), need)
  {
    var s := st.zone.blocks;
    var n := |s|;
    var d := if st.rover == st.base then 0 else 1;
    assert st.rover == Pos(n, st.base, d);
    assert d < Dist(n, st.base, st.start);
    var w := Ahead(st);
    var next := ScanStep(st);
    assert next.base == Pos(n, st.base, d + 1) && next.start == st.start && next.zone == st.zone;
    WindowShift(s, st.base, st.start, d + 1);
    assert w[d] == s[st.rover];
    FitsSkip(w, d, need);
    FitsSmall(w[..d], need);
    assert w[d + 1..] == Ahead(next);
  }

  /** Where the purging pass leaves the scan: on the merged block, with `start` shifted past the absorbed blocks. */
  lemma PurgeStepShape(st: ScanState)
    requires ScanInv(st) && st.rover != st.start
    requires !IsFree(st.zone.blocks[st.rover]) && Purgeable(st.zone.blocks[st.rover])
    ensures
      var fr := FreeBlock(st.zone, st.rover);
      && fr.lo == st.base && 1 <= st.base
      && !(fr.lo <= st.start <= fr.hi)
      && PurgeStep(st).zone == fr.zone
      && PurgeStep(st).base == st.base
      && PurgeStep(st).start == Collapse(st.start, fr.lo, fr.hi)
  {
    PurgeWindow(st);
  }

  /**
   * Purging the rover merges the blocks from `base` to the end of the
   * freed run into one free block at `base`, of their total size: what
   * lies ahead then starts with that block and goes on as before, and the
   * room ahead is the same.
   */
  lemma PurgeAhead(st: ScanState, need: int)
    requires ScanInv(st) && st.rover != st.start
    requires !IsFree(st.zone.blocks[st.rover]) && Purgeable(st.zone.blocks[st.rover])
    ensures ScanInv(PurgeStep(st)) && (Fits(Ahead(st), need) <==> Fits(Ahead(PurgeStep(st)), need))
  {
    PurgeStepKeepsInv(st);
    hide PurgeStep, FreeBlock, Valid, Fits, Window, Total;
    PurgeStepShape(st);
    var fr := FreeBlock(st.zone, st.rover);
    FreedAhead(st.zone, fr, st.rover, st.base, st.start, need);
  }

  /** Z_Free of a purgeable block i merged into the run starting at `base` keeps the room ahead of `base`. */
  lemma FreedAhead(z: Memzone, fr: Freed, i: nat, base: nat, start: nat, need: int)
    requires Valid(z) && 1 <= i < |z.blocks| && fr == FreeBlock(z, i)
    requires fr.lo == base && start < |z.blocks| && !(fr.lo <= start <= fr.hi)
    requires !IsFree(z.blocks[i]) && Purgeable(z.blocks[i])
    requires base == i || IsFree(z.blocks[base])
    ensures base < |fr.zone.blocks| && Collapse(start, fr.lo, fr.hi) < |fr.zone.blocks|
    ensures Fits(Window(z.blocks, base, start), need) <==> Fits(Window(fr.zone.blocks, base, Collapse(start, fr.lo, fr.hi)), need)
  {
    hide FreeBlock, Valid, Fits, Window, Total;
    MergedPrefixAhead(z, fr, i, base, start);
    MergedRestAhead(z, fr, i, base, start);
    ZoneSized(z, base, start);
    FitsMerge(Window(z.blocks, base, start), fr.hi - base + 1, fr.zone.blocks[base], need);
  }

  /** The blocks Z_Free merged, seen from `base`: all takeable, and the merged block holds their total size. */
  lemma MergedPrefixAhead(z: Memzone, fr: Freed, i: nat, base: nat, start: nat)
    requires Valid(z) && 1 <= i < |z.blocks| && fr == FreeBlock(z, i)
    requires fr.lo == base && start < |z.blocks| && !(fr.lo <= start <= fr.hi)
    requires !IsFree(z.blocks[i]) && Purgeable(z.blocks[i])
    requires base == i || IsFree(z.blocks[base])
    ensures
      var w := Window(z.blocks, base, start);
      var c := fr.hi - base + 1;
      && 1 <= c <= |w|
      && (forall k :: 0 <= k < c ==> Takeable(w[k]))
      && IsFree(fr.zone.blocks[base]) && fr.zone.blocks[base].size == Total(w[..c])
  {
    var s := z.blocks;
    assert Contiguous(s);
    hide FreeBlock, Valid, Window, Total;
    forall k | fr.lo <= k <= fr.hi
      ensures Takeable(s[k])
    {
      assert k == i || k == fr.lo == i - 1 || k == fr.hi == i + 1;
    }
    RunAhead(s, fr.lo, fr.hi, start);
  }

  /**
   * Touching takeable blocks lo..hi, seen from lo: they open what lies
   * ahead, and between them they hold the bytes from the start of lo to
   * the end of hi.
   */
  lemma RunAhead(s: seq<Block>, lo: nat, hi: nat, start: nat)
    requires 1 <= lo <= hi < |s| && start < |s| && !(lo <= start <= hi) && Contiguous(s)
    requires forall k :: lo <= k <= hi ==> Takeable(s[k])
    ensures
      var w := Window(s, lo, start);
      var c := hi - lo + 1;
      && c <= |w|
      && (forall k :: 0 <= k < c ==> Takeable(w[k]))
      && Total(w[..c]) == s[hi].offset + s[hi].size - s[lo].offset
  {
    var n := |s|;
    var w := Window(s, lo, start);
    var c := hi - lo + 1;
    assert c <= Dist(n, lo, start);
    forall k | 0 <= k < c
      ensures w[k] == s[lo + k]
    {
      assert Pos(n, lo, k) == lo + k;
    }
    assert w[..c] == s[lo..hi + 1];
    ContiguousTotal(s, lo, hi);
  }

  /** Past the merged block, what lies ahead after Z_Free is what lay ahead before it. */
  lemma MergedRestAhead(z: Memzone, fr: Freed, i: nat, base: nat, start: nat)
    requires Valid(z) && 1 <= i < |z.blocks| && fr == FreeBlock(z, i)
    requires fr.lo == base && start < |z.blocks| && !(fr.lo <= start <= fr.hi)
    ensures base < |fr.zone.blocks| && Collapse(start, fr.lo, fr.hi) < |fr.zone.blocks|
    ensures Window(fr.zone.blocks, base, Collapse(start, fr.lo, fr.hi))
              == [fr.zone.blocks[base]] + Window(z.blocks, base, start)[fr.hi - base + 1..]
  {
    hide FreeBlock, Valid;
    FreeBlockShifts(z, i);
    CollapsedWindow(z.blocks, fr.zone.blocks, fr.lo, fr.hi, start);
  }

  /** Z_Free keeps the blocks before the merged run in place and moves the ones after it down. */
  lemma FreeBlockShifts(z: Memzone, i: nat)
    requires Valid(z) && 1 <= i < |z.blocks|
    ensures
      var fr := FreeBlock(z, i);
      && (forall k :: 0 <= k < fr.lo ==> fr.zone.blocks[k] == z.blocks[k])
      && (forall k :: fr.hi < k < |z.blocks| ==> fr.zone.blocks[k - (fr.hi - fr.lo)] == z.blocks[k])
  {
    hide FreeBlock, Valid;
    var fr := FreeBlock(z, i);
    forall k | 0 <= k < fr.lo
      ensures fr.zone.blocks[k] == z.blocks[k]
    {
      FreeBlockKeeps(z, i, k);
    }
    forall k | fr.hi < k < |z.blocks|
      ensures fr.zone.blocks[k - (fr.hi - fr.lo)] == z.blocks[k]
    {
      FreeBlockKeeps(z, i, k);
    }
  }

  /**
   * The window of a list in which blocks lo..hi collapsed into one, from
   * that block round to `start`: the collapsed block, then the blocks that
   * followed hi.
   */
  lemma CollapsedWindow(s: seq<Block>, t: seq<Block>, lo: nat, hi: nat, start: nat)
    requires 1 <= lo <= hi < |s| && |t| == |s| - (hi - lo) && start < |s| && !(lo <= start <= hi)
    requires forall k :: 0 <= k < lo ==> t[k] == s[k]
    requires forall k :: hi < k < |s| ==> t[k - (hi - lo)] == s[k]
    ensures hi - lo + 1 <= Dist(|s|, lo, start)
    ensures Window(t, lo, Collapse(start, lo, hi)) == [t[lo]] + Window(s, lo, start)[hi - lo + 1..]
  {
    var n, m := |s|, |t|;
    var c := hi - lo + 1;
    var w := Window(s, lo, start);
    var v := Window(t, lo, Collapse(start, lo, hi));
    assert |v| == |w| - c + 1;
    hide Window;
    forall k | 1 <= k < |v|
      ensures v[k] == w[k + c - 1]
    {
      CollapsedPos(n, lo, hi, k);
    }
    assert v == [t[lo]] + w[c..];
  }

  /** Step k from lo in the ring after the collapse is step k + hi - lo before it. */
  lemma CollapsedPos(n: nat, lo: nat, hi: nat, k: nat)
    requires 1 <= lo <= hi < n && 1 <= k < n - (hi - lo)
    ensures Pos(n, lo, k + hi - lo) == if Pos(n - (hi - lo), lo, k) < lo then Pos(n - (hi - lo), lo, k) else Pos(n - (hi - lo), lo, k) + (hi - lo)
  {
  }

  /** One pass of the loop body keeps the answer to whether the room ahead is enough. */
  lemma StepAhead(st: ScanState, need: int)
    requires ScanInv(st) && st.rover != st.start
    ensures Searching(st, need) ==> (Fits(Ahead(st), need) <==> Fits(Ahead(ScanStep(st)), need))
  {
    var s := st.zone.blocks;
    if !Searching(st, need) {
    } else if IsFree(s[st.rover]) {
      StepFreeAhead(st);
    } else if !Purgeable(s[st.rover]) {
      StepLockedAhead(st, need);
    } else {
      assert ScanStep(st) == PurgeStep(st);
      PurgeAhead(st, need);
    }
  }

  /**
   * The scan loop: step until `base` is a free block of at least `need`
   * bytes, or fail once the rover comes round to `start`. It fails exactly
   * when no run of free or purgeable blocks ahead of it holds `need` bytes.
   */
  function Scan(st: ScanState, need: int): (r: Outcome<ScanState>)
    requires ScanInv(st)
    ensures r.Ok? ==> ScanInv(r.value) && Purges(st.zone, r.value.zone)
    ensures r.Ok? ==> IsFree(r.value.zone.blocks[r.value.base]) && r.value.zone.blocks[r.value.base].size >= need
    ensures r.Ok? ==> r.value.zone.size == st.zone.size
    ensures r.Fatal? ==> r.message == FAILED
    ensures Searching(st, need) ==> (r.Fatal? <==> !Fits(Ahead(st), need))
    decreases Dist(|st.zone.blocks|, st.rover, st.start)
  {
    if st.rover == st.start then
      NothingAhead(st, need);
      Fatal(FAILED)
    else
      var next := ScanStep(st);
      if IsFree(next.zone.blocks[next.base]) && next.zone.blocks[next.base].size >= need then
        FoundAhead(st, need);
        Ok(next)
      else
        var r := Scan(next, need);
        StepAhead(st, need);
        if r.Ok? then PurgesTrans(st.zone, next.zone, r.value.zone); r else r
  }

  /** With the rover back at `start`, what is ahead is the too-small base at most. */
  lemma NothingAhead(st: ScanState, need: int)
    requires ScanInv(st) && st.rover == st.start
    ensures Searching(st, need) ==> !Fits(Ahead(st), need)
  {
    var n := |st.zone.blocks|;
    if st.rover != st.base {
      assert Dist(n, st.base, st.start) == 1;
    }
    if Searching(st, need) {
      FitsSmall(Ahead(st), need);
    }
  }

  /** A step that leaves a large enough free block at `base` found room ahead. */
  lemma FoundAhead(st: ScanState, need: int)
    requires ScanInv(st) && st.rover != st.start
    requires IsFree(ScanStep(st).zone.blocks[ScanStep(st).base]) && ScanStep(st).zone.blocks[ScanStep(st).base].size >= need
    ensures Searching(st, need) ==> Fits(Ahead(st), need)
  {
    var next := ScanStep(st);
    assert next.base != next.start;
    FitsFirst(Ahead(next), need);
    StepAhead(st, need);
  }

  /** A successful Z_Malloc: the zone after it, the payload pointer returned and the granted block's index. */
  datatype Allocation = Allocation(zone: Memzone, ptr: int, index: nat)

  /** The blocks that replace the free block chosen by the scan: the granted one, then any leftover over 64 bytes. */
  function Carve(b: Block, need: int, owner: User, tag: int): (fs: seq<Block>)
    requires b.size >= need
    ensures 1 <= |fs| <= 2 && fs[0].offset == b.offset && fs[0].user == owner && fs[0].tag == tag
    ensures |fs| == 2 <==> b.size - need > MINFRAGMENT
    ensures |fs| == 1 ==> fs[0].size == b.size
    ensures |fs| == 2 ==> fs[0].size == need && fs[1] == Block(b.offset + need, b.size - need, Free, 0)
    ensures fs[|fs| - 1].offset + fs[|fs| - 1].size == b.offset + b.size
  {
    var extra := b.size - need;
    if extra > MINFRAGMENT then
      [Block(b.offset, need, owner, tag), Block(b.offset + need, extra, Free, 0)]
    else
      [Block(b.offset, b.size, owner, tag)]
  }

  /** Of the carved blocks only the granted one is in use. */
  lemma {:induction false} LiveCarved(fs: seq<Block>)
    requires 1 <= |fs| <= 2 && !IsFree(fs[0]) && (|fs| == 2 ==> IsFree(fs[1]))
    ensures Live(fs) == [fs[0]]
  {
    LiveSingle(fs[0]);
    if |fs| == 2 {
      assert fs == [fs[0]] + [fs[1]];
      LiveAppend([fs[0]], [fs[1]]);
      LiveSingle(fs[1]);
    }
  }

  /** Granting the free block at `base` adds exactly the granted block to the blocks in use. */
  lemma {:induction false} GrantLive(s: seq<Block>, base: nat, fs: seq<Block>)
    requires base < |s| && IsFree(s[base])
    requires 1 <= |fs| <= 2 && !IsFree(fs[0]) && (|fs| == 2 ==> IsFree(fs[1]))
    ensures Live(s) == Live(s[..base]) + Live(s[base + 1..])
    ensures Live(Splice(s, base, base, fs)) == Live(s[..base]) + [fs[0]] + Live(s[base + 1..])
  {
    var pre, post := s[..base], s[base + 1..];
    assert Live(s) == Live(pre) + Live(post) by {
      LiveSplit(s, base);
      LiveSingle(s[base]);
    }
    var mid := pre + fs;
    assert Live(mid) == Live(pre) + [fs[0]] by {
      LiveAppend(pre, fs);
      LiveCarved(fs);
    }
    assert Splice(s, base, base, fs) == mid + post;
    LiveAppend(mid, post);
  }

  /** The `user` a block gets from Z_Malloc: the slot address, or 2 when there is none. */
  function OwnerOf(user: nat): (u: User)
    ensures user == 0 <==> u == Unowned
  {
    if user != 0 then Owner(user) else Unowned
  }

  /** The owner slots after Z_Malloc wrote the payload address `ptr` through `user`. */
  function RecordOwner(slots: map<nat, int>, user: nat, ptr: int): (r: map<nat, int>)
    ensures user != 0 ==> user in r && r[user] == ptr
    ensures forall p :: p in slots && p != user ==> p in r && r[p] == slots[p]
    ensures forall p :: p in r && p != user ==> p in slots
  {
    if user != 0 then slots[user := ptr] else slots
  }

  /** Carving the free block at `base` keeps the zone valid. */
  lemma {:induction false} CarveValid(z: Memzone, base: nat, need: int, owner: User, tag: int, rover: nat, slots: map<nat, int>)
    requires Valid(z) && base < |z.blocks| && IsFree(z.blocks[base]) && z.blocks[base].size >= need > 0
    requires !owner.Free? && !owner.ZoneHead? && (owner.Owner? ==> owner.slot > OWNER_THRESHOLD)
    requires rover < |z.blocks| + |Carve(z.blocks[base], need, owner, tag)| - 1
    ensures base != 0
    ensures Valid(Memzone(z.size, Splice(z.blocks, base, base, Carve(z.blocks[base], need, owner, tag)), rover, slots))
  {
    var s := z.blocks;
    var fs := Carve(s[base], need, owner, tag);
    assert base != 0;
    FreeNeighbours(z, base);
    assert base + 1 < |s| ==> !IsFree(s[base + 1]);
    assert GoodRun(fs);
    ReplaceWindowValid(z, base, base, fs, rover, slots);
  }

  /**
   * The tail of Z_Malloc: split off a leftover fragment, record the owner
   * (writing the payload address into its slot) or mark the block as in
   * use without one, set the tag, and leave the rover after the block.
   */
  function Grant(z: Memzone, base: nat, need: int, tag: int, user: nat): (r: Outcome<Allocation>)
    requires Valid(z) && base < |z.blocks| && IsFree(z.blocks[base]) && z.blocks[base].size >= need > 0
    requires user == 0 || user > OWNER_THRESHOLD
    ensures r.Fatal? <==> user == 0 && tag >= PU_PURGELEVEL
    ensures r.Fatal? ==> r.message == OWNER_REQUIRED
    ensures r.Ok? ==>
      var a := r.value;
      && Valid(a.zone) && a.zone.size == z.size && a.index == base && base < |a.zone.blocks|
      && var g := a.zone.blocks[a.index];
      && g.offset == z.blocks[base].offset && g.tag == tag && g.user == OwnerOf(user)
      && need <= g.size <= need + MINFRAGMENT && g.size <= z.blocks[base].size
      && a.ptr == g.offset + BLOCK_HEADER
      && a.zone.rover == Next(|a.zone.blocks|, a.index)
      && a.zone.slots == RecordOwner(z.slots, user, a.ptr)
      && Live(z.blocks) == Live(z.blocks[..base]) + Live(z.blocks[base + 1..])
      && Live(a.zone.blocks) == Live(z.blocks[..base]) + [g] + Live(z.blocks[base + 1..])
  {
    if user == 0 && tag >= PU_PURGELEVEL then
      Fatal(OWNER_REQUIRED)
    else
      var s := z.blocks;
      var ptr := s[base].offset + BLOCK_HEADER;
      var slots := RecordOwner(z.slots, user, ptr);
      var fs := Carve(s[base], need, OwnerOf(user), tag);
      var rover := Next(|s| + |fs| - 1, base);
      CarveValid(z, base, need, OwnerOf(user), tag, rover, slots);
      SpliceAt(s, base, base, fs, base);
      GrantLive(s, base, fs);
      Ok(Allocation(Memzone(z.size, Splice(s, base, base, fs), rover, slots), ptr, base))
  }

  /** Where the scan starts: the rover, backed up over a free block behind it. */
  function ScanStart(z: Memzone): (st: ScanState)
    requires Valid(z)
    ensures ScanInv(st) && st.zone == z && st.rover == st.base
    ensures st.base == z.rover || (st.base == Prev(|z.blocks|, z.rover) && IsFree(z.blocks[st.base]))
  {
    var n := |z.blocks|;
    if IsFree(z.blocks[Prev(n, z.rover)]) then
      var base := Prev(n, z.rover);
      FreeNeighbours(z, base);
      ScanState(z, base, base, Prev(n, base))
    else
      ScanState(z, z.rover, z.rover, Prev(n, z.rover))
  }

  /**
   * What a successful Z_Malloc(size, tag, user) on z promises about the
   * allocation a: a valid zone whose block at a.index is the new block,
   * large enough, tagged and owned as asked, with its payload address in
   * the owner slot; every other block in use was in use before; only
   * purgeable blocks were given up, and their owners were told.
   */
  predicate Allocated(z: Memzone, a: Allocation, size: int, tag: int, user: nat)
    requires 0 <= size
  {
    && Valid(a.zone) && a.zone.size == z.size && 1 <= a.index < |a.zone.blocks|
    && var g := a.zone.blocks[a.index];
    && g.tag == tag && g.user == OwnerOf(user)
    && Need(size) <= g.size <= Need(size) + MINFRAGMENT
    && a.ptr == g.offset + BLOCK_HEADER
    && a.zone.rover == Next(|a.zone.blocks|, a.index)
    && (user != 0 ==> user in a.zone.slots && a.zone.slots[user] == a.ptr)
    && (forall x :: x in Live(a.zone.blocks) ==> x == g || x in Live(z.blocks))
    && (forall x :: x in Live(z.blocks) && !Purgeable(x) ==> x in Live(a.zone.blocks))
    && (forall x :: x in Live(z.blocks) && !Purgeable(x) ==> x.offset != g.offset)
    && (forall x :: x in Live(z.blocks) && x !in Live(a.zone.blocks) && x.user.Owner? && x.user.slot != user ==>
          x.user.slot in a.zone.slots && a.zone.slots[x.user.slot] == 0)
    && (forall p :: p in z.slots && p != user && !SlotReleased(z, a.zone, p) ==> p in a.zone.slots && a.zone.slots[p] == z.slots[p])
    && (forall p :: p in a.zone.slots && p != user && !SlotReleased(z, a.zone, p) ==> p in z.slots)
  }

  /** Granting the block the scan found, in a zone reached from z by purging, fulfils Allocated. */
  lemma {:induction false} GrantAllocates(z: Memzone, p: Memzone, base: nat, size: int, tag: int, user: nat)
    requires Valid(p) && Purges(z, p) && p.size == z.size && 0 <= size
    requires base < |p.blocks| && IsFree(p.blocks[base]) && p.blocks[base].size >= Need(size)
    requires user == 0 || user > OWNER_THRESHOLD
    ensures Grant(p, base, Need(size), tag, user).Ok? ==> Allocated(z, Grant(p, base, Need(size), tag, user).value, size, tag, user)
  {
    var r := Grant(p, base, Need(size), tag, user);
    if r.Ok? {
      assert base != 0;
      MallocKeeps(z, p, r.value, user);
      GrantAvoidsLocked(z, p, base);
    }
  }

  /**
   * There is room in z for a request of `size` bytes: some run of
   * consecutive blocks, each free or purgeable, from where Z_Malloc's scan
   * starts round the ring to the block before it, holds the rounded size
   * and a block header.
   */
  predicate Room(z: Memzone, size: int)
    requires Valid(z) && 0 <= size
  {
    Fits(Ahead(ScanStart(z)), Need(size))
  }

  /**
   * Z_Malloc(size, tag, user). `user` is 0 for NULL or the address of the
   * owner slot. Blocks may be purged on the way. It fails with the
   * allocation message exactly when there is no room, and otherwise
   * succeeds unless a purgeable block is asked for without an owner.
   */
  function Malloc(z: Memzone, size: int, tag: int, user: nat): (r: Outcome<Allocation>)
    requires Valid(z) && 0 <= size <= MAX_REQUEST
    requires user == 0 || user > OWNER_THRESHOLD
    ensures r.Fatal? && r.message == FAILED <==> !Room(z, size)
    ensures r.Ok? <==> Room(z, size) && (user != 0 || tag < PU_PURGELEVEL)
    ensures r.Fatal? ==> r.message == FAILED || r.message == OWNER_REQUIRED
    ensures r.Ok? ==> Allocated(z, r.value, size, tag, user)
  {
    var need := Need(size);
    match Scan(ScanStart(z), need)
    case Fatal(msg) => Fatal(msg)
    case Ok(found) =>
      GrantAllocates(z, found.zone, found.base, size, tag, user);
      Grant(found.zone, found.base, need, tag, user)
  }

  /** A fresh zone has room for any request whose block fits in the space after the zone header. */
  lemma FreshZoneRoom(size: int, request: int, tag: int, user: nat)
    requires size > ZONE_HEADER && 0 <= request <= MAX_REQUEST && Need(request) <= size - ZONE_HEADER
    requires user == 0 || user > OWNER_THRESHOLD
    ensures Room(Init(size), request)
    ensures Malloc(Init(size), request, tag, user).Ok? <==> user != 0 || tag < PU_PURGELEVEL
  {
    var z := Init(size);
    assert Ahead(ScanStart(z)) == [z.blocks[1]];
    FitsFirst(Ahead(ScanStart(z)), Need(request));
  }

  /** Carries the purge of the scan across the grant. */
  lemma {:induction false} MallocKeeps(z: Memzone, p: Memzone, a: Allocation, user: nat)
    requires Purges(z, p) && a.index < |a.zone.blocks| && a.index < |p.blocks|
    requires a.zone.slots == (if user == 0 then p.slots else p.slots[user := a.ptr])
    requires Live(p.blocks) == Live(p.blocks[..a.index]) + Live(p.blocks[a.index + 1..])
    requires Live(a.zone.blocks) == Live(p.blocks[..a.index]) + [a.zone.blocks[a.index]] + Live(p.blocks[a.index + 1..])
    requires a.zone.blocks[a.index].user == OwnerOf(user)
    ensures forall x :: x in Live(a.zone.blocks) ==> x == a.zone.blocks[a.index] || x in Live(z.blocks)
    ensures forall x :: x in Live(z.blocks) && !Purgeable(x) ==> x in Live(a.zone.blocks)
    ensures forall x :: x in Live(z.blocks) && x !in Live(a.zone.blocks) && x.user.Owner? && x.user.slot != user ==>
              x.user.slot in a.zone.slots && a.zone.slots[x.user.slot] == 0
    ensures forall p' :: p' in z.slots && p' != user && !SlotReleased(z, a.zone, p') ==>
              p' in a.zone.slots && a.zone.slots[p'] == z.slots[p']
    ensures forall p' :: p' in a.zone.slots && p' != user && !SlotReleased(z, a.zone, p') ==> p' in z.slots
  {
    var g := a.zone.blocks[a.index];
    forall p' | p' != user && SlotReleased(z, p, p')
      ensures SlotReleased(z, a.zone, p')
    {
      var x :| x in Live(z.blocks) && x !in Live(p.blocks) && x.user == Owner(p');
      assert x != g && x !in Live(a.zone.blocks);
    }
    forall x | x in Live(a.zone.blocks)
      ensures x == g || x in Live(z.blocks)
    {
      if x != g {
        assert x in Live(p.blocks);
      }
    }
    forall x | x in Live(z.blocks) && !Purgeable(x)
      ensures x in Live(a.zone.blocks)
    {
      assert x in Live(p.blocks);
    }
    forall x | x in Live(z.blocks) && x !in Live(a.zone.blocks) && x.user.Owner? && x.user.slot != user
      ensures x.user.slot in a.zone.slots && a.zone.slots[x.user.slot] == 0
    {
      assert x !in Live(p.blocks);
    }
  }

  /** The free block the scan settles on lies at no offset of a block that could not be purged. */
  lemma {:induction false} GrantAvoidsLocked(z: Memzone, p: Memzone, base: nat)
    requires Valid(p) && Purges(z, p) && 1 <= base < |p.blocks| && IsFree(p.blocks[base])
    ensures forall x :: x in Live(z.blocks) && !Purgeable(x) ==> x.offset != p.blocks[base].offset
  {
    forall x | x in Live(z.blocks) && !Purgeable(x)
      ensures x.offset != p.blocks[base].offset
    {
      assert x in Live(p.blocks);
      LiveMembers(p.blocks, x);
      var j :| 0 <= j < |p.blocks| && p.blocks[j] == x;
      if j == 0 {
        if base > 1 {
          OffsetsIncrease(p, 1, base);
        }
      } else if j < base {
        OffsetsIncrease(p, j, base);
      } else if j > base {
        OffsetsIncrease(p, base, j);
      }
    }
  }
}

=== FILE: zone_ops.dfy ===
/**
 * The remaining entry points of z_zone.c: Z_Free on a payload pointer,
 * Z_FreeTags, Z_ChangeTag2, Z_FreeMemory and Z_CheckHeap, and the
 * invariant that every purgeable block in use has an owner to tell.
 */
module ZoneOps {
  import opened Wrappers
  import opened Zone
  import opened ZoneMalloc

  const CHANGE_TAG_NULL: string := "Z_ChangeTag: NULL pointer"
  const CHANGE_TAG_OWNER: string := "Z_ChangeTag: an owner is required for purgable blocks"
  const HEAP_TOUCH: string := "Z_CheckHeap: block size does not touch the next block\n"
  const HEAP_TWO_FREE: string := "Z_CheckHeap: two consecutive free blocks\n"

  /** The index of the block whose payload starts at `ptr`, searching from index k. */
  function FindPayload(s: seq<Block>, ptr: int, k: nat): (r: Option<nat>)
    requires 1 <= k <= |s|
    ensures r.Some? ==> k <= r.value < |s| && s[r.value].offset + BLOCK_HEADER == ptr
    ensures r.None? ==> forall j :: k <= j < |s| ==> s[j].offset + BLOCK_HEADER != ptr
    decreases |s| - k
  {
    if k == |s| then None
    else if s[k].offset + BLOCK_HEADER == ptr then Some(k)
    else FindPayload(s, ptr, k + 1)
  }

  /** `(memblock_t *)((byte *)ptr - sizeof(memblock_t))`, as an index into the list. */
  function PayloadIndex(s: seq<Block>, ptr: int): (r: Option<nat>)
    requires 1 <= |s|
    ensures r.Some? ==> 1 <= r.value < |s| && s[r.value].offset + BLOCK_HEADER == ptr
    ensures r.None? ==> forall j :: 1 <= j < |s| ==> s[j].offset + BLOCK_HEADER != ptr
  {
    FindPayload(s, ptr, 1)
  }

  /** A pointer Z_Malloc handed out names exactly the granted block. */
  lemma {:induction false} PayloadIndexOfBlock(z: Memzone, i: nat)
    requires Valid(z) && 1 <= i < |z.blocks|
    ensures PayloadIndex(z.blocks, z.blocks[i].offset + BLOCK_HEADER) == Some(i)
  {
    var r := PayloadIndex(z.blocks, z.blocks[i].offset + BLOCK_HEADER);
    if r.None? {
      assert false;
    } else if r.value < i {
      OffsetsIncrease(z, r.value, i);
    } else if r.value > i {
      OffsetsIncrease(z, i, r.value);
    }
  }

  /**
   * Z_Free(ptr): NULL is ignored (with a warning on the console); any
   * other pointer must be the payload of a block of the zone.
   */
  function Free(z: Memzone, ptr: int): (r: Memzone)
    requires Valid(z)
    requires ptr == 0 || PayloadIndex(z.blocks, ptr).Some?
    ensures Valid(r) && r.size == z.size && Releases(z, r)
    ensures ptr == 0 ==> r == z
    ensures ptr != 0 ==>
      var i := PayloadIndex(z.blocks, ptr).value;
      && Live(r.blocks) == Live(z.blocks[..i]) + Live(z.blocks[i + 1..])
      && (z.blocks[i].user.Owner? ==> z.blocks[i].user.slot in r.slots && r.slots[z.blocks[i].user.slot] == 0)
      && (forall x :: x in Live(r.blocks) ==> x.offset != z.blocks[i].offset)
  {
    if ptr == 0 then
      PurgesRefl(z);
      z
    else
      var i := PayloadIndex(z.blocks, ptr).value;
      FreeBlockLive(z, i);
      FreeBlockReleases(z, i);
      FreedBlockGone(z, i);
      FreeBlock(z, i).zone
  }

  /** After Z_Free no block in use starts where the freed one did. */
  lemma {:induction false} FreedBlockGone(z: Memzone, i: nat)
    requires Valid(z) && 1 <= i < |z.blocks|
    ensures forall x :: x in Live(z.blocks[..i]) + Live(z.blocks[i + 1..]) ==> x.offset != z.blocks[i].offset
  {
    forall x | x in Live(z.blocks[..i]) + Live(z.blocks[i + 1..])
      ensures x.offset != z.blocks[i].offset
    {
      if x in Live(z.blocks[..i]) {
        LiveMembers(z.blocks[..i], x);
        var j :| 0 <= j < i && z.blocks[j] == x;
        if j > 0 {
          OffsetsIncrease(z, j, i);
        } else if i > 1 {
          OffsetsIncrease(z, 1, i);
        }
      } else {
        LiveMembers(z.blocks[i + 1..], x);
        var j :| i + 1 <= j < |z.blocks| && z.blocks[j] == x;
        OffsetsIncrease(z, i, j);
      }
    }
  }

  /** Freeing a granted block: what is left in use was in use before the grant. */
  lemma {:induction false} FreeAfterGrant(z: Memzone, a: Allocation)
    requires Valid(a.zone) && 1 <= a.index < |a.zone.blocks|
    requires a.ptr == a.zone.blocks[a.index].offset + BLOCK_HEADER
    requires forall x :: x in Live(a.zone.blocks) ==> x == a.zone.blocks[a.index] || x in Live(z.blocks)
    requires forall x :: x in Live(z.blocks) && !Purgeable(x) ==> x in Live(a.zone.blocks)
    requires forall x :: x in Live(z.blocks) && !Purgeable(x) ==> x.offset != a.zone.blocks[a.index].offset
    ensures PayloadIndex(a.zone.blocks, a.ptr) == Some(a.index)
    ensures forall x :: x in Live(Free(a.zone, a.ptr).blocks) ==> x in Live(z.blocks)
    ensures forall x :: x in Live(z.blocks) && !Purgeable(x) ==> x in Live(Free(a.zone, a.ptr).blocks)
  {
    PayloadIndexOfBlock(a.zone, a.index);
    var s := a.zone.blocks;
    var i := a.index;
    if i > 1 {
      OffsetsIncrease(a.zone, 1, i);
    }
    assert a.ptr != 0;
    var r := Free(a.zone, a.ptr);
    assert Live(r.blocks) == Live(s[..i]) + Live(s[i + 1..]);
    LiveSplit(s, i);
    LiveSingle(s[i]);
    forall x | x in Live(r.blocks)
      ensures x in Live(z.blocks)
    {
      assert x.offset != s[i].offset;
    }
  }

  /**
   * Z_Free undoes Z_Malloc: freeing the pointer just allocated leaves only
   * blocks that were in use before the allocation, and every block that
   * could not be purged is still there.
   */
  lemma {:induction false} FreeAfterMalloc(z: Memzone, size: int, tag: int, user: nat)
    requires Valid(z) && 0 <= size <= MAX_REQUEST
    requires user == 0 || user > OWNER_THRESHOLD
    requires Malloc(z, size, tag, user).Ok?
    ensures
      var a := Malloc(z, size, tag, user).value;
      PayloadIndex(a.zone.blocks, a.ptr) == Some(a.index) &&
      var r := Free(a.zone, a.ptr);
      && (forall x :: x in Live(r.blocks) ==> x in Live(z.blocks))
      && (forall x :: x in Live(z.blocks) && !Purgeable(x) ==> x in Live(r.blocks))
  {
    FreeAfterGrant(z, Malloc(z, size, tag, user).value);
  }

  /** The blocks whose tag lies outside lowtag..hightag. */
  function Keep(s: seq<Block>, lowtag: int, hightag: int): (r: seq<Block>)
    ensures |r| <= |s|
  {
    if |s| == 0 then []
    else (if lowtag <= s[0].tag <= hightag then [] else [s[0]]) + Keep(s[1..], lowtag, hightag)
  }

  lemma {:induction false} KeepMembers(s: seq<Block>, lowtag: int, hightag: int, x: Block)
    ensures x in Keep(s, lowtag, hightag) <==> x in s && !(lowtag <= x.tag <= hightag)
  {
    if |s| > 0 {
      KeepMembers(s[1..], lowtag, hightag, x);
      assert s == [s[0]] + s[1..];
    }
  }

  /** The blocks in use from index i on: block i, then the rest. */
  lemma {:induction false} LiveStep(s: seq<Block>, i: nat)
    requires i < |s|
    ensures Live(s[i..]) == Live([s[i]]) + Live(s[i + 1..])
    ensures Live(s[..i + 1]) == Live(s[..i]) + Live([s[i]])
  {
    assert s[i..] == [s[i]] + s[i + 1..];
    LiveAppend([s[i]], s[i + 1..]);
    assert s[..i + 1] == s[..i] + [s[i]];
    LiveAppend(s[..i], [s[i]]);
  }

  lemma {:induction false} KeepCons(b: Block, t: seq<Block>, lowtag: int, hightag: int)
    ensures Keep([b] + t, lowtag, hightag) == Keep([b], lowtag, hightag) + Keep(t, lowtag, hightag)
  {
    assert ([b] + t)[1..] == t;
    assert [b][1..] == [];
  }

  /** Stepping over a block Z_FreeTags leaves alone. */
  lemma {:induction false} FreeTagsSkip(s: seq<Block>, i: nat, r: seq<Block>, lowtag: int, hightag: int)
    requires i < |s| && (IsFree(s[i]) || !(lowtag <= s[i].tag <= hightag))
    requires Live(r) == Live(s[..i + 1]) + Keep(Live(s[i + 1..]), lowtag, hightag)
    ensures Live(r) == Live(s[..i]) + Keep(Live(s[i..]), lowtag, hightag)
  {
    var a, c := Live(s[..i]), Live(s[i + 1..]);
    LiveStep(s, i);
    LiveSingle(s[i]);
    if IsFree(s[i]) {
      assert Live(s[..i + 1]) == a && Live(s[i..]) == c;
    } else {
      assert Live(s[..i + 1]) == a + [s[i]] && Live(s[i..]) == [s[i]] + c;
      assert Keep([s[i]] + c, lowtag, hightag) == [s[i]] + Keep(c, lowtag, hightag) by {
        KeepCons(s[i], c, lowtag, hightag);
        assert [s[i]][1..] == [];
      }
    }
  }

  /** Freeing a block in the range drops it from the blocks in use. */
  lemma {:induction false} FreeTagsDrop(s: seq<Block>, i: nat, r: seq<Block>, lowtag: int, hightag: int)
    requires i < |s| && !IsFree(s[i]) && lowtag <= s[i].tag <= hightag
    requires Live(r) == Live(s[..i]) + Keep(Live(s[i + 1..]), lowtag, hightag)
    ensures Live(r) == Live(s[..i]) + Keep(Live(s[i..]), lowtag, hightag)
  {
    var c := Live(s[i + 1..]);
    LiveStep(s, i);
    LiveSingle(s[i]);
    assert Live(s[i..]) == [s[i]] + c;
    assert Keep([s[i]] + c, lowtag, hightag) == Keep(c, lowtag, hightag) by {
      KeepCons(s[i], c, lowtag, hightag);
      assert [s[i]][1..] == [];
    }
  }

  /** The free branch of the Z_FreeTags loop: free block i, then go on after the merged free block. */
  lemma {:induction false} FreeTagsFreeStep(z: Memzone, i: nat, r: Memzone, lowtag: int, hightag: int)
    requires Valid(z) && 1 <= i < |z.blocks| && !IsFree(z.blocks[i]) && lowtag <= z.blocks[i].tag <= hightag
    requires
      var fr := FreeBlock(z, i);
      && Releases(fr.zone, r)
      && Live(r.blocks) == Live(fr.zone.blocks[..fr.lo + 1]) + Keep(Live(fr.zone.blocks[fr.lo + 1..]), lowtag, hightag)
    ensures Releases(z, r)
    ensures Live(r.blocks) == Live(z.blocks[..i]) + Keep(Live(z.blocks[i..]), lowtag, hightag)
  {
    var fr := FreeBlock(z, i);
    FreeBlockReleases(z, i);
    ReleasesTrans(z, fr.zone, r);
    FreeBlockLive(z, i);
    assert Live(r.blocks) == Live(z.blocks[..i]) + Keep(Live(z.blocks[i + 1..]), lowtag, hightag);
    FreeTagsDrop(z.blocks, i, r.blocks, lowtag, hightag);
  }

  /**
   * The loop of Z_FreeTags from the block at index i to the end of the
   * list: free each block in use whose tag lies in lowtag..hightag. After a
   * free the walk goes on with the block after the merged free block, which
   * is where the saved `next` pointer leads.
   */
  function FreeTagsFrom(z: Memzone, i: nat, lowtag: int, hightag: int): (r: Memzone)
    requires Valid(z) && 1 <= i <= |z.blocks|
    ensures Valid(r) && r.size == z.size && Releases(z, r)
    ensures Live(r.blocks) == Live(z.blocks[..i]) + Keep(Live(z.blocks[i..]), lowtag, hightag)
    decreases |z.blocks| - i, 1
  {
    if i == |z.blocks| then
      PurgesRefl(z);
      assert z.blocks[..i] == z.blocks;
      assert z.blocks[i..] == [];
      z
    else if IsFree(z.blocks[i]) || !(lowtag <= z.blocks[i].tag <= hightag) then
      var r := FreeTagsFrom(z, i + 1, lowtag, hightag);
      FreeTagsSkip(z.blocks, i, r.blocks, lowtag, hightag);
      r
    else
      FreeTagsAt(z, i, lowtag, hightag)
  }

  /** Z_FreeTags freeing block i, which is in use and in the range, and going on with the rest of the list. */
  function FreeTagsAt(z: Memzone, i: nat, lowtag: int, hightag: int): (r: Memzone)
    requires Valid(z) && 1 <= i < |z.blocks| && !IsFree(z.blocks[i]) && lowtag <= z.blocks[i].tag <= hightag
    ensures Valid(r) && r.size == z.size && Releases(z, r)
    ensures Live(r.blocks) == Live(z.blocks[..i]) + Keep(Live(z.blocks[i..]), lowtag, hightag)
    decreases |z.blocks| - i, 0
  {
    var fr := FreeBlock(z, i);
    var r := FreeTagsFrom(fr.zone, fr.lo + 1, lowtag, hightag);
    FreeTagsFreeStep(z, i, r, lowtag, hightag);
    r
  }

  /** Z_FreeTags(lowtag, hightag): release every block in use whose tag lies in lowtag..hightag. */
  function FreeTags(z: Memzone, lowtag: int, hightag: int): (r: Memzone)
    requires Valid(z)
    ensures Valid(r) && r.size == z.size && Releases(z, r)
    ensures Live(r.blocks) == [SENTINEL] + Keep(Live(z.blocks[1..]), lowtag, hightag)
  {
    assert z.blocks[..1] == [SENTINEL];
    LiveSingle(SENTINEL);
    FreeTagsFrom(z, 1, lowtag, hightag)
  }

  /** A block stays in use across Z_FreeTags exactly when its tag lies outside the range. */
  lemma {:induction false} FreeTagsSelects(z: Memzone, lowtag: int, hightag: int, x: Block)
    requires Valid(z) && x in z.blocks[1..] && !IsFree(x)
    ensures x in Live(FreeTags(z, lowtag, hightag).blocks) <==> !(lowtag <= x.tag <= hightag)
  {
    LiveMembers(z.blocks[1..], x);
    KeepMembers(Live(z.blocks[1..]), lowtag, hightag, x);
    assert x != SENTINEL;
  }

  /** Every purgeable block in use has an owner slot to clear when it is purged. */
  predicate PurgeableOwned(z: Memzone) {
    forall x :: x in Live(z.blocks) && Purgeable(x) ==> x.user.Owner?
  }

  lemma InitPurgeableOwned(size: int)
    requires size > ZONE_HEADER
    ensures PurgeableOwned(Init(size))
  {
  }

  lemma ReleasesKeepOwned(a: Memzone, b: Memzone)
    requires PurgeableOwned(a) && Releases(a, b)
    ensures PurgeableOwned(b)
  {
  }

  lemma {:induction false} MallocKeepsOwned(z: Memzone, size: int, tag: int, user: nat)
    requires Valid(z) && 0 <= size <= MAX_REQUEST
    requires user == 0 || user > OWNER_THRESHOLD
    requires PurgeableOwned(z) && Malloc(z, size, tag, user).Ok?
    ensures PurgeableOwned(Malloc(z, size, tag, user).value.zone)
  {
  }

  /** `(unsigned)block->user < 0x100`: the owner test of Z_ChangeTag2 as written, on the low 32 bits of the pointer. */
  predicate LacksOwnerAsWritten(u: User)
    requires !u.ZoneHead?
  {
    RawUser(u) % 0x1_0000_0000 < OWNER_THRESHOLD
  }

  /** The owner test on the whole pointer. */
  predicate LacksOwner(u: User)
    requires !u.ZoneHead?
  {
    RawUser(u) < OWNER_THRESHOLD
  }

  /** The list with the tag of block i replaced. */
  function Retag(z: Memzone, i: nat, tag: int): (r: Memzone)
    requires 1 <= i < |z.blocks|
    ensures |r.blocks| == |z.blocks| && r.blocks[i] == z.blocks[i].(tag := tag)
    ensures forall j :: 0 <= j < |z.blocks| && j != i ==> r.blocks[j] == z.blocks[j]
    ensures r.size == z.size && r.rover == z.rover && r.slots == z.slots
  {
    z.(blocks := z.blocks[i := z.blocks[i].(tag := tag)])
  }

  lemma {:induction false} RetagValid(z: Memzone, i: nat, tag: int)
    requires Valid(z) && 1 <= i < |z.blocks|
    ensures Valid(Retag(z, i, tag))
    ensures Live(z.blocks) == Live(z.blocks[..i]) + Live([z.blocks[i]]) + Live(z.blocks[i + 1..])
    ensures Live(Retag(z, i, tag).blocks) == Live(z.blocks[..i]) + Live([z.blocks[i].(tag := tag)]) + Live(z.blocks[i + 1..])
  {
    var r := Retag(z, i, tag);
    assert Valid(r) by {
      assert forall j :: 1 <= j < |r.blocks| ==>
        (r.blocks[j].offset == z.blocks[j].offset && r.blocks[j].size == z.blocks[j].size && IsFree(r.blocks[j]) == IsFree(z.blocks[j]));
    }
    LiveSplit(z.blocks, i);
    LiveSplit(r.blocks, i);
    assert r.blocks[..i] == z.blocks[..i];
    assert r.blocks[i + 1..] == z.blocks[i + 1..];
  }

  /**
   * Z_ChangeTag2 as written: the owner test looks only at the low 32 bits
   * of the 64-bit `user` pointer.
   */
  function ChangeTagAsWritten(z: Memzone, ptr: int, tag: int): (r: Outcome<Memzone>)
    requires Valid(z)
    requires ptr == 0 || PayloadIndex(z.blocks, ptr).Some?
    ensures r.Fatal? <==>
      (ptr == 0 || (tag >= PU_PURGELEVEL && LacksOwnerAsWritten(z.blocks[PayloadIndex(z.blocks, ptr).value].user)))
    ensures r.Fatal? ==> r.message == (if ptr == 0 then CHANGE_TAG_NULL else CHANGE_TAG_OWNER)
    ensures r.Ok? ==>
      var i := PayloadIndex(z.blocks, ptr).value;
      && Valid(r.value)
      && |r.value.blocks| == |z.blocks| && r.value.blocks[i] == z.blocks[i].(tag := tag)
      && (forall j :: 0 <= j < |z.blocks| && j != i ==> r.value.blocks[j] == z.blocks[j])
      && r.value.size == z.size && r.value.rover == z.rover && r.value.slots == z.slots
  {
    if ptr == 0 then
      Fatal(CHANGE_TAG_NULL)
    else
      var i := PayloadIndex(z.blocks, ptr).value;
      assert WellFormedBlock(z.blocks[i]);
      if tag >= PU_PURGELEVEL && LacksOwnerAsWritten(z.blocks[i].user) then
        Fatal(CHANGE_TAG_OWNER)
      else
        RetagValid(z, i, tag);
        Ok(Retag(z, i, tag))
  }

  /**
   * Z_ChangeTag2 with the owner test on the whole pointer: a NULL pointer
   * is fatal, and a block may become purgeable only if it has an owner.
   */
  function ChangeTag(z: Memzone, ptr: int, tag: int): (r: Outcome<Memzone>)
    requires Valid(z)
    requires ptr == 0 || PayloadIndex(z.blocks, ptr).Some?
    ensures r.Fatal? <==>
      (ptr == 0 || (tag >= PU_PURGELEVEL && !z.blocks[PayloadIndex(z.blocks, ptr).value].user.Owner?))
    ensures r.Fatal? ==> r.message == (if ptr == 0 then CHANGE_TAG_NULL else CHANGE_TAG_OWNER)
    ensures r.Ok? ==>
      var i := PayloadIndex(z.blocks, ptr).value;
      && Valid(r.value)
      && |r.value.blocks| == |z.blocks| && r.value.blocks[i] == z.blocks[i].(tag := tag)
      && (forall j :: 0 <= j < |z.blocks| && j != i ==> r.value.blocks[j] == z.blocks[j])
      && r.value.size == z.size && r.value.rover == z.rover && r.value.slots == z.slots
  {
    if ptr == 0 then
      Fatal(CHANGE_TAG_NULL)
    else
      var i := PayloadIndex(z.blocks, ptr).value;
      assert WellFormedBlock(z.blocks[i]);
      if tag >= PU_PURGELEVEL && LacksOwner(z.blocks[i].user) then
        Fatal(CHANGE_TAG_OWNER)
      else
        RetagValid(z, i, tag);
        Ok(Retag(z, i, tag))
  }

  /** A successful Z_ChangeTag never leaves a purgeable block in use without an owner. */
  lemma {:induction false} ChangeTagKeepsOwned(z: Memzone, ptr: int, tag: int)
    requires Valid(z) && PurgeableOwned(z)
    requires ptr == 0 || PayloadIndex(z.blocks, ptr).Some?
    requires ChangeTag(z, ptr, tag).Ok?
    ensures PurgeableOwned(ChangeTag(z, ptr, tag).value)
  {
    var i := PayloadIndex(z.blocks, ptr).value;
    var r := ChangeTag(z, ptr, tag).value;
    RetagValid(z, i, tag);
    LiveSingle(z.blocks[i]);
    LiveSingle(z.blocks[i].(tag := tag));
    assert r == Retag(z, i, tag);
  }

  /**
   * The as-written owner test refuses a block whose owner slot lies at
   * 0x1_0000_0010: the low 32 bits are 0x10, below 0x100.
   */
  lemma ChangeTagTruncationRefusesOwner()
    ensures
      var z := Memzone(200, [SENTINEL, Block(ZONE_HEADER, 144, Owner(0x1_0000_0010), PU_STATIC)], 1,
                       map[0x1_0000_0010 := ZONE_HEADER + BLOCK_HEADER]);
      && Valid(z)
      && PayloadIndex(z.blocks, ZONE_HEADER + BLOCK_HEADER) == Some(1)
      && ChangeTagAsWritten(z, ZONE_HEADER + BLOCK_HEADER, PU_CACHE).Fatal?
      && ChangeTag(z, ZONE_HEADER + BLOCK_HEADER, PU_CACHE).Ok?
  {
    var z := Memzone(200, [SENTINEL, Block(ZONE_HEADER, 144, Owner(0x1_0000_0010), PU_STATIC)], 1,
                     map[0x1_0000_0010 := ZONE_HEADER + BLOCK_HEADER]);
    assert FindPayload(z.blocks, ZONE_HEADER + BLOCK_HEADER, 1) == Some(1);
  }

  /** Bytes of the blocks in s that are free or purgeable. */
  function Reclaimable(s: seq<Block>): int {
    if |s| == 0 then 0
    else Reclaimable(s[..|s| - 1]) + (if IsFree(s[|s| - 1]) || Purgeable(s[|s| - 1]) then s[|s| - 1].size else 0)
  }

  /** Total bytes of the blocks in s. */
  function Bytes(s: seq<Block>): int {
    if |s| == 0 then 0 else Bytes(s[..|s| - 1]) + s[|s| - 1].size
  }

  /** The blocks 1..k of a valid zone cover the bytes from the end of the header to the end of block k. */
  lemma {:induction false} BytesCover(z: Memzone, k: nat)
    requires Valid(z) && 1 <= k < |z.blocks|
    ensures Bytes(z.blocks[1..k + 1]) == z.blocks[k].offset + z.blocks[k].size - ZONE_HEADER
  {
    var s := z.blocks;
    if k == 1 {
      assert s[1..2][..0] == [];
    } else {
      assert s[1..k + 1][..k - 1] == s[1..k];
      BytesCover(z, k - 1);
    }
  }

  /** Reclaimable bytes never exceed the total, and reach it only when every block is free or purgeable. */
  lemma {:induction false} ReclaimableBound(s: seq<Block>)
    requires forall i :: 0 <= i < |s| ==> s[i].size > 0
    ensures 0 <= Reclaimable(s) <= Bytes(s)
    ensures Reclaimable(s) == Bytes(s) <==> forall i :: 0 <= i < |s| ==> IsFree(s[i]) || Purgeable(s[i])
  {
    if |s| > 0 {
      var p := s[..|s| - 1];
      ReclaimableBound(p);
      if Reclaimable(s) == Bytes(s) {
        forall i | 0 <= i < |s|
          ensures IsFree(s[i]) || Purgeable(s[i])
        {
          if i < |s| - 1 {
            assert s[i] == p[i];
          }
        }
      }
      if forall i :: 0 <= i < |s| ==> IsFree(s[i]) || Purgeable(s[i]) {
        assert forall i :: 0 <= i < |p| ==> IsFree(p[i]) || Purgeable(p[i]);
      }
    }
  }

  /** The reclaimable bytes of a valid zone are bounded by the zone, and reach its end only when nothing is locked. */
  lemma {:induction false} ReclaimableInZone(z: Memzone)
    requires Valid(z)
    ensures 0 <= Reclaimable(z.blocks[1..]) <= z.size - ZONE_HEADER
    ensures Reclaimable(z.blocks[1..]) == z.size - ZONE_HEADER <==>
      forall i :: 1 <= i < |z.blocks| ==> IsFree(z.blocks[i]) || Purgeable(z.blocks[i])
  {
    var s := z.blocks;
    var t := s[1..];
    assert forall k :: 0 <= k < |t| ==> t[k] == s[k + 1];
    ReclaimableBound(t);
    BytesCover(z, |s| - 1);
    assert s[1..|s|] == t;
    if forall i :: 0 <= i < |t| ==> IsFree(t[i]) || Purgeable(t[i]) {
      forall i | 1 <= i < |s|
        ensures IsFree(s[i]) || Purgeable(s[i])
      {
        assert s[i] == t[i - 1];
      }
    }
  }

  /**
   * Z_FreeMemory: the bytes held by blocks that are free or purgeable,
   * which is all of the zone after its header exactly when nothing is
   * locked in memory.
   */
  method FreeMemory(z: Memzone) returns (free: int)
    requires Valid(z)
    ensures free == Reclaimable(z.blocks[1..])
    ensures 0 <= free <= z.size - ZONE_HEADER
    ensures free == z.size - ZONE_HEADER <==> forall i :: 1 <= i < |z.blocks| ==> IsFree(z.blocks[i]) || Purgeable(z.blocks[i])
  {
    var s := z.blocks;
    free := 0;
    var i := 1;
    while i < |s|
      invariant 1 <= i <= |s|
      invariant free == Reclaimable(s[1..i])
    {
      assert s[1..i + 1][..i - 1] == s[1..i];
      if IsFree(s[i]) || Purgeable(s[i]) {
        free := free + s[i].size;
      }
      i := i + 1;
    }
    assert s[1..i] == s[1..];
    ReclaimableInZone(z);
  }

  /**
   * Z_CheckHeap: walk the list up to the block before the sentinel and stop
   * with an error at the first block that does not touch its successor or
   * that is free with a free successor.
   */
  method CheckHeap(z: Memzone) returns (r: Outcome<()>)
    requires |z.blocks| >= 2
    ensures r.Ok? <==> Contiguous(z.blocks) && NoAdjacentFree(z.blocks)
    ensures r.Fatal? ==>
      || (r.message == HEAP_TOUCH && !Contiguous(z.blocks))
      || (r.message == HEAP_TWO_FREE && !NoAdjacentFree(z.blocks))
  {
    var s := z.blocks;
    var i := 1;
    while i < |s| - 1
      invariant 1 <= i <= |s| - 1
      invariant forall k :: 1 <= k < i ==> s[k].offset + s[k].size == s[k + 1].offset
      invariant forall k :: 1 <= k < i ==> !(IsFree(s[k]) && IsFree(s[k + 1]))
    {
      if s[i].offset + s[i].size != s[i + 1].offset {
        return Fatal(HEAP_TOUCH);
      }
      if IsFree(s[i]) && IsFree(s[i + 1]) {
        return Fatal(HEAP_TWO_FREE);
      }
      i := i + 1;
    }
    return Ok(());
  }
}

=== FILE: zone_runs.dfy ===
/**
 * The room Z_Malloc's scan can find. The scan walks the block ring from
 * its base and can use a run of consecutive blocks that are each free or
 * purgeable: it purges the ones in use and the freed space merges into one
 * free block. A block that is in use and not purgeable ends a run.
 */
module ZoneRuns {
  import opened Zone

  /** A block the scan can take: free already, or in use with a purgeable tag. */
  predicate Takeable(b: Block) {
    IsFree(b) || Purgeable(b)
  }

  /** The total size of a run of blocks. */
  function Total(w: seq<Block>): int {
    if w == [] then 0 else Total(w[..|w| - 1]) + w[|w| - 1].size
  }

  lemma {:induction false} TotalAppend(a: seq<Block>, b: seq<Block>)
    ensures Total(a + b) == Total(a) + Total(b)
    decreases |b|
  {
    if b == [] {
      assert a + b == a;
    } else {
      assert (a + b)[..|a + b| - 1] == a + b[..|b| - 1];
      TotalAppend(a, b[..|b| - 1]);
    }
  }

  lemma TotalSingle(b: Block)
    ensures Total([b]) == b.size
  {
    assert [b][..0] == [];
  }

  /** No block of w has a negative size. */
  predicate Sized(w: seq<Block>) {
    forall k :: 0 <= k < |w| ==> w[k].size >= 0
  }

  lemma {:induction false} TotalNonneg(w: seq<Block>)
    requires Sized(w)
    ensures Total(w) >= 0
    decreases |w|
  {
    if w != [] {
      TotalNonneg(w[..|w| - 1]);
    }
  }

  /** A slice of a suffix is a slice of the whole. */
  lemma SuffixSlice(w: seq<Block>, c: int, a: int, b: int)
    requires 0 <= c <= |w| && 0 <= a <= b <= |w| - c
    ensures w[c..][a..b] == w[c + a..c + b]
  {
  }

  /** Past its first element, a slice of [f] + u is a slice of u. */
  lemma ConsSlice(f: Block, u: seq<Block>, a: int, b: int)
    requires 1 <= a <= b <= |u| + 1
    ensures ([f] + u)[a..b] == u[a - 1..b - 1]
  {
  }

  /** Blocks i .. j-1 of w are all takeable and hold at least `need` bytes between them. */
  predicate RunFits(w: seq<Block>, i: int, j: int, need: int) {
    && 0 <= i < j <= |w|
    && (forall k :: i <= k < j ==> Takeable(w[k]))
    && Total(w[i..j]) >= need
  }

  /** Some run of consecutive takeable blocks of w holds at least `need` bytes. */
  predicate Fits(w: seq<Block>, need: int) {
    exists i, j | 0 <= i < j <= |w| :: RunFits(w, i, j, need)
  }

  /** A takeable first block that is large enough is room by itself. */
  lemma FitsFirst(w: seq<Block>, need: int)
    requires |w| >= 1 && Takeable(w[0]) && w[0].size >= need
    ensures Fits(w, need)
  {
    assert w[0..1] == [w[0]];
    TotalSingle(w[0]);
    assert RunFits(w, 0, 1, need);
  }

  /** A single block too small for the request is no room, and neither is nothing. */
  lemma FitsSmall(w: seq<Block>, need: int)
    requires |w| <= 1 && (|w| == 1 ==> w[0].size < need)
    ensures !Fits(w, need)
  {
    if |w| == 1 {
      assert w[0..1] == [w[0]];
      TotalSingle(w[0]);
    }
  }

  /** A block the scan cannot take splits the room in two: what lies before it and what lies after. */
  lemma FitsSkip(w: seq<Block>, d: int, need: int)
    requires 0 <= d < |w| && !Takeable(w[d])
    ensures Fits(w, need) <==> Fits(w[..d], need) || Fits(w[d + 1..], need)
  {
    if Fits(w, need) {
      var i, j :| 0 <= i < j <= |w| && RunFits(w, i, j, need);
      RunAvoids(w, d, need, i, j);
    }
    if Fits(w[..d], need) {
      var i, j :| 0 <= i < j <= |w[..d]| && RunFits(w[..d], i, j, need);
      RunBefore(w, d, need, i, j);
    }
    if Fits(w[d + 1..], need) {
      var i, j :| 0 <= i < j <= |w[d + 1..]| && RunFits(w[d + 1..], i, j, need);
      RunAfter(w, d, need, i, j);
    }
  }

  /** A run never passes a block the scan cannot take, so it lies wholly before or after it. */
  lemma RunAvoids(w: seq<Block>, d: int, need: int, i: int, j: int)
    requires 0 <= d < |w| && !Takeable(w[d]) && RunFits(w, i, j, need)
    ensures Fits(w[..d], need) || Fits(w[d + 1..], need)
  {
    hide Total;
    if j <= d {
      assert w[..d][i..j] == w[i..j];
      assert RunFits(w[..d], i, j, need);
    } else {
      assert i > d;
      SuffixSlice(w, d + 1, i - d - 1, j - d - 1);
      assert RunFits(w[d + 1..], i - d - 1, j - d - 1, need);
    }
  }

  /** A run before the block is a run of the whole. */
  lemma RunBefore(w: seq<Block>, d: int, need: int, i: int, j: int)
    requires 0 <= d < |w| && RunFits(w[..d], i, j, need)
    ensures Fits(w, need)
  {
    hide Total;
    assert w[..d][i..j] == w[i..j];
    assert RunFits(w, i, j, need);
  }

  /** A run after the block is a run of the whole. */
  lemma RunAfter(w: seq<Block>, d: int, need: int, i: int, j: int)
    requires 0 <= d < |w| && RunFits(w[d + 1..], i, j, need)
    ensures Fits(w, need)
  {
    hide Total;
    SuffixSlice(w, d + 1, i, j);
    forall k | i + d + 1 <= k < j + d + 1
      ensures Takeable(w[k])
    {
      assert w[d + 1..][k - d - 1] == w[k];
    }
    assert RunFits(w, i + d + 1, j + d + 1, need);
  }

  /** Within a run of sized blocks, a part holds no more than the whole. */
  lemma PartAtMost(w: seq<Block>, i: int, j: int, c: int)
    requires Sized(w) && 0 <= i <= j <= c <= |w|
    ensures Total(w[i..j]) <= Total(w[..c])
  {
    assert w[..c] == w[..i] + w[i..j] + w[j..c];
    TotalAppend(w[..i] + w[i..j], w[j..c]);
    TotalAppend(w[..i], w[i..j]);
    TotalNonneg(w[..i]);
    TotalNonneg(w[j..c]);
  }

  /**
   * Merging the first c blocks, all takeable, into one takeable block of
   * their total size changes no answer: a run through the merged blocks
   * only gets larger by taking all of them.
   */
  lemma FitsMerge(w: seq<Block>, c: int, f: Block, need: int)
    requires Sized(w) && 1 <= c <= |w|
    requires forall k :: 0 <= k < c ==> Takeable(w[k])
    requires Takeable(f) && f.size == Total(w[..c])
    ensures Fits(w, need) <==> Fits([f] + w[c..], need)
  {
    if Fits(w, need) {
      var i, j :| 0 <= i < j <= |w| && RunFits(w, i, j, need);
      MergeKeepsRun(w, c, f, need, i, j);
    }
    if Fits([f] + w[c..], need) {
      var v := [f] + w[c..];
      var i, j :| 0 <= i < j <= |v| && RunFits(v, i, j, need);
      MergedRunBack(w, c, f, need, i, j);
    }
  }

  /** A run of the blocks before merging gives a run after it. */
  lemma MergeKeepsRun(w: seq<Block>, c: int, f: Block, need: int, i: int, j: int)
    requires Sized(w) && 1 <= c <= |w|
    requires forall k :: 0 <= k < c ==> Takeable(w[k])
    requires Takeable(f) && f.size == Total(w[..c])
    requires RunFits(w, i, j, need)
    ensures Fits([f] + w[c..], need)
  {
    var v := [f] + w[c..];
    if j <= c {
      PartAtMost(w, i, j, c);
      FitsFirst(v, need);
    } else if i >= c {
      ConsSlice(f, w[c..], i - c + 1, j - c + 1);
      SuffixSlice(w, c, i - c, j - c);
      forall k | i - c + 1 <= k < j - c + 1
        ensures Takeable(v[k])
      {
        assert v[k] == w[k + c - 1];
      }
      assert RunFits(v, i - c + 1, j - c + 1, need);
    } else {
      PartAtMost(w, i, j, j);
      MergedPrefix(w, c, f, j);
      assert RunFits(v, 0, j - c + 1, need);
    }
  }

  /** A run of the blocks after merging gives a run before it. */
  lemma MergedRunBack(w: seq<Block>, c: int, f: Block, need: int, i: int, j: int)
    requires Sized(w) && 1 <= c <= |w|
    requires forall k :: 0 <= k < c ==> Takeable(w[k])
    requires f.size == Total(w[..c])
    requires RunFits([f] + w[c..], i, j, need)
    ensures Fits(w, need)
  {
    var v := [f] + w[c..];
    forall k | c <= k && i + c - 1 <= k < j + c - 1
      ensures Takeable(w[k])
    {
      assert v[k - c + 1] == w[k];
    }
    if i == 0 {
      MergedPrefix(w, c, f, j + c - 1);
      assert w[..j + c - 1] == w[0..j + c - 1];
      assert RunFits(w, 0, j + c - 1, need);
    } else {
      ConsSlice(f, w[c..], i, j);
      SuffixSlice(w, c, i - 1, j - 1);
      assert RunFits(w, i + c - 1, j + c - 1, need);
    }
  }

  /** The merged block followed by blocks c .. j-1 holds what blocks 0 .. j-1 held. */
  lemma MergedPrefix(w: seq<Block>, c: int, f: Block, j: int)
    requires 1 <= c <= j <= |w| && f.size == Total(w[..c])
    ensures Total(([f] + w[c..])[0..j - c + 1]) == Total(w[..j])
  {
    assert ([f] + w[c..])[0..j - c + 1] == [f] + w[c..j];
    TotalAppend([f], w[c..j]);
    TotalSingle(f);
    assert w[..j] == w[..c] + w[c..j];
    TotalAppend(w[..c], w[c..j]);
  }

  /** The ring index k steps on from b, in a ring of n entries. */
  function Pos(n: nat, b: nat, k: nat): (p: nat)
    requires b < n && k < n
    ensures p < n
  {
    if b + k < n then b + k else b + k - n
  }

  /** The blocks from index b round the ring up to, and not including, index e. */
  function Window(s: seq<Block>, b: nat, e: nat): (w: seq<Block>)
    requires b < |s| && e < |s|
    ensures |w| == Dist(|s|, b, e)
    ensures forall k :: 0 <= k < |w| ==> w[k] == s[Pos(|s|, b, k)]
  {
    seq(Dist(|s|, b, e), k requires 0 <= k < Dist(|s|, b, e) => s[Pos(|s|, b, k)])
  }

  /** Stepping the start of a window d blocks on drops its first d blocks. */
  lemma WindowShift(s: seq<Block>, b: nat, e: nat, d: nat)
    requires b < |s| && e < |s| && d <= Dist(|s|, b, e)
    ensures Window(s, Pos(|s|, b, d), e) == Window(s, b, e)[d..]
  {
    var n := |s|;
    var b' := Pos(n, b, d);
    assert Dist(n, b', e) == Dist(n, b, e) - d;
    forall k | 0 <= k < Dist(n, b', e)
      ensures Pos(n, b', k) == Pos(n, b, d + k)
    {
    }
  }

  /** The blocks of a valid zone have no negative sizes (the sentinel's is 0). */
  lemma ZoneSized(z: Memzone, b: nat, e: nat)
    requires Valid(z) && b < |z.blocks| && e < |z.blocks|
    ensures Sized(Window(z.blocks, b, e))
  {
    var w := Window(z.blocks, b, e);
    forall k | 0 <= k < |w|
      ensures w[k].size >= 0
    {
      var p := Pos(|z.blocks|, b, k);
      if p != 0 {
        assert WellFormedBlock(z.blocks[p]);
      }
    }
  }

  /** Touching blocks a .. b of a zone cover the bytes from the start of a to the end of b. */
  lemma {:induction false} ContiguousTotal(s: seq<Block>, a: nat, b: nat)
    requires Contiguous(s) && 1 <= a <= b < |s|
    ensures Total(s[a..b + 1]) == s[b].offset + s[b].size - s[a].offset
    decreases b - a
  {
    assert s[a..b + 1][..b - a] == s[a..b];
    if a < b {
      ContiguousTotal(s, a, b - 1);
      assert s[b - 1].offset + s[b - 1].size == s[b].offset;
    } else {
      assert s[a..b] == [];
    }
  }
}
